=== FILE: README.md ===
# qweechat core in Dafny

QWeeChat is a Qt client for the WeeChat relay protocol. This project models
the part of the client that does not draw anything:

- **Protocol** and **Wire**: the binary message decoder. It reads the
  length and compression header, the message id and the typed objects:
  `chr`, `int`, `lon`, `str`, `buf`, `ptr`, `tim`, `htb`, `hda`, `inf`,
  `inl` and `arr`. Wire is a reference encoder for the scalar types, with
  the round-trip lemmas that tie it to the decoder.
- **HexDump**: the hex-and-ASCII dump that the debug log shows.
- **Framer** and **Network**: how the socket's byte stream is cut into
  messages, and the connection's state. That state is the server options,
  the line count, the commands sent and the status changes.
- **Dispatch**: the main window's side. It covers the debug log (at most
  50 entries), the debug and buffer inputs, the decoding of each received
  message, and the routing of a message by its id.
- **Handlers**, **BufferList**, **Buffer** and **Order**: what each kind
  of message does to the list of buffers. That means the buffer list, the
  chat lines, the nicklists and their sorted display, buffers opened,
  moved or closed, and the insertion point for a new buffer.
- **Color**: the translation of WeeChat's colour codes into the chat
  widget's markup, the debug spelling of those codes, and their removal.
- **History**: the input line's history of sent lines, walked with Up and
  Down.

Support modules model the Python behaviour that the code relies on:

- Results: exceptions as faults, and Option.
- Bytes: `struct` packing, and slicing with Python's clamping.
- ODict: insertion-ordered dicts.
- Text: `find`, `split` and `join`.
- PyInt: `int()` on text and `str()` on an int.
- Utf8: encoding and decoding.

The model is functional. An object's state is a datatype. A method becomes
a function from the old state to the new one. A Python exception is an
`Err` result carrying the exception's kind. A handler that changes the
buffers as it goes returns an `Outcome`: the state it reached and, if it
raised, the exception. Python keeps those changes when the exception is
caught, and so does the model.

Everything outside the code is a parameter:

- zlib's decompression is `inflate`.
- Whether the socket is still connected after a message's handler ran is
  `stays`.
- The text form of a decoded message is `describe`.
- The cursor position that Qt leaves after an arrow key is `after`.

## Model

| member | source | states |
|---|---|---|
| Protocol.Lookup | qweechat/weechat/protocol.py:131-144 | a name has a reader exactly when it is one of the twelve object type tags, and the tag found spells that name |
| Protocol.ReadType | qweechat/weechat/protocol.py:146-153 | fewer than 3 bytes empty the data and give the empty type; otherwise exactly 3 bytes are consumed, and decoding fails exactly when they are not valid UTF-8 |
| Protocol.ReadInt | qweechat/weechat/protocol.py:182-189 | a signed big-endian 32-bit value taken from the first 4 bytes; fewer than 4 bytes give 0 and empty the data |
| Protocol.ReadChr | qweechat/weechat/protocol.py:174-180 | the first byte as a signed 8-bit value; with no data the result is 0 and nothing is consumed |
| Protocol.ReadChunk | qweechat/weechat/protocol.py:155-172 | the length prefix (1 unsigned or 4 signed bytes) decides between absent (negative), empty (zero) and data; the data is at most the length and is clipped to what remains; too short a prefix empties the data |
| Protocol.ReadStr | qweechat/weechat/protocol.py:198-203 | succeeds exactly when there is no payload (absent or empty) or the payload is valid UTF-8, and only consumes input |
| Protocol.ReadBuf | qweechat/weechat/protocol.py:205-207 | a buffer is None, the empty string or bytes, and the read never grows the data |
| Protocol.ReadPtr | qweechat/weechat/protocol.py:209-214 | with data the pointer is the text "0x" followed by the payload; with no data it is None; a zero length gives "0x" |
| Protocol.ReadPtrAsWritten | qweechat/weechat/protocol.py:209-214 | the pointer as the code formats it; it consumes exactly what the intended reader consumes and is None at the same time |
| Protocol.NullPointerAsWritten | qweechat/weechat/protocol.py:214 | the null pointer on the wire (payload "0") reads as "0xb'0'" as written, and as "0x0" as intended |
| Protocol.AsWrittenNeverNull | qweechat/weechat/protocol.py:214 | as written, no input ever reads as the null pointer "0x0" |
| Protocol.BytesRepr | qweechat/weechat/protocol.py:214 | the `%s` rendering of a bytes value starts with `b` and a quote |
| Protocol.ReadDecimal | qweechat/weechat/protocol.py:191-196 | `lon` and `tim`: with no data the value is None; a zero-length payload makes `int()` raise ValueError; a successful read gives an int |
| Protocol.ReadNamed | qweechat/weechat/protocol.py:131-144 | a type name without a reader raises KeyError; a successful read only consumes input |
| Protocol.ReadValue | qweechat/weechat/protocol.py:131-144 | every type's reader only consumes input |
| Protocol.ReadHashtable | qweechat/weechat/protocol.py:223-236 | a hashtable read gives a dict and only consumes input |
| Protocol.ReadPairs | qweechat/weechat/protocol.py:232-235 | the key/value loop only consumes input |
| Protocol.FieldDecls | qweechat/weechat/protocol.py:244-250 | every key declaration has a name and a type, or the read faults |
| Protocol.DeclsOf | qweechat/weechat/protocol.py:247-250 | the declaration loop keeps every declaration at two or more parts |
| Protocol.ReadPointers | qweechat/weechat/protocol.py:255-257 | one pointer is read per path segment |
| Protocol.ReadStrPair | qweechat/weechat/protocol.py:240-241 | the path and keys strings are read in turn, only consuming input |
| Protocol.PathSegments | qweechat/weechat/protocol.py:243 | an empty path has no segments; otherwise the segments joined with "/" give the path back |
| Protocol.ReadHdataHeader | qweechat/weechat/protocol.py:240-242 | a header announcing items has consumed input |
| Protocol.ReadHdata | qweechat/weechat/protocol.py:238-267 | an hdata has as many items as its count (none for a count of zero or less), and each item carries one pointer per path segment |
| Protocol.ReadItem | qweechat/weechat/protocol.py:252-261 | an item carries one pointer per path segment |
| Protocol.ReadItems | qweechat/weechat/protocol.py:252-261 | exactly `count` items, each with its pointers |
| Protocol.ReadFields | qweechat/weechat/protocol.py:258-259 | one value per declared key, under that key's name |
| Protocol.ReadInfolist | qweechat/weechat/protocol.py:275-292 | an infolist read gives an infolist and only consumes input |
| Protocol.ReadInfolistItems | qweechat/weechat/protocol.py:280-288 | exactly `count` variable dicts |
| Protocol.ReadVariables | qweechat/weechat/protocol.py:283-287 | the variable loop only consumes input |
| Protocol.ReadArray | qweechat/weechat/protocol.py:294-301 | an array read gives a list and only consumes input |
| Protocol.ReadElements | qweechat/weechat/protocol.py:299-300 | exactly `count` values |
| Protocol.ReadObjects | qweechat/weechat/protocol.py:326-330 | every object decoded has a known type tag; no data gives no objects; 1 or 2 leftover bytes read the empty type, which raises KeyError |
| Protocol.Uncompress | qweechat/weechat/protocol.py:309-318 | with a zero flag the data is kept; otherwise the result is a fresh header (its length includes the header, flag 0) followed by the inflated body |
| Protocol.Decode | qweechat/weechat/protocol.py:303-332 | corrected (see ## Findings), pointers read as the intended Protocol.ReadPtr, not Protocol.ReadPtrAsWritten: fewer than 5 bytes fail as `struct.error`; a message records the frame size, the compression flag, the uncompressed length, and the frame itself when not compressed |
| Wire.ReadIntEncoded | qweechat/weechat/protocol.py:182-189 | every 32-bit int reads back from its 4-byte encoding, leaving what follows |
| Wire.ReadChrEncoded | qweechat/weechat/protocol.py:174-180 | every signed byte reads back from its encoding |
| Wire.ReadChunkEncoded | qweechat/weechat/protocol.py:155-172 | a length-prefixed payload reads back (empty for length 0) with the rest left over |
| Wire.ReadStrEncoded | qweechat/weechat/protocol.py:198-203 | every string reads back from its UTF-8 encoding |
| Wire.LookupTagName | qweechat/weechat/protocol.py:131-144 | every type tag's name finds that tag |
| Wire.ReadTypeEncoded | qweechat/weechat/protocol.py:146-153 | every tag reads back from its 3-byte name |
| Wire.ReadDecimalEncoded | qweechat/weechat/protocol.py:191-196 | every int reads back from its decimal text |
| Wire.ReadPtrEncoded | qweechat/weechat/protocol.py:209-214 | every pointer text "0x…" reads back from its hex digits |
| Wire.ReadBufEncoded | qweechat/weechat/protocol.py:205-207 | every buffer value reads back from its encoding |
| Wire.ReadValueEncoded | qweechat/weechat/protocol.py:131-144 | the reader named by a scalar object's tag gives its value back |
| Wire.ReadObjectEncoded | qweechat/weechat/protocol.py:328-329 | one object reads back as tag, then value |
| Wire.ReadObjectsEncoded | qweechat/weechat/protocol.py:326-330 | any sequence of scalar objects reads back from its encoding |
| Wire.ReadObjectsStep | qweechat/weechat/protocol.py:327-330 | one turn of the object loop puts the object read in front of the others |
| Wire.EncodeMessage | qweechat/weechat/protocol.py:303-320 | an encoded message's header holds its own length and flag 0 |
| Wire.DecodeEncoded | qweechat/weechat/protocol.py:303-332 | an uncompressed message decodes back to its id and objects, sized by its length |
| Wire.DecodeCompressed | qweechat/weechat/protocol.py:309-318 | a compressed frame decodes like the plain frame rebuilt from the inflated body: same id and objects, that frame as `uncompressed`, and its length as the uncompressed size |
| HexDump.Hex2 | qweechat/weechat/protocol.py:352 | two hex digits whose value is the byte |
| HexDump.Shown | qweechat/weechat/protocol.py:353-356 | the ASCII column never shows a line break |
| HexDump.HexPart | qweechat/weechat/protocol.py:344-352 | the hex column of a line has a fixed width (3 per byte less 1) and no line break |
| HexDump.AsciiPart | qweechat/weechat/protocol.py:344-356 | the ASCII column has one character per byte and no line break |
| HexDump.Line | qweechat/weechat/protocol.py:357-359 | every dump line has the same width and no line break |
| HexDump.Lines | qweechat/weechat/protocol.py:337-359 | one line per started group of bytes; no data gives no lines |
| HexDump.LinesCover | qweechat/weechat/protocol.py:337 | the lines cover every byte, and the last line is not empty |
| HexDump.LineExists | qweechat/weechat/protocol.py:337 | every byte falls on an existing line |
| HexDump.HexColumn | qweechat/weechat/protocol.py:347-352 | each hex pair shows the byte at its position |
| HexDump.DumpShowsByte | qweechat/weechat/protocol.py:341-359 | every byte of the data appears in its line both as hex and as its ASCII column character |
| HexDump.HexAndAscii | qweechat/weechat/protocol.py:335-360 | no data gives ""; otherwise splitting the dump at line breaks gives exactly its lines |
| HexDump.DumpSplits | qweechat/weechat/protocol.py:360 | splitting the dump at line breaks gives the lines back |
| Framer.Cut | qweechat/network.py:88-98 | no message is cut exactly when fewer than 4 bytes or fewer than the announced length are buffered; a cut message and the remainder make up the buffer, and the message has the announced length |
| Framer.Drain | qweechat/network.py:84-105 | a read that waits leaves an incomplete message in the buffer |
| Framer.DrainConserves | qweechat/network.py:84-105 | unless a handler disconnects, the messages emitted followed by the buffer are exactly the bytes received |
| Framer.DrainStops | qweechat/network.py:99-101 | a read that stops at a disconnect leaves the last emitted message in the buffer |
| Framer.DrainSpins | qweechat/network.py:95-104 | a read that cannot make progress has just emitted an empty message, after which the connection was taken to be still up |
| Framer.DrainNonEmpty | qweechat/network.py:95-104 | only the last message of a read can be empty |
| Framer.DrainFrames | qweechat/network.py:84-105 | while connected, a stream of whole messages then an incomplete tail emits exactly those messages and keeps the tail |
| Framer.TwoReads | qweechat/network.py:84-105 | however the stream is split between two reads, the same messages come out and the same tail is kept |
| Framer.PrefixIncomplete | qweechat/network.py:91-93 | every proper prefix of a message is incomplete, so the loop waits |
| Framer.DrainIncomplete | qweechat/network.py:88-93 | an incomplete buffer emits nothing and is kept |
| Framer.CutFrame | qweechat/network.py:90-98 | a whole message at the front of the buffer is cut off exactly |
| Framer.SocketReadAsWritten | qweechat/network.py:84-104 | the new bytes go after the buffered ones, and every byte is emitted or kept unless a handler disconnects |
| Framer.SocketRead | qweechat/network.py:84-104 | emits the same messages as the written loop; every byte is emitted or kept, and a read that disconnects keeps nothing |
| Framer.DrainFixed | qweechat/network.py:99-102 | the fixed loop behaves like the written one except that it empties the buffer when a handler disconnects |
| Framer.StaleFrameReplayed | qweechat/network.py:99-101 | as written, a message whose handler disconnects stays buffered and is emitted again first by the next read |
| Framer.FixedStartsClean | qweechat/network.py:99-102 | with the fix, the next read starts from an empty buffer and accounts only for the bytes it received |
| Network.NewSession | qweechat/network.py:53-68 | a new connection is unconnected, has no options, the default line count, and nothing buffered, sent or received |
| Network.Send | qweechat/network.py:156-158 | one more write whose bytes decode as the message; nothing else changes |
| Network.SocketConnected | qweechat/network.py:70-76 | the status becomes connected; with a non-empty password the init and sync batch is written, otherwise nothing is |
| Network.SocketError | qweechat/network.py:78-82 | a disconnected status carrying the error text is emitted; nothing else changes |
| Network.SocketRead | qweechat/network.py:84-104 | corrected (see ## Findings), as written Network.SocketReadAsWritten over Framer.Drain: every message cut is passed on in order; the bytes are conserved while connected, and a disconnect leaves the socket unconnected with nothing buffered |
| Network.Emit | qweechat/network.py:97-101 | the messages cut are passed on in order after those received before, the framer's buffer is kept, and a read that saw a disconnect leaves the socket unconnected; nothing else changes |
| Network.SocketReadAsWritten | qweechat/network.py:84-104 | as written, a disconnect leaves the socket unconnected with the framer's buffer kept |
| Network.SocketDisconnected | qweechat/network.py:106-112 | the server options are forgotten and a disconnected status is emitted; the line count and buffer stay |
| Network.IntOr | qweechat/network.py:125-134 | the text's value when `int()` on a str accepts it, Unicode white space around the number included, otherwise the fallback |
| Network.ConnectWeechat | qweechat/network.py:122-143 | the options are stored, the port and line count read by `int()` on a str (port 0 and the default line count when that raises); an already connected socket stays connected without a status, otherwise it starts connecting and says so |
| Network.DisconnectWeechat | qweechat/network.py:145-154 | an unconnected socket is left alone; a connected one is sent "quit" and its abort runs the disconnected slot, which forgets the server options; a connecting one keeps its options; either way exactly one disconnected status is emitted and the socket ends unconnected |
| Network.Desync | qweechat/network.py:160-162 | one write of "desync" |
| Network.Sync | qweechat/network.py:164-166 | as written, the sync batch is sent with the line-count placeholder left unfilled |
| Network.SyncFixed | qweechat/network.py:164-166 | the sync batch is sent with the session's line count filled in |
| Network.GetOptions | qweechat/network.py:177-185 | ssl reads "on" exactly when it is set; the line count is given as text that parses back to it |
| Network.NoNewlineInSync | qweechat/network.py:32-44 | no sync command contains a line break |
| Network.BatchLines | qweechat/network.py:30-44 | the batch sent on connecting is one line per command, the init command first, and ends in a line break |
| Network.SyncIsLiteral | qweechat/network.py:166 | no line count gives the unfilled batch, so as written the server never gets a number |
| Network.SyncFixedMatchesBatch | qweechat/network.py:164-166 | the fixed sync sends the same commands as the connect batch without the init |
| Network.OptionsRoundTrip | qweechat/network.py:177-185 | reconnecting with the options read back restores the port, line count and ssl |
| Network.ReconnectNeedsPassword | qweechat/network.py:106-112 | after a disconnect the options are gone, so reconnecting sends no init |
| Network.PoisonFails | qweechat/weechat/protocol.py:326-329 | a well-framed message with an unknown object type fails to decode with KeyError |
| Network.UnknownObject | qweechat/weechat/protocol.py:328-329 | an unknown three-letter type raises KeyError |
| Network.PoisonReplayed | qweechat/network.py:99-101 | as written, a message that fails to decode makes the client disconnect and is emitted again by the next connection's first read |
| Network.PoisonDropped | qweechat/network.py:99-102 | with the fix, the next connection's first read emits only what it received |
| Dispatch.NewClient | qweechat/qweechat.py:73-90 | the window starts with one default buffer whose pointer is "", an empty debug log and no connection |
| Dispatch.LastKeepsNewest | qweechat/qweechat.py:306-307 | the debug log keeps the newest entries, at most 50, in order |
| Dispatch.LastAbsorbs | qweechat/qweechat.py:306-307 | trimming at each step gives the same log as trimming once at the end |
| Dispatch.Display | qweechat/qweechat.py:304-307 | the entry ends the log, which stays within 50; nothing else changes |
| Dispatch.DisplayAll | qweechat/qweechat.py:439-454 | several entries logged in turn are the newest entries of the whole sequence |
| Dispatch.DebugRewrite | qweechat/qweechat.py:324-329 | text from the debug dialog always gets a command id starting with "debug" |
| Dispatch.UndoRewrite | qweechat/qweechat.py:324-329 | the rewriting loses nothing: the original text can be recovered |
| Dispatch.NamedCommandId | qweechat/qweechat.py:325-327 | "(id)rest" is sent as "(debug_id)rest" |
| Dispatch.DebugRepliesIgnored | qweechat/qweechat.py:604-605 | replies to debug commands are routed to the debug branch |
| Dispatch.DebugReplyOnlyLogs | qweechat/qweechat.py:604-605 | a reply to a debug command only logs that it was ignored |
| Dispatch.DebugInput | qweechat/qweechat.py:321-331 | when connected, the rewritten text is logged and sent followed by a line break; otherwise nothing changes |
| Dispatch.InputCommandRoundTrip | qweechat/qweechat.py:289 | the buffer name and the text can be read back from the input command |
| Dispatch.BufferInput | qweechat/qweechat.py:286-291 | when connected, "input NAME TEXT" is sent and logged; otherwise nothing changes |
| Dispatch.StatusChanged | qweechat/qweechat.py:403-408 | a status change is logged in the status colour and nothing else changes |
| Dispatch.RouteOf | qweechat/qweechat.py:602-621 | each message id goes to exactly one branch, in the order the code tests them: a "debug" prefix first, then the exact names, then the "_buffer_" prefix |
| Dispatch.UpdateBuffers | qweechat/qweechat.py:602-617 | corrected (see ## Findings), with the intended `create_buffer`, `insert_buffer` and `find_buffer_index_for_insert`: listbuffers keeps the list or leaves only fresh buffers; line messages keep the count and only append chat lines; nicklist messages keep each buffer's data and chat, redraw nothing when they raise, and otherwise show each changed buffer's refreshed nicklist; opening keeps every buffer and, when nothing raises, adds exactly one fresh buffer per item; buffer events keep the count except for a close or a move that raises |
| Dispatch.Control | qweechat/qweechat.py:604-621 | corrected (see ## Findings), as written Dispatch.UpgradeEndedAsWritten: debug replies are logged as ignored; "_upgrade" desyncs; "_upgrade_ended" resyncs with the line count; other ids change nothing |
| Dispatch.UpgradeEndedAsWritten | qweechat/qweechat.py:620-621 | as written, "_upgrade_ended" sends the batch with the placeholder unfilled |
| Dispatch.ParseMessage | qweechat/qweechat.py:602-621 | corrected (see ## Findings), through Dispatch.UpdateBuffers and Dispatch.Control: an id that changes no buffer goes to Control and raises nothing; otherwise the buffers become the state the handler reached, also when it raised, and its fault is the message's fault |
| Dispatch.Handle | qweechat/qweechat.py:444-459 | a message that raises nothing gives the parsed client; one that raises makes the client disconnect as Dispatch.Disconnect, keeping the buffers as the handler left them and logging the disconnected status |
| Dispatch.Disconnect | qweechat/qweechat.py:403-408 | a disconnect keeps the buffers, leaves the socket unconnected, and logs each status it emits in the status colour: one "disconnected" entry when a socket was open, nothing when none was |
| Dispatch.DisconnectLogged | qweechat/network.py:145-154 | the statuses a disconnect emits are exactly one "disconnected" when the socket was connected or connecting, and none otherwise |
| Dispatch.StatusEntries | qweechat/qweechat.py:403-408 | one log entry per status change, in order, each the status in the status colour |
| Dispatch.Logged | qweechat/qweechat.py:439-454 | a decoded message is logged as its frame dump, its uncompressed dump and its description |
| Dispatch.Receive | qweechat/qweechat.py:437-459 | corrected (see ## Findings), handling as Dispatch.ParseMessage: a frame that fails to decode is logged, then the client disconnects and logs the statuses that emits; otherwise it is logged and handled |
| Dispatch.PoisonDisconnects | qweechat/qweechat.py:437-459 | a message with an unknown object type disconnects and leaves the buffers alone; the log ends with the frame and, when a socket was open, the disconnected status |
| Dispatch.EmptyFrameDisconnects | qweechat/qweechat.py:437-459 | an empty frame fails to decode as `struct.error`, so receiving it logs the frame, keeps the buffers and disconnects; a live connection forgets its options and logs "disconnected" |
| Dispatch.SpinNeedsLiveConnection | qweechat/network.py:95-104 | a read that would spin has emitted an empty message with the connection still up, yet receiving that message disconnects the client |
| Dispatch.EmptyListbuffersEmpties | qweechat/qweechat.py:466-475 | a listbuffers reply whose buffer hdata has no items raises IndexError and leaves the client disconnected with no buffer; a live connection forgets its server and password and its log ends with "disconnected" |
| Handlers.Fresh | qweechat/qweechat.py:471-473 | one fresh buffer per item, in order |
| Handlers.InsertAtEnd | qweechat/qweechat.py:473 | inserting at the end appends the buffer and raises what its row label raises |
| Handlers.AppendItems | qweechat/qweechat.py:471-473 | the loop appends a fresh buffer per item and stops after the first one that raises: the list is the old one followed by the fresh buffers of a prefix of the items |
| Handlers.FirstBad | qweechat/qweechat.py:471-473 | the index of the first item whose row label raises, or the count when none does |
| Handlers.AppendStops | qweechat/qweechat.py:471-473 | the loop appends up to and including the first item that raises, and raises that item's fault |
| Handlers.AppendFaults | qweechat/qweechat.py:471-473 | the loop raises exactly when some item's label raises; without a raise every item is appended; with one, the items before the raising one did not raise |
| Handlers.Listbuffers | qweechat/qweechat.py:461-475 | corrected (see ## Findings), as written Handlers.ListbuffersAsWritten: the list either stays as it was or holds only fresh buffers, and its nicklists stay well formed |
| Handlers.ListbuffersIgnores | qweechat/qweechat.py:463-465 | objects that are not buffer hdata leave the list alone |
| Handlers.ListbuffersStep | qweechat/qweechat.py:466-473 | a buffer hdata whose items all format replaces the list with their fresh buffers, and the next objects go on from there |
| Handlers.ListbuffersLast | qweechat/qweechat.py:461-475 | corrected (see ## Findings): when nothing raises, the last buffer hdata has items and the list is one fresh buffer per item, in order |
| Handlers.ListbuffersLastHere | qweechat/qweechat.py:461-475 | corrected (see ## Findings): a single buffer hdata that raises nothing has items and leaves one fresh buffer per item |
| Handlers.ListbuffersEmptyFails | qweechat/qweechat.py:470-475 | a buffer hdata with no items empties the list and then raises IndexError when the first buffer gets the focus |
| Handlers.ListbuffersAsWritten | qweechat/qweechat.py:461-475 | as written, the list is kept or emptied, and it is kept whenever nothing raises, since `create_buffer` raises on any item |
| Handlers.ListbuffersAsWrittenEmpties | qweechat/qweechat.py:470-475 | a buffer hdata with items empties the list and raises TypeError as written, where the intended handler leaves one fresh buffer per item |
| Handlers.RouteOne | qweechat/qweechat.py:483-495 | a line goes to the first buffer whose pointer matches the item's buffer, with its date, prefix and message; it is dropped only when no buffer matches |
| Handlers.Routed | qweechat/qweechat.py:483-495 | every routed line names an existing buffer |
| Handlers.Reverse | qweechat/qweechat.py:496-497 | the lines of "listlines" are shown in reverse order |
| Handlers.Show | qweechat/qweechat.py:498-499 | showing lines keeps the buffer count |
| Handlers.ShowAppends | qweechat/qweechat.py:498-499 | each buffer's chat gets exactly the lines routed to it, in order |
| Handlers.ParseLines | qweechat/qweechat.py:477-499 | line messages only append to chats; nothing else in any buffer changes |
| Handlers.LinesOfOneHdata | qweechat/qweechat.py:479-499 | for one hdata, each buffer's chat grows by its routed lines in display order |
| Handlers.LinesKeptOnFault | qweechat/qweechat.py:479-499 | lines shown for an hdata stay shown when a later object raises, and that object's fault is the message's |
| Handlers.Str | qweechat/qweechat.py:516-520 | a value is read as text exactly when it is a str, and then it is that str (a non-str raises TypeError in the model only; see ## Left out) |
| Handlers.NextGroup | qweechat/qweechat.py:518-519 | a nick item keeps the current group; a group item makes its name the group, succeeding exactly when the name is a str |
| Handlers.ReadArgs | qweechat/qweechat.py:516-520 | the nick's name, prefix, group flag (by truthiness) and visibility come from the item |
| Handlers.NickItem | qweechat/qweechat.py:509-520 | a nick item changes only nicklists and keeps them well formed; an unknown buffer is skipped; the buffer found is marked for a redraw, and when the item that first resets it raises, it stays reset to an empty nicklist |
| Handlers.NickItems | qweechat/qweechat.py:509-520 | the items of an hdata change only nicklists |
| Handlers.NickObjects | qweechat/qweechat.py:504-520 | the objects of a message change only nicklists |
| Handlers.RefreshTouched | qweechat/qweechat.py:521-522 | exactly the buffers touched get their nicklist display refreshed |
| Handlers.Nicklist | qweechat/qweechat.py:501-522 | every buffer keeps its data and chat; a raise redraws nothing; otherwise each buffer is untouched or shows its refreshed nicklist |
| Handlers.NicklistForgetsOld | qweechat/qweechat.py:513-515 | a full nicklist replaces the old one: a touched buffer's outcome does not depend on its previous nicklist |
| Handlers.NickItemAgree | qweechat/qweechat.py:513-520 | a nick item acts the same on two lists that differ only in nicklists it resets, and raises the same |
| Handlers.NickObjectsAgree | qweechat/qweechat.py:504-520 | the objects of a nicklist message act the same on two such lists, and raise the same |
| Handlers.DiffItem | qweechat/qweechat.py:532-550 | an item for an unknown buffer is skipped; a "^" item only changes the current group; other items keep the group |
| Handlers.DiffItems | qweechat/qweechat.py:532-550 | the items of a diff change only nicklists |
| Handlers.DiffObjects | qweechat/qweechat.py:527-550 | the objects of a diff change only nicklists |
| Handlers.NicklistDiff | qweechat/qweechat.py:524-552 | every buffer keeps its data and chat; a raise redraws nothing; otherwise each buffer is untouched or shows its refreshed nicklist |
| Handlers.DiffAddStep | qweechat/qweechat.py:540-543 | a "+" item adds the nick or group to its buffer's nicklist under the current group |
| Handlers.DiffRemoveStep | qweechat/qweechat.py:544-546 | a "-" item removes the nick from the current group |
| Handlers.DiffAddThenRemove | qweechat/qweechat.py:540-546 | adding a new nick and then removing it restores the buffers |
| Handlers.OpenOne | qweechat/qweechat.py:559-562 | corrected (see ## Findings), as written Handlers.OpenOneAsWritten: a buffer is added exactly when `next_buffer` is there and its insertion point is found, and then it is inserted there; otherwise the list is kept and the handler raises; nothing is raised exactly when the buffer was added and its row label formats |
| Handlers.OpenOneAsWritten | qweechat/qweechat.py:559-562 | as written, `create_buffer` raises TypeError before anything changes |
| Handlers.OpenedBeforeNext | qweechat/qweechat.py:559-562 | corrected (see ## Findings): the new buffer lands just before the buffer named by `next_buffer` |
| Handlers.OpenedLast | qweechat/qweechat.py:559-562 | corrected (see ## Findings): a null `next_buffer` appends the new buffer, raising only what its row label raises |
| Handlers.OpenOneAdds | qweechat/qweechat.py:559-562 | corrected (see ## Findings): the buffer is added once or not at all, and is added when nothing raises |
| Handlers.OpenItems | qweechat/qweechat.py:559-562 | corrected (see ## Findings): every buffer is kept and at most one fresh buffer is added per item; when nothing raises, exactly the items' fresh buffers are added |
| Handlers.BufferOpened | qweechat/qweechat.py:554-562 | corrected (see ## Findings), as written Handlers.BufferOpenedAsWritten: no buffer is lost and only fresh buffers of the items are added; when nothing raises, exactly one per buffer item |
| Handlers.BufferOpenedAsWritten | qweechat/qweechat.py:554-562 | as written, opening never changes the list, and a message that raises nothing is one the intended handler leaves alone too |
| Handlers.OpenedAsWrittenFaults | qweechat/qweechat.py:558-562 | one buffer opened at the end raises TypeError and keeps the list as written, and is appended as intended |
| Handlers.OpenedAtEnd | qweechat/qweechat.py:554-562 | corrected (see ## Findings): a message opening one buffer with a null `next_buffer` appends it and raises nothing |
| Handlers.CopyFields | qweechat/qweechat.py:577-597 | the named fields are copied from the item into that buffer's data; other fields and buffers are kept; nothing raises exactly when every field is there, and a missing one raises KeyError with the fields before it copied |
| Handlers.RenameHalfDone | qweechat/qweechat.py:587-589 | a rename without `short_name` raises KeyError with `full_name` already copied |
| Handlers.MoveBuffer | qweechat/qweechat.py:579-586 | corrected (see ## Findings), as written Handlers.MoveBufferAsWritten: no number raises KeyError with the list kept; an insertion point not found raises with the buffer taken out; otherwise the renumbered buffer is re-inserted at its target, the others are kept, and only its row label can raise |
| Handlers.MoveTarget | qweechat/qweechat.py:584-585 | the insertion point of a moved buffer is found exactly when `next_buffer` is there and the lookup succeeds, and is within the list |
| Handlers.MoveBufferAsWritten | qweechat/qweechat.py:579-586 | as written, a move that raises nothing agrees with the intended one, and one that raises leaves the intended state or the list with the buffer only taken out |
| Handlers.MovedThenFaults | qweechat/qweechat.py:581-586 | moving a buffer whose full name is text to the end re-inserts it renumbered and then raises AttributeError as written; as intended it raises nothing |
| Handlers.ClearChat | qweechat/qweechat.py:593-594 | only that buffer's chat is emptied |
| Handlers.CopyKeepsPointer | qweechat/qweechat.py:577-597 | copying event fields never changes which buffer a pointer names |
| Handlers.PointersAgree | qweechat/buffer.py:159-161 | two lists whose buffers have the same pointers give the same pointer list |
| Handlers.EventOne | qweechat/qweechat.py:571-600 | an item whose buffer is not found is skipped and one whose pointer raises raises; the nicklists stay well formed; the count drops by one at most, and only for a close or a move that raises |
| Handlers.EventItems | qweechat/qweechat.py:571-600 | corrected (see ## Findings), moves as Handlers.MoveBuffer: only a close, or a move that raises, removes buffers; other events keep the count |
| Handlers.BufferEvents | qweechat/qweechat.py:564-600 | corrected (see ## Findings), moves as Handlers.MoveBuffer: only a close, or a move that raises, removes buffers, and the nicklists stay well formed |
| BufferList.NewBuffer | qweechat/qweechat.py:623-631 | corrected (see ## Findings), as written BufferList.CreateBufferAsWritten: a new buffer holds the item's data and nothing else |
| BufferList.CreateBufferAsWritten | qweechat/qweechat.py:623-625 | as written, `Buffer(item, self.config)` passes one argument too many, so `create_buffer` always raises TypeError |
| BufferList.LabelFault | qweechat/qweechat.py:636-638 | corrected (see ## Findings): the row label formats exactly when `full_name` is there and `number` is an int; a missing key raises KeyError |
| BufferList.LabelFaultAsWritten | qweechat/qweechat.py:636-638 | as written, a label that formats would format as intended too, a `full_name` that is not bytes always raises, and a missing key raises KeyError |
| BufferList.InsertBuffer | qweechat/qweechat.py:633-639 | corrected (see ## Findings): the buffer is inserted at the index, then the row label raises exactly what it raises |
| BufferList.InsertBufferAsWritten | qweechat/qweechat.py:633-639 | as written, the buffer is inserted in the same place, and a label that does not raise would not raise as intended either |
| BufferList.TextNameFaults | qweechat/qweechat.py:635-638 | a buffer with an int number and a text full name, as the decoder gives them, is inserted and then raises AttributeError as written; as intended it raises nothing |
| BufferList.Pointers | qweechat/buffer.py:159-161 | every buffer's pointer, in order; one fault fails the whole list |
| BufferList.FirstIndex | qweechat/qweechat.py:655-658 | the first position holding the pointer, or none when it does not occur |
| BufferList.Locate | qweechat/qweechat.py:655-658 | the first buffer with the pointer; an empty list never evaluates the key |
| BufferList.LocateFound | qweechat/qweechat.py:655-658 | the buffer found has the pointer, and no earlier one has it |
| BufferList.LocateMissing | qweechat/qweechat.py:655-658 | not finding the pointer means that no buffer has it |
| BufferList.FindInsertIndex | qweechat/qweechat.py:649-663 | the null pointer and unknown pointers insert at the end; a known pointer inserts at its buffer |
| BufferList.FindInsertIndexAsWritten | qweechat/qweechat.py:649-663 | as written, the result agrees with the intended one whenever it succeeds |
| BufferList.UnknownNextBufferFaults | qweechat/qweechat.py:657-659 | an unknown `next_buffer` makes the written code raise TypeError, where the intended code appends |
| BufferList.AsWrittenDiffersOnlyWhenUnknown | qweechat/qweechat.py:649-663 | the written code fails exactly for a pointer that is neither null nor known |
| BufferList.InsertAt | qweechat/qweechat.py:635 | `list.insert`: the buffer at that index, the others shifted, and the same buffers plus one |
| BufferList.RemoveAt | qweechat/qweechat.py:647 | `list.pop`: the others shifted back, and the same buffers less that one |
| BufferList.InsertRemoveInverse | qweechat/qweechat.py:633-647 | removing and re-inserting at the same index gives the list back, and so does inserting then removing |
| Buffer.Pointer | qweechat/buffer.py:159-161 | the first path pointer; "" when the data has no path; an empty path raises IndexError |
| Buffer.AddItem | qweechat/buffer.py:185-197 | a group is (re)created empty; a nick is appended to its parent group, and a missing parent raises KeyError; other groups stay |
| Buffer.Without | qweechat/buffer.py:206-209 | no nick left has the name |
| Buffer.WithoutKeeps | qweechat/buffer.py:206-209 | the nicks with any other name are kept, in order |
| Buffer.RemoveItem | qweechat/buffer.py:199-209 | a group is deleted, or the nick is filtered out of its parent; a missing parent changes nothing; other groups stay |
| Buffer.AddThenRemove | qweechat/buffer.py:185-209 | adding a new nick and then removing it restores the nicklist |
| Buffer.UpdateFirst | qweechat/buffer.py:218-222 | only the first nick with the name gets the new prefix and visibility |
| Buffer.UpdateItem | qweechat/buffer.py:211-222 | a group's visibility, or the first matching nick, is updated; a missing group or parent changes nothing |
| Buffer.PrefixColour | qweechat/buffer.py:230-235 | no bullet colour for an empty or blank prefix, yellow for "+", green for any other prefix |
| Buffer.Shown | qweechat/buffer.py:227-229 | the nicks in display order: grouped, with the groups in sorted order |
| Buffer.Refresh | qweechat/buffer.py:224-247 | one row per nick, in display order, with its name and bullet colour |
| Buffer.RefreshGroupBlock | qweechat/buffer.py:227-229 | each group's rows are exactly its nicks sorted by name |
| Buffer.RefreshGroupsSorted | qweechat/buffer.py:227 | the groups appear in sorted order |
| Buffer.GroupBlockSorted | qweechat/buffer.py:228-229 | a group's nicks are shown sorted by name, all of them, with nicks of the same name in their order |
| Buffer.SwitchPrev | qweechat/buffer.py:72-76 | previous buffer, wrapping from the first to the last |
| Buffer.SwitchNext | qweechat/buffer.py:78-82 | next buffer, wrapping from the last to the first |
| Buffer.SwitchInverse | qweechat/buffer.py:72-82 | next undoes previous and previous undoes next |
| Order.SortSorted | qweechat/buffer.py:227-229 | `sorted` by a key gives keys in order |
| Order.SortBy | qweechat/buffer.py:227-229 | `sorted` keeps the number of elements and every element with its multiplicity; order and stability are Order.SortSorted and Order.SortStable |
| Order.SortPermutes | qweechat/buffer.py:227-229 | `sorted` keeps every element |
| Order.SortStable | qweechat/buffer.py:228-229 | `sorted` is stable: elements with equal keys keep their order |
| Order.LeTotal | qweechat/buffer.py:227 | any two strings are comparable |
| Order.LeTrans | qweechat/buffer.py:227 | string order is transitive |
| Color.AttrCount | qweechat/weechat/color.py:28 | the run of attribute flags at the front |
| Color.Any | qweechat/weechat/color.py:29-31 | a standard or extended colour match is at least two characters of the colour alphabet |
| Color.Background | qweechat/weechat/color.py:34 | the optional "~colour" part of a "*" code |
| Color.AfterColorCode | qweechat/weechat/color.py:34 | a match after the colour code is never empty |
| Color.Match | qweechat/weechat/color.py:33-36 | a code starts with a control character; a reset is one character; an attribute code takes the next character unless it is a line break; a colour code is the code byte followed by one of its forms |
| Color.PairNumberShadowed | qweechat/weechat/color.py:34 | "@" and five digits is taken by the extended-colour form first, never by the pair-number form |
| Color.LoneColourCode | qweechat/weechat/color.py:34 | the colour code followed by an attribute code matches nothing |
| Color.Sub | qweechat/weechat/color.py:193-201 | text without control characters is unchanged, and stripping never lengthens the text |
| Color.Remove | qweechat/weechat/color.py:197-201 | the text without its codes, never longer, unchanged when it has no control characters |
| Color.RemoveKeepsBetween | qweechat/weechat/color.py:197-201 | removal keeps exactly the text between the matched codes |
| Color.PiecesJoin | qweechat/weechat/color.py:201 | the matched codes and the text between them make up the whole text |
| Color.RemoveUnchanged | qweechat/weechat/color.py:197-201 | removal changes the text exactly when some code matches |
| Color.RemoveNotIdempotent | qweechat/weechat/color.py:197-201 | a second removal can remove more: removing a set-attribute code can join a colour code |
| Color.RemoveJoinsCode | qweechat/weechat/color.py:197-201 | removing the attribute code joins the colour byte with what follows |
| Color.RemoveStep | qweechat/weechat/color.py:201 | a matched code is dropped |
| Color.RemoveChar | qweechat/weechat/color.py:201 | a character that starts no code is kept |
| Color.SubCode | qweechat/weechat/color.py:193-194 | a matched code is replaced and the scan goes on after it |
| Color.SubChar | qweechat/weechat/color.py:193-194 | a character that starts no code is copied |
| Color.ConvertIsSub | qweechat/weechat/color.py:189-194 | conversion is the substitution with the markup or the debug replacement |
| Color.ConvertStep | qweechat/weechat/color.py:189-194 | each code is converted on its own, followed by the rest of the text |
| Color.ConvertReset | qweechat/weechat/color.py:177-179 | a reset becomes the reset of both colours |
| Color.DebugKeepsReset | qweechat/weechat/color.py:183-187 | the debug replacement leaves the reset character as it is |
| Color.ConvertAttribute | qweechat/weechat/color.py:171-176 | set and remove attribute codes become "+" or "-" markup of the attribute's flag |
| Color.AttributeMarkup | qweechat/weechat/color.py:171-176 | the markup of one attribute code |
| Color.AttrChar | qweechat/weechat/color.py:135-142 | the four attributes map to one flag character each; any other code maps to "" |
| Color.AttrCharInjective | qweechat/weechat/color.py:135-142 | different attributes give different flags |
| Color.ConvertWeechatColour | qweechat/weechat/color.py:169-170 | a two-digit code becomes the colour option with that number |
| Color.WeechatColor | qweechat/weechat/color.py:96-102 | an option number past the end gives nothing, and any other gives markup |
| Color.IgnoredCodes | qweechat/weechat/color.py:146-168 | bar and emphasis codes convert to nothing |
| Color.BasicColour | qweechat/weechat/color.py:112-133 | corrected (see ## Findings), as written Color.TerminalColorAsWritten gives "": a standard colour with flags picks that basic colour's terminal entry |
| Color.FlagsThenNumber | qweechat/weechat/color.py:117-124 | the flags are split off the front and the number is parsed after them |
| Color.BasicEntries | qweechat/weechat/color.py:73-78 | every basic colour names one of the 16 first terminal colours |
| Color.ExtendedColour | qweechat/weechat/color.py:113-126 | corrected (see ## Findings), as written Color.TerminalColorAsWritten gives "": an extended colour is that terminal entry, present exactly below 256 |
| Color.TildeNoColour | qweechat/weechat/color.py:127-133 | a colour holding "~" is not a number, so it gives nothing |
| Color.TildeSeparatorIgnored | qweechat/weechat/color.py:156-162 | as written, "*fore~back" gives no colour at all; cut at "~" it gives the foreground then the background |
| Color.TerminalColor | qweechat/weechat/color.py:104-110 | corrected (see ## Findings), as written Color.TerminalColorAsWritten: markup exactly when the index is an entry of the table, carrying the flags and that entry's dimmed colour |
| Color.TerminalColorAsWritten | qweechat/weechat/color.py:104-110 | as written, every terminal colour converts to nothing, because formatting the dimmed channel raises |
| Color.ColorAttr | qweechat/weechat/color.py:112-133 | corrected (see ## Findings), through Color.TerminalColor: the result is nothing or markup opening with "\x01(" and the foreground/background letter |
| Color.Star | qweechat/weechat/color.py:156-162 | corrected (see ## Findings), as written Color.StarAsWritten: nothing or markup; with no separator it is the foreground colour alone |
| Color.StarAsWritten | qweechat/weechat/color.py:156-162 | as written, split at ",": with no comma the whole text is taken as the foreground colour |
| Color.ConvertCode | qweechat/weechat/color.py:144-182 | corrected (see ## Findings), the `*` branch as Color.Star and terminal colours as Color.TerminalColor: a code converts to nothing, to markup, or to itself (the fall-through the code marks as never reached) |
| Color.DebugCode | qweechat/weechat/color.py:183-187 | the seven replacements in turn equal spelling each code character as "<xNN>" at once |
| Color.Convert | qweechat/weechat/color.py:189-194 | empty text gives ""; text without control characters is returned unchanged |
| Color.PaletteEntry | qweechat/weechat/color.py:38-70 | every entry of the terminal table is a 24-bit colour |
| Color.PaletteSamples | qweechat/weechat/color.py:38-70 | the computed table agrees with the written one at the basic, cube and grey entries |
| Color.HexInt | qweechat/weechat/color.py:91-93 | `int(…, 16)` accepts exactly non-empty hex text |
| Color.Hex2Lower | qweechat/weechat/color.py:94 | "%02x" reads back as the value |
| Color.Hex6 | qweechat/weechat/color.py:90 | six hex digits whose pairs read back as the three channels |
| Color.Entry | qweechat/weechat/color.py:90 | the slice of an index in the table is six digits, or empty outside the table |
| Color.Channel | qweechat/weechat/color.py:91-93 | a channel of an entry is its hex pair; a missing entry fails |
| Color.Rgb | qweechat/weechat/color.py:89-94 | the dimmed colour of an entry in the table: each channel reads back as 0.85 times the table's channel; outside the table it fails |
| Color.DimHex | qweechat/weechat/color.py:91-94 | each channel is written dimmed, as two hex digits |
| Color.RgbAsWritten | qweechat/weechat/color.py:94 | as written, formatting a float with "%02x" always raises TypeError |
| Color.DimmedColourLost | qweechat/weechat/color.py:89-110 | as written, every terminal colour converts to nothing, where the intended code gives its markup |
| Color.Spelled | qweechat/weechat/color.py:186 | "<xNN>" has no control characters and no codes |
| Color.ReplaceChar | qweechat/weechat/color.py:186 | replacing a character that does not occur changes nothing |
| Color.DebugCodeSpellsEach | qweechat/weechat/color.py:183-187 | the debug replacement spells out every code character of the match |
| Color.UnescapeEscape | qweechat/weechat/color.py:183-187 | the spelled-out text can be read back, so the debug form loses nothing |
| Color.EscapeClean | qweechat/weechat/color.py:183-187 | no code character survives the debug replacement |
| History.Navigate | qweechat/input.py:99-113 | history stays the same; an empty one changes nothing; the index stays in range; the line shows the entry, or is cleared past the end; below the first entry the line is kept |
| History.NavigateSyncs | qweechat/input.py:99-113 | once the line shows what the index points at, navigating keeps it so |
| History.NavigateInverse | qweechat/input.py:99-113 | Down undoes Up and Up undoes Down inside the history |
| History.ReturnPressed | qweechat/input.py:93-97 | the line is sent and remembered, and the index points past it at the cleared line |
| History.Up | qweechat/input.py:80-85 | at the end of the history a non-empty line is remembered before stepping back; nothing else is added |
| History.UpAsWritten | qweechat/input.py:80-85 | as written, an empty line at the end of the history is remembered too; on a non-empty line it agrees with the intended one |
| History.UpRemembersOnlyText | qweechat/input.py:81-84 | the intended Up adds nothing but a non-empty line |
| History.EmptyLineRemembered | qweechat/input.py:82-84 | Up on an empty line after one sent line adds an empty entry as written and none as intended |
| History.Down | qweechat/input.py:86-87 | Down never changes the history |
| History.KeyPress | qweechat/input.py:74-89 | Return sends the line and clears it; an arrow key that moved the cursor only moves the cursor; a key adds at most one entry |
| History.KeyPressValid | qweechat/input.py:40-113 | the fresh input line is consistent, and every key keeps it so |
| History.ReturnThenUpRecalls | qweechat/input.py:80-97 | the line just sent comes back with Up |
| History.UpDownKeepsTyping | qweechat/input.py:80-87 | text typed at the end of the history survives Up then Down |
| ODict.Put | qweechat/weechat/protocol.py:235 | `d[k] = v`: the key maps to v, other keys are unchanged, and a new key goes last |
| ODict.Remove | qweechat/buffer.py:202-203 | `del d[k]`: the key is gone and the other keys are unchanged |
| ODict.PutTwice | qweechat/weechat/protocol.py:232-235 | a key repeated in a hashtable keeps the last value stored |
| Text.Split | qweechat/weechat/protocol.py:243-248 | `str.split`: at least one part, none holding the separator |
| Text.JoinSplit | qweechat/weechat/protocol.py:243 | joining the parts gives the text back |
| Text.SplitJoin | qweechat/network.py:74 | splitting joined parts without the separator gives them back |
| Text.Find | qweechat/qweechat.py:325 | `str.find`: the first position of the character, or none |
| PyInt.ParseRender | qweechat/network.py:126-134 | `int(str(n)) == n` for every int, on a str or on bytes |
| PyInt.ParseDigits | qweechat/network.py:126-134 | a run of digits parses to its value, on a str or on bytes |
| PyInt.ParseNeedsDigit | qweechat/network.py:126-134 | text without a digit makes `int()` raise, on a str or on bytes |
| PyInt.ParseRejects | qweechat/network.py:126-134 | any character other than digits, signs, underscores and the white space `int()` strips from that kind of operand makes it raise |
| PyInt.Parse | qweechat/network.py:126-134 | `int()` on text: a number is read only from text holding a digit, and a negative one only from text holding "-" |
| PyInt.Render | qweechat/network.py:184 | `str()` of an int: non-empty, digits after an optional "-", which leads exactly for a negative number; `int()` reads it back (PyInt.ParseRender) |
| PyInt.StrAcceptsBytes | qweechat/network.py:126-134 | text that `int()` accepts as bytes it accepts as a str, with the same value |
| PyInt.TrimAgree | qweechat/network.py:126-134 | on text `int()` accepts as bytes, stripping as a str removes the same white space |
| PyInt.NoBreakSpace | qweechat/network.py:126-134 | `int()` strips a leading no-break space from a str but not from bytes |
| Utf8.Decode | qweechat/weechat/protocol.py:151 | no bytes decode to ""; a decoded string never has more characters than there were bytes |
| Utf8.Encode | qweechat/network.py:156-158 | each character takes one to four bytes; decoding gives the string back (Utf8.DecodeEncode) |
| Utf8.DecodeEncode | qweechat/weechat/protocol.py:203 | decoding the UTF-8 encoding of a string gives it back |
| Utf8.DecodeAscii | qweechat/weechat/protocol.py:151 | ASCII bytes decode to the same characters |
| Bytes.BE32 | qweechat/weechat/protocol.py:187 | `struct.unpack('>i')` gives a 32-bit signed value congruent to the unsigned one |
| Bytes.UnpackPack | qweechat/weechat/protocol.py:314 | `struct.pack('>i')` then unpack gives the value back |
| Bytes.Signed8 | qweechat/weechat/protocol.py:178 | `struct.unpack('b')` gives a signed byte congruent to the byte |

## Left out

- Qt widgets, dialogs, menus, icons and focus: only the state they read or change is modelled. This covers the stacked widgets, `list_buffers` rows, `setCurrentRow`, the status label and `status_icon`.
- `inputlinespell.py` (spell checking) and Ctrl/Alt key handling: neither touches the history. The buffer switch keys are modelled by `Buffer.SwitchPrev` and `Buffer.SwitchNext` only.
- Logging, `print` and tracebacks: they have no effect on state.
- `WeechatObject.__str__` and the `str()` of a message: the debug text of a decoded message is the `describe` parameter.
- zlib: decompression is the `inflate` parameter. `zlib.error` is its `None`.
- `str(message)` on the received QByteArray (qweechat/qweechat.py:446) is taken to be the frame's bytes, which is what Python 2 gives. Under Python 3 it is text (the QByteArray's repr), so `decode` would fail at its first `struct.unpack` (qweechat/weechat/protocol.py:310), and `hex_and_ascii`'s bytes would be logged as a bytes repr. Neither is modelled.
- Python version: the files do not agree on one. `qt_compat.py` calls `__import__(…, -1)` (qweechat/qt_compat.py:30), which only Python 2 accepts, and `input.py`, `network.py` and `qweechat.py` import through it. `buffer.py` and `setup.py` need PySide6, and `protocol.py` calls `super().__init__()` with no arguments (qweechat/weechat/protocol.py:97); all three are Python 3 only. The model reads every file with Python 3 semantics, except `str(message)`, which it reads as Python 2 does. That covers `str`/`bytes` in `protocol.py`, `color.py`, `buffer.py`, `input.py` and the handlers of `qweechat.py`, and `int()` in `network.py`. The four findings at qweechat/input.py:82-83, qweechat/weechat/protocol.py:214, qweechat/weechat/color.py:94 and qweechat/qweechat.py:636-638 hold under Python 3 only.
- Network.IntOr: the port and line count are read with Python 3.6's `int()`, which accepts underscores between digits, so "80_80" gives 8080. Python 2, which `network.py`'s import of `qt_compat` would need, rejects that text, so the port would fall back to 0 and the line count to its default (qweechat/network.py:126-134).
- Handlers.Str: a name, prefix or group name that is not a str makes the model raise TypeError, a check the code does not make; the code would store the value as it is. The relay always sends these fields as `str`, so no message the server sends reaches that branch.
- Handlers.ReadArgs: reads the name and prefix through Handlers.Str, so a non-str value raises TypeError in the model where the code would pass it on to `nicklist_add_item`.
- Handlers.NickItem: through Handlers.ReadArgs, an item whose name or prefix is not a str raises in the model and stops the loop; the code would add the nick with that value.
- Handlers.DiffItem: through Handlers.Str, a non-str name or prefix raises TypeError in the model where the code would add, remove or update the nick with that value.
- Unicode digits for `int()` and for the `\d` of the colour expression: only ASCII digits are modelled.
- The terminal colour table is computed from its structure, not transcribed: sixteen system colours, a 6x6x6 cube, then 24 greys. `Color.PaletteSamples` checks it against the written table at sample entries.
- The 0.85 dimming of a channel is integer truncation of `v * 85 / 100`. `%02x` of a float has no intended meaning to copy.
- The debug replacement applies the seven `replace` calls in turn. It is proved equal to spelling out each code character at once.
- `Color.remove(None)` and `convert(None)`: `not text` is modelled for the empty string only.
- History: entries are stored as text, not encoded bytes, and the cursor is set to the length in characters. `setText(bytes)` is not modelled.
- The time the socket waits for bytes to be written, and the QSslSocket handshake.
- Framer.Drain: whether a handler disconnected is the parameter `stays`. A message announcing length 0, or a negative length at least as long as the buffer, is emitted empty and keeps the whole buffer; a shorter negative length makes progress. If `stays` still holds after that empty message, the model stops with the status `Spinning` instead of looping. The client's own handler never lets that happen: an empty message fails to decode and disconnects (Dispatch.SpinNeedsLiveConnection), and the loop ends at `is_connected()`.
- `remove_buffer`'s row selection and the widgets `insert_buffer` fills: widget side only. The row label's exceptions are modelled by BufferList.InsertBuffer and BufferList.InsertBufferAsWritten.
- Dispatch.UpdateBuffers: composes the corrected handlers, so where `create_buffer` or `insert_buffer` as written would raise (## Findings), it states the intended outcome. The as-written handlers are Handlers.ListbuffersAsWritten, Handlers.BufferOpenedAsWritten and Handlers.MoveBufferAsWritten.
- Handlers.Listbuffers: states the intended `create_buffer`. As written, any buffer item empties the list and raises TypeError (Handlers.ListbuffersAsWrittenEmpties).
- Handlers.ListbuffersLast: the fresh list it promises is the intended outcome. As written, `create_buffer` raises first (Handlers.ListbuffersAsWritten).
- Handlers.OpenOne: states the intended `create_buffer`. As written, it raises TypeError before inserting (Handlers.OpenOneAsWritten).
- Handlers.OpenedBeforeNext: a state reached only with the intended `create_buffer` (Handlers.OpenOneAsWritten).
- Handlers.OpenedLast: a state reached only with the intended `create_buffer` (Handlers.OpenedAsWrittenFaults).
- Handlers.OpenItems: states the intended `create_buffer`. As written, the first item raises TypeError (Handlers.OpenOneAsWritten).
- Handlers.BufferOpened: states the intended `create_buffer`. As written, every message with a buffer item raises TypeError with the list kept (Handlers.BufferOpenedAsWritten).
- Handlers.MoveBuffer: states the intended row label. As written, a full name given as text raises AttributeError right after the re-insertion (Handlers.MovedThenFaults).
- Handlers.EventItems: moves as Handlers.MoveBuffer. As written, a move item raises after re-inserting and the loop stops there.
- Handlers.BufferEvents: moves as Handlers.MoveBuffer, with the same difference from the code as written.
- Network.ConnectWeechat: `int()` on a str strips Unicode white space, which is modelled, but it also accepts Unicode decimal digits, which are not.
- Configuration files, preferences and the connection dialog: only the values they hand over are modelled.
- Wire.ReadObjectsEncoded: the round trip is proved for the scalar types only. Hashtables, hdata, infolists and arrays have shape contracts (length and kind), not a round trip.
- Protocol.ReadHashtable: states the kind of result and the consumption, not the contents.
- Protocol.ReadInfolist: states the kind of result and the consumption, not the contents.
- Protocol.ReadArray: states the kind and the element count, not the elements.
- Protocol.ReadPairs: states the consumption only. The dict semantics of a repeated key are those of `ODict.Put`.
- Protocol.ReadVariables: states the consumption only, as for ReadPairs.

## Findings

| source | as written | input that shows it | evidently intended | confidence | as-written member | corrected member |
|---|---|---|---|---|---|---|
| qweechat/qweechat.py:655-659 | a `next_buffer` that names no known buffer leaves `[]` in `index`, and `[] < 0` raises TypeError | `_buffer_opened` with `next_buffer` "0x1" and no buffer with that pointer | the end of the list, as the warning next to the comparison says | not executed | BufferList.FindInsertIndexAsWritten | BufferList.FindInsertIndex |
| qweechat/input.py:82-83 | the line is encoded to bytes and compared with the str "", which never matches, so an empty line is remembered too | Up on an empty line after one sent line: Input(["a"], 1, "", 0) | remember only a non-empty line, like the curses client | not executed; Python 3 only | History.UpAsWritten | History.Up |
| qweechat/weechat/protocol.py:214 | `'0x%s' % value` on bytes gives "0xb'…'", so the null pointer never reads as "0x0" | pointer bytes [1, 0x30] | "0x" followed by the payload's text, so "0x0" for null | not executed; Python 3 only | Protocol.ReadPtrAsWritten | Protocol.ReadPtr |
| qweechat/weechat/color.py:158 | the `*` code is split at ",", but the expression admits "~" as the separator, so a background is never found and the whole colour fails to parse | "\x19*05~03" | split at "~": foreground 05, background 03 | not executed | Color.StarAsWritten | Color.Star |
| qweechat/network.py:99-102 | when a handler disconnects, the emitted message stays in the buffer and is emitted again on the next connection | a message with an unknown object type (Network.POISON) | empty the buffer before returning | not executed | Framer.Drain | Framer.DrainFixed |
| qweechat/weechat/color.py:94 | `'%02x' % float` raises TypeError, which is swallowed, so every terminal colour converts to "" | any colour code naming a table entry, e.g. "\x19F@00001" | the dimmed channel as two hex digits | not executed; Python 3 only | Color.RgbAsWritten | Color.Rgb |
| qweechat/network.py:166 | the sync batch is sent without `% {'lines': …}`, so the server gets "%(lines)d" literally | an `_upgrade_ended` message | fill in the session's line count, as on connect | not executed | Network.Sync | Network.SyncFixed |
| qweechat/qweechat.py:625 | `Buffer(item, self.config)` passes two arguments to `Buffer.__init__(self, data=None)`, so `create_buffer` always raises TypeError | a `listbuffers` reply with one buffer item: the list is emptied, then the client disconnects | `Buffer(item)` | not executed | Handlers.ListbuffersAsWritten | Handlers.Listbuffers |
| qweechat/qweechat.py:636-638 | the row label calls `.decode('utf-8')` on `full_name`, which the decoder gives as a str, so `insert_buffer` raises AttributeError after inserting | `_buffer_moved` for a buffer with number 2 and full name "core.weechat", `next_buffer` null | format the str as it is | not executed; Python 3 only | Handlers.MoveBufferAsWritten | Handlers.MoveBuffer |

=== FILE: buffer.dfy ===
/** One WeeChat buffer as the client keeps it (qweechat/buffer.py): its
    pointer, its nicklist (an insertion-ordered dict from group name to the
    group's visibility and nick list), the order in which the nicklist is
    shown, and the wrap-around moves through the buffer list. */
module Buffer {
  import opened Results
  import opened ODict
  import opened Values
  import opened Order

  /** `Buffer.pointer`: the first entry of the item's `__path`, or '' for
      data without one. A `__path` that is not a list does not come out of
      the decoder; it is a `TypeError` here. */
  function Pointer(data: Item): (r: Result<Value>)
    ensures !HasKey(data, "__path") ==> r == Ok(VStr(""))
    ensures Get(data, "__path").Some? && Get(data, "__path").value.VList? ==>
      var ps := Get(data, "__path").value.elems;
      (|ps| == 0 ==> r == Err(IndexError)) && (|ps| > 0 ==> r == Ok(ps[0]))
  {
    match Get(data, "__path")
    case None => Ok(VStr(""))
    case Some(v) =>
      if !v.VList? then Err(TypeError)
      else if |v.elems| == 0 then Err(IndexError)
      else Ok(v.elems[0])
  }

  /** A nick: its prefix, its name and its visibility as received. */
  datatype Nick = Nick(prefix: string, name: string, visible: Value)

  /** A group: its visibility and its nicks in the order they were added. */
  datatype Group = Group(visible: Value, nicks: seq<Nick>)

  type Nicklist = Dict<string, Group>

  function NameOf(n: Nick): string { n.name }

  /** `nicklist_add_item`: a group replaces any group of that name with an
      empty one; a nick goes at the end of its parent group, which must
      exist (`KeyError` otherwise). Duplicates are not checked. */
  function AddItem(nl: Nicklist, parent: string, group: bool, prefix: string, name: string, visible: Value): (r: Result<Nicklist>)
    requires UniqueKeys(nl)
    ensures r.Ok? ==> UniqueKeys(r.value)
    ensures group ==> r.Ok? && Get(r.value, name) == Some(Group(visible, []))
    ensures !group ==> (r.Ok? <==> HasKey(nl, parent))
    ensures r.Err? ==> r.fault == KeyError
    ensures !group && r.Ok? ==>
      Get(r.value, parent) == Some(Group(Get(nl, parent).value.visible, Get(nl, parent).value.nicks + [Nick(prefix, name, visible)]))
    ensures r.Ok? ==> forall k :: k != (if group then name else parent) ==> Get(r.value, k) == Get(nl, k)
  {
    if group then Ok(Put(nl, name, Group(visible, [])))
    else
      match Get(nl, parent)
      case None => Err(KeyError)
      case Some(g) => Ok(Put(nl, parent, g.(nicks := g.nicks + [Nick(prefix, name, visible)])))
  }

  /** The nicks not named `name`, in their order. */
  function Without(nicks: seq<Nick>, name: string): (r: seq<Nick>)
    ensures forall i :: 0 <= i < |r| ==> r[i].name != name
  {
    if |nicks| == 0 then []
    else (if nicks[0].name == name then [] else [nicks[0]]) + Without(nicks[1..], name)
  }

  /** Removing a name keeps every other name's nicks, in their order. */
  lemma {:induction false} WithoutKeeps(nicks: seq<Nick>, name: string, m: string)
    requires m != name
    ensures Keyed(Without(nicks, name), NameOf, m) == Keyed(nicks, NameOf, m)
    decreases |nicks|
  {
    if |nicks| > 0 {
      WithoutKeeps(nicks[1..], name, m);
      var head := if nicks[0].name == name then [] else [nicks[0]];
      KeyedAppend(head, Without(nicks[1..], name), NameOf, m);
    }
  }

  lemma {:induction false} WithoutAppend(a: seq<Nick>, b: seq<Nick>, name: string)
    ensures Without(a + b, name) == Without(a, name) + Without(b, name)
    decreases |a|
  {
    if |a| == 0 {
      assert a + b == b;
    } else {
      WithoutAppend(a[1..], b, name);
      assert (a + b)[1..] == a[1..] + b;
    }
  }

  /** With no nick of that name there is nothing to remove. */
  lemma {:induction false} WithoutAbsent(nicks: seq<Nick>, name: string)
    requires forall i :: 0 <= i < |nicks| ==> nicks[i].name != name
    ensures Without(nicks, name) == nicks
    decreases |nicks|
  {
    if |nicks| > 0 {
      WithoutAbsent(nicks[1..], name);
      assert nicks == [nicks[0]] + nicks[1..];
    }
  }

  /** `nicklist_remove_item`: a group is deleted with its nicks; a nick
      name is removed from its parent, every occurrence of it. A missing
      group or parent changes nothing. */
  function RemoveItem(nl: Nicklist, parent: string, group: bool, name: string): (r: Nicklist)
    requires UniqueKeys(nl)
    ensures UniqueKeys(r)
    ensures group ==> !HasKey(r, name) && forall k :: k != name ==> Get(r, k) == Get(nl, k)
    ensures !group && !HasKey(nl, parent) ==> r == nl
    ensures !group && HasKey(nl, parent) ==>
      && Get(r, parent).Some?
      && Get(r, parent).value.visible == Get(nl, parent).value.visible
      && Get(r, parent).value.nicks == Without(Get(nl, parent).value.nicks, name)
      && forall k :: k != parent ==> Get(r, k) == Get(nl, k)
  {
    if group then Remove(nl, name)
    else
      match Get(nl, parent)
      case None => nl
      case Some(g) => Put(nl, parent, g.(nicks := Without(g.nicks, name)))
  }

  /** Removing a nick that was just added to a group without one of that
      name gives the nicklist back. */
  lemma AddThenRemove(nl: Nicklist, parent: string, prefix: string, name: string, visible: Value)
    requires UniqueKeys(nl) && HasKey(nl, parent)
    requires forall i :: 0 <= i < |Get(nl, parent).value.nicks| ==> Get(nl, parent).value.nicks[i].name != name
    ensures AddItem(nl, parent, false, prefix, name, visible).Ok?
    ensures RemoveItem(AddItem(nl, parent, false, prefix, name, visible).value, parent, false, name) == nl
  {
    var g := Get(nl, parent).value;
    var n := Nick(prefix, name, visible);
    var added := Put(nl, parent, g.(nicks := g.nicks + [n]));
    assert AddItem(nl, parent, false, prefix, name, visible) == Ok(added);
    WithoutAppend(g.nicks, [n], name);
    WithoutAbsent(g.nicks, name);
    assert Without([n], name) == [];
    assert Without(g.nicks + [n], name) == g.nicks;
    PutTwice(nl, parent, g.(nicks := g.nicks + [n]), g);
    PutSame(nl, parent);
  }

  /** The first nick named `name` gets the new prefix and visibility. */
  function UpdateFirst(nicks: seq<Nick>, name: string, prefix: string, visible: Value): (r: seq<Nick>)
    ensures |r| == |nicks|
    ensures forall i :: 0 <= i < |r| ==> r[i].name == nicks[i].name
    ensures forall i :: 0 <= i < |r| && r[i] != nicks[i] ==>
      nicks[i].name == name && forall j :: 0 <= j < i ==> nicks[j].name != name
    ensures forall i :: 0 <= i < |r| && nicks[i].name == name && (forall j :: 0 <= j < i ==> nicks[j].name != name) ==>
      r[i] == Nick(prefix, name, visible)
  {
    if |nicks| == 0 then []
    else if nicks[0].name == name then [Nick(prefix, name, visible)] + nicks[1..]
    else
      var t := UpdateFirst(nicks[1..], name, prefix, visible);
      var r := [nicks[0]] + t;
      assert forall i :: 1 <= i < |r| ==> r[i] == t[i - 1] && nicks[i] == nicks[1..][i - 1];
      r
  }

  /** `nicklist_update_item`: a group's visibility, or the prefix and
      visibility of the first nick of that name in its parent; a missing
      group, parent or nick changes nothing. */
  function UpdateItem(nl: Nicklist, parent: string, group: bool, prefix: string, name: string, visible: Value): (r: Nicklist)
    requires UniqueKeys(nl)
    ensures UniqueKeys(r)
    ensures forall k :: k != (if group then name else parent) ==> Get(r, k) == Get(nl, k)
    ensures group && HasKey(nl, name) ==> Get(r, name) == Some(Get(nl, name).value.(visible := visible))
    ensures !group && HasKey(nl, parent) ==>
      Get(r, parent) == Some(Get(nl, parent).value.(nicks := UpdateFirst(Get(nl, parent).value.nicks, name, prefix, visible)))
    ensures (if group then !HasKey(nl, name) else !HasKey(nl, parent)) ==> r == nl
  {
    if group then
      match Get(nl, name)
      case None => nl
      case Some(g) => Put(nl, name, g.(visible := visible))
    else
      match Get(nl, parent)
      case None => nl
      case Some(g) => Put(nl, parent, g.(nicks := UpdateFirst(g.nicks, name, prefix, visible)))
  }

  // ---------------------------------------------------------------------
  // nicklist_refresh

  /** The icon colour of a nick: none for an empty or blank prefix, yellow
      for '+', green for any other prefix. */
  function PrefixColour(prefix: string): (c: string)
    ensures c == "" <==> prefix == "" || prefix == " "
    ensures c == "yellow" <==> prefix == "+"
    ensures c == "green" <==> prefix != "" && prefix != " " && prefix != "+"
  {
    if prefix == "" || prefix == " " then ""
    else if prefix == "+" then "yellow"
    else "green"
  }

  /** One row of the nicklist widget: the nick's name and icon colour. */
  datatype Entry = Entry(name: string, colour: string)

  function Keys(nl: Nicklist): seq<string> {
    if |nl| == 0 then [] else [nl[0].0] + Keys(nl[1..])
  }

  function Id(s: string): string { s }

  function GroupOf(e: (string, Nick)): string { e.0 }

  function NicksOf(nl: Nicklist, k: string): seq<Nick> {
    match Get(nl, k)
    case None => []
    case Some(g) => g.nicks
  }

  /** The nicks of group `k`, each with its group. */
  function Tag(k: string, nicks: seq<Nick>): (r: seq<(string, Nick)>)
    ensures |r| == |nicks|
    ensures forall i :: 0 <= i < |r| ==> r[i] == (k, nicks[i])
  {
    if |nicks| == 0 then [] else [(k, nicks[0])] + Tag(k, nicks[1..])
  }

  /** The nicks of groups `ks`, group after group, each group's nicks
      sorted by name. */
  function Listed(ks: seq<string>, nl: Nicklist): seq<(string, Nick)> {
    if |ks| == 0 then []
    else Tag(ks[0], SortBy(NicksOf(nl, ks[0]), NameOf)) + Listed(ks[1..], nl)
  }

  /** The nicks in the order `nicklist_refresh` shows them, with their
      group: groups by sorted name, nicks by sorted name within each. */
  function Shown(nl: Nicklist): (r: seq<(string, Nick)>)
    ensures SortedBy(r, GroupOf)
  {
    SortSorted(Keys(nl), Id);
    ListedOrdered(SortBy(Keys(nl), Id), nl);
    Listed(SortBy(Keys(nl), Id), nl)
  }

  /** `nicklist_refresh`: the rows of the nicklist widget. */
  function Refresh(nl: Nicklist): (r: seq<Entry>)
    ensures |r| == |Shown(nl)|
    ensures forall i :: 0 <= i < |r| ==>
      r[i] == Entry(Shown(nl)[i].1.name, PrefixColour(Shown(nl)[i].1.prefix))
  {
    var s := Shown(nl);
    seq(|s|, i requires 0 <= i < |s| => Entry(s[i].1.name, PrefixColour(s[i].1.prefix)))
  }

  lemma {:induction false} KeysCount(nl: Nicklist, k: string)
    requires UniqueKeys(nl)
    ensures multiset(Keys(nl))[k] == if HasKey(nl, k) then 1 else 0
    decreases |nl|
  {
    if |nl| > 0 {
      var t := nl[1..];
      assert UniqueKeys(t) by {
        forall i, j | 0 <= i < j < |t| ensures t[i].0 != t[j].0 {
          assert t[i] == nl[i + 1] && t[j] == nl[j + 1];
        }
      }
      KeysCount(t, k);
      assert HasKey(nl, k) <==> nl[0].0 == k || HasKey(t, k) by {
        if HasKey(t, k) {
          var i :| 0 <= i < |t| && t[i].0 == k;
          assert nl[i + 1].0 == k;
        }
        if HasKey(nl, k) && nl[0].0 != k {
          var i :| 0 <= i < |nl| && nl[i].0 == k;
          assert t[i - 1].0 == k;
        }
      }
      if nl[0].0 == k {
        assert !HasKey(t, k) by {
          forall i | 0 <= i < |t| ensures t[i].0 != k {
            assert t[i] == nl[i + 1];
          }
        }
      }
    }
  }

  lemma {:induction false} KeyedTag(k: string, nicks: seq<Nick>, g: string)
    ensures Keyed(Tag(k, nicks), GroupOf, g) == if k == g then Tag(k, nicks) else []
    decreases |nicks|
  {
    if |nicks| > 0 {
      KeyedTag(k, nicks[1..], g);
      KeyedCons((k, nicks[0]), Tag(k, nicks[1..]), GroupOf, g);
    }
  }

  /** Picking one group out of the listing gives that group's block, when
      the group is listed at most once. */
  lemma {:induction false} ListedKeyed(ks: seq<string>, nl: Nicklist, g: string)
    requires multiset(ks)[g] <= 1
    ensures Keyed(Listed(ks, nl), GroupOf, g)
      == if g in ks then Tag(g, SortBy(NicksOf(nl, g), NameOf)) else []
    decreases |ks|
  {
    if |ks| > 0 {
      assert ks == [ks[0]] + ks[1..];
      assert multiset(ks) == multiset{ks[0]} + multiset(ks[1..]);
      var block := Tag(ks[0], SortBy(NicksOf(nl, ks[0]), NameOf));
      ListedKeyed(ks[1..], nl, g);
      KeyedAppend(block, Listed(ks[1..], nl), GroupOf, g);
      KeyedTag(ks[0], SortBy(NicksOf(nl, ks[0]), NameOf), g);
      if ks[0] == g {
        assert g !in ks[1..];
      }
    }
  }

  /** Each group of the nicklist appears in the refreshed list as one
      block: its nicks sorted by name (stably), and no other group's. */
  lemma RefreshGroupBlock(nl: Nicklist, g: string)
    requires UniqueKeys(nl)
    ensures Keyed(Shown(nl), GroupOf, g)
      == if HasKey(nl, g) then Tag(g, SortBy(NicksOf(nl, g), NameOf)) else []
  {
    KeysCount(nl, g);
    SortPermutes(Keys(nl), Id);
    var ks := SortBy(Keys(nl), Id);
    assert multiset(ks)[g] == multiset(Keys(nl))[g];
    ListedKeyed(ks, nl, g);
  }

  lemma {:induction false} ListedGroups(ks: seq<string>, nl: Nicklist)
    ensures forall i :: 0 <= i < |Listed(ks, nl)| ==> Listed(ks, nl)[i].0 in ks
    decreases |ks|
  {
    if |ks| > 0 {
      ListedGroups(ks[1..], nl);
      var block := Tag(ks[0], SortBy(NicksOf(nl, ks[0]), NameOf));
      var rest := Listed(ks[1..], nl);
      var l := block + rest;
      assert Listed(ks, nl) == l;
      forall i | 0 <= i < |l| ensures l[i].0 in ks {
        if i < |block| {
          assert l[i] == block[i];
        } else {
          assert l[i] == rest[i - |block|];
          assert rest[i - |block|].0 in ks[1..];
        }
      }
    }
  }

  lemma {:induction false} ListedOrdered(ks: seq<string>, nl: Nicklist)
    requires SortedBy(ks, Id)
    ensures SortedBy(Listed(ks, nl), GroupOf)
    decreases |ks|
  {
    if |ks| > 0 {
      var block := Tag(ks[0], SortBy(NicksOf(nl, ks[0]), NameOf));
      var rest := Listed(ks[1..], nl);
      assert SortedBy(ks[1..], Id) by {
        forall i, j | 0 <= i < j < |ks[1..]| ensures Le(ks[1..][i], ks[1..][j]) {
          assert ks[1..][i] == ks[i + 1] && ks[1..][j] == ks[j + 1];
        }
      }
      ListedOrdered(ks[1..], nl);
      ListedGroups(ks[1..], nl);
      var l := block + rest;
      forall i, j | 0 <= i < j < |l| ensures Le(l[i].0, l[j].0) {
        if j < |block| {
          LeRefl(ks[0]);
        } else if i < |block| {
          assert l[j] == rest[j - |block|];
          var m :| 0 <= m < |ks[1..]| && ks[1..][m] == rest[j - |block|].0;
          assert ks[1..][m] == ks[m + 1];
        } else {
          assert l[i] == rest[i - |block|] && l[j] == rest[j - |block|];
        }
      }
    }
  }

  /** The refreshed list goes through the groups in sorted name order. */
  lemma RefreshGroupsSorted(nl: Nicklist)
    ensures SortedBy(Shown(nl), GroupOf)
  {
    SortSorted(Keys(nl), Id);
    ListedOrdered(SortBy(Keys(nl), Id), nl);
  }

  /** Within a group's block the nicks are sorted by name, every nick of
      the group appears, and nicks of one name keep the order in which
      they were added. */
  lemma GroupBlockSorted(nicks: seq<Nick>, m: string)
    ensures SortedBy(SortBy(nicks, NameOf), NameOf)
    ensures multiset(SortBy(nicks, NameOf)) == multiset(nicks)
    ensures Keyed(SortBy(nicks, NameOf), NameOf, m) == Keyed(nicks, NameOf, m)
  {
    SortSorted(nicks, NameOf);
    SortPermutes(nicks, NameOf);
    SortStable(nicks, NameOf, m);
  }

  // ---------------------------------------------------------------------
  // BufferListWidget

  /** `switch_prev_buffer`: the row above, or the last row from the top
      (or with no current row, -1). */
  function SwitchPrev(row: int, count: int): (r: int)
    ensures 0 <= row < count ==> 0 <= r < count
    ensures row == 0 ==> r == count - 1
  {
    if row > 0 then row - 1 else count - 1
  }

  /** `switch_next_buffer`: the row below, or the first row from the last. */
  function SwitchNext(row: int, count: int): (r: int)
    ensures 0 <= row < count ==> 0 <= r < count
    ensures row == count - 1 ==> r == 0
  {
    if row < count - 1 then row + 1 else 0
  }

  /** Moving back and then forward, or forward and then back, returns to
      the starting row. */
  lemma SwitchInverse(row: int, count: int)
    requires 0 <= row < count
    ensures SwitchNext(SwitchPrev(row, count), count) == row
    ensures SwitchPrev(SwitchNext(row, count), count) == row
  {
  }
}

=== FILE: buflist.dfy ===
/** The main window's ordered list of buffers (qweechat/qweechat.py): each
    buffer's received data, nicklist and chat lines, how a buffer is found
    by its pointer, and where a new or moved buffer is inserted. */
module BufferList {
  import opened Results
  import opened ODict
  import opened Values
  import Buffer
  import Utf8

  /** One line shown in a buffer's chat: date, prefix and message as
      received. */
  datatype Line = Line(date: Value, prefix: Value, message: Value)

  /** A `Buffer` stripped of its widgets: the hdata item it was created
      from (kept up to date by the buffer events), its nicklist, the rows
      the nicklist widget shows since the last refresh, and the chat. */
  datatype BufferRec = BufferRec(data: Item, nicklist: Buffer.Nicklist, shown: seq<Buffer.Entry>, chat: seq<Line>)

  /** `create_buffer` as intended, `Buffer(item)`: a buffer with the
      item's data and nothing else. It cannot raise, since the title and
      prompt updates of `Buffer.__init__` catch every exception. */
  function NewBuffer(item: Item): (b: BufferRec)
    ensures b.data == item && |b.nicklist| == 0 && |b.shown| == 0 && |b.chat| == 0
  {
    BufferRec(item, [], [], [])
  }

  /** `create_buffer` as written: `Buffer(item, self.config)` passes two
      arguments to `Buffer.__init__(self, data=None)`, which takes one, so
      the call raises `TypeError` whatever the item. */
  function CreateBufferAsWritten(item: Item): (r: Result<BufferRec>)
    ensures r.Err? && r.fault == TypeError
  {
    Err(TypeError)
  }

  /** The exception the row label of `insert_buffer` raises as intended,
      `'%d. %s' % (data['number'], data['full_name'])`: both keys must be
      there and `%d` needs an int. */
  function LabelFault(data: Item): (r: Option<Fault>)
    ensures r.None? <==> Get(data, "full_name").Some? && Get(data, "number").Some? && Get(data, "number").value.VInt?
    ensures r.Some? && (Get(data, "number").None? || Get(data, "full_name").None?) ==> r.value == KeyError
  {
    match (Get(data, "number"), Get(data, "full_name"))
    case (None, _) => Some(KeyError)
    case (_, None) => Some(KeyError)
    case (Some(n), Some(_)) => if n.VInt? then None else Some(TypeError)
  }

  /** The row label as written, which calls `.decode('utf-8')` on the full
      name: after the two lookups, a name that is not bytes has no
      `decode` (the decoder gives a `str` field as str), and bytes that
      are not UTF-8 raise before `%d` is reached. */
  function LabelFaultAsWritten(data: Item): (r: Option<Fault>)
    ensures r.None? ==> LabelFault(data).None?
    ensures Get(data, "full_name").Some? && !Get(data, "full_name").value.VBytes? ==> r.Some?
    ensures Get(data, "number").None? || Get(data, "full_name").None? ==> r == Some(KeyError)
  {
    match (Get(data, "number"), Get(data, "full_name"))
    case (None, _) => Some(KeyError)
    case (_, None) => Some(KeyError)
    case (Some(n), Some(name)) =>
      if !name.VBytes? then Some(AttributeError)
      else if Utf8.Decode(name.b).None? then Some(UnicodeDecodeError)
      else if n.VInt? then None
      else Some(TypeError)
  }

  /** `insert_buffer` as intended: the buffer goes into the list first and
      its row label is formatted after, so a buffer whose label raises is
      already in the list when the exception comes. */
  function InsertBuffer(bs: seq<BufferRec>, index: nat, b: BufferRec): (r: Outcome<seq<BufferRec>>)
    requires index <= |bs|
    ensures r.state == InsertAt(bs, index, b)
    ensures r.Raised() <==> LabelFault(b.data).Some?
    ensures r.Raised() ==> r.fault == LabelFault(b.data)
  {
    Outcome(InsertAt(bs, index, b), LabelFault(b.data))
  }

  /** `insert_buffer` as written: the same insertion, then the label with
      `.decode('utf-8')`. */
  function InsertBufferAsWritten(bs: seq<BufferRec>, index: nat, b: BufferRec): (r: Outcome<seq<BufferRec>>)
    requires index <= |bs|
    ensures r.state == InsertBuffer(bs, index, b).state
    ensures !r.Raised() ==> !InsertBuffer(bs, index, b).Raised()
  {
    Outcome(InsertAt(bs, index, b), LabelFaultAsWritten(b.data))
  }

  /** A buffer whose number is an int and whose full name is a str, as the
      decoder gives them, is inserted either way; as written the label
      then raises `AttributeError`, as intended it does not. */
  lemma TextNameFaults(bs: seq<BufferRec>, index: nat, b: BufferRec, number: int, name: string)
    requires index <= |bs|
    requires Get(b.data, "number") == Some(VInt(number)) && Get(b.data, "full_name") == Some(VStr(name))
    ensures InsertBufferAsWritten(bs, index, b) == Outcome(InsertAt(bs, index, b), Some(AttributeError))
    ensures InsertBuffer(bs, index, b) == Outcome(InsertAt(bs, index, b), None)
  {
  }

  /** Every buffer's `pointer()`, in order; the first fault stops it. */
  function Pointers(bs: seq<BufferRec>): (r: Result<seq<Value>>)
    ensures r.Ok? ==> |r.value| == |bs| && forall i :: 0 <= i < |bs| ==> Buffer.Pointer(bs[i].data) == Ok(r.value[i])
    ensures r.Err? ==> exists i :: 0 <= i < |bs| && Buffer.Pointer(bs[i].data).Err?
  {
    if |bs| == 0 then Ok([])
    else
      var p :- Buffer.Pointer(bs[0].data);
      var ps :- Pointers(bs[1..]);
      assert forall i :: 1 <= i < |bs| ==> bs[i] == bs[1..][i - 1];
      Ok([p] + ps)
  }

  /** The first position of `p` in `ps`. */
  function FirstIndex(ps: seq<Value>, p: Value): (r: Option<nat>)
    ensures r.None? <==> p !in ps
    ensures r.Some? ==> r.value < |ps| && ps[r.value] == p && p !in ps[..r.value]
  {
    if |ps| == 0 then None
    else if ps[0] == p then Some(0)
    else
      match FirstIndex(ps[1..], p)
      case None => None
      case Some(k) =>
        assert ps[..k + 1] == [ps[0]] + ps[1..][..k];
        Some(k + 1)
  }

  /** `[i for i, b in enumerate(buffers) if b.pointer() == key][0]` when
      the list is not empty: the first buffer with that pointer. The key
      expression is evaluated after each buffer's pointer, so with no
      buffers it is never evaluated and cannot fault. */
  function Locate(bs: seq<BufferRec>, key: Result<Value>): (r: Result<Option<nat>>)
    ensures |bs| == 0 ==> r == Ok(None)
    ensures |bs| > 0 && key.Ok? && Pointers(bs).Ok? ==> r == Ok(FirstIndex(Pointers(bs).value, key.value))
    ensures r.Ok? ==> Pointers(bs).Ok? && (|bs| > 0 ==> key.Ok?)
    ensures r.Ok? && r.value.Some? ==> r.value.value < |bs|
  {
    if |bs| == 0 then Ok(None)
    else
      var p :- Buffer.Pointer(bs[0].data);
      var k :- key;
      var rest :- Locate(bs[1..], key);
      if p == k then Ok(Some(0))
      else if rest.Some? then Ok(Some(rest.value + 1))
      else Ok(None)
  }

  /** The buffer with pointer `key`, when there is one. */
  lemma {:induction false} LocateFound(bs: seq<BufferRec>, key: Value)
    requires Locate(bs, Ok(key)).Ok? && Locate(bs, Ok(key)).value.Some?
    ensures var i := Locate(bs, Ok(key)).value.value;
      && i < |bs| && Buffer.Pointer(bs[i].data) == Ok(key)
      && forall j :: 0 <= j < i ==> Buffer.Pointer(bs[j].data) != Ok(key)
  {
    var ps := Pointers(bs).value;
    var i := Locate(bs, Ok(key)).value.value;
    forall j | 0 <= j < i ensures Buffer.Pointer(bs[j].data) != Ok(key) {
      assert ps[..i][j] == ps[j];
    }
  }

  /** No buffer with pointer `key`. */
  lemma LocateMissing(bs: seq<BufferRec>, key: Value)
    requires Locate(bs, Ok(key)) == Ok(None)
    ensures forall j :: 0 <= j < |bs| ==> Buffer.Pointer(bs[j].data) != Ok(key)
  {
  }

  /** The pointer `next_buffer` carries for "append at the end". */
  const NULL_PTR: Value := VStr("0x0")

  /** `find_buffer_index_for_insert` as intended: the end of the list for
      the null pointer or an unknown pointer, otherwise the position of
      the buffer it names. */
  function FindInsertIndex(bs: seq<BufferRec>, next: Value): (r: Result<nat>)
    ensures next == NULL_PTR ==> r == Ok(|bs|)
    ensures r.Ok? ==> r.value <= |bs|
    ensures next != NULL_PTR && Locate(bs, Ok(next)).Ok? ==>
      r == Ok(match Locate(bs, Ok(next)).value case Some(i) => i case None => |bs|)
    ensures next != NULL_PTR && Locate(bs, Ok(next)).Err? ==> r.Err?
  {
    if next == NULL_PTR then Ok(|bs|)
    else
      var found :- Locate(bs, Ok(next));
      Ok(if found.Some? then found.value else |bs|)
  }

  /** `find_buffer_index_for_insert` as written: an unknown pointer leaves
      the empty match list in `index`, and comparing it with 0 raises
      `TypeError` before the end-of-list fallback is reached. */
  function FindInsertIndexAsWritten(bs: seq<BufferRec>, next: Value): (r: Result<nat>)
    ensures r.Ok? ==> FindInsertIndex(bs, next) == r
  {
    if next == NULL_PTR then Ok(|bs|)
    else
      var found :- Locate(bs, Ok(next));
      if found.Some? then Ok(found.value) else Err(TypeError)
  }

  /** A buffer opened with an unknown `next_buffer` (here: before any
      buffer is known) makes the written code fault where the intended
      code appends. */
  lemma UnknownNextBufferFaults()
    ensures FindInsertIndexAsWritten([], VStr("0x1")) == Err(TypeError)
    ensures FindInsertIndex([], VStr("0x1")) == Ok(0)
  {
  }

  /** Every pointer the list knows gives the same position both ways;
      they differ exactly on the unknown pointers. */
  lemma AsWrittenDiffersOnlyWhenUnknown(bs: seq<BufferRec>, next: Value)
    requires Pointers(bs).Ok?
    ensures FindInsertIndexAsWritten(bs, next).Err? <==> next != NULL_PTR && next !in Pointers(bs).value
    ensures FindInsertIndex(bs, next).Ok?
  {
  }

  /** `list.insert(index, buf)` for an index within the list. */
  function InsertAt(bs: seq<BufferRec>, i: nat, b: BufferRec): (r: seq<BufferRec>)
    requires i <= |bs|
    ensures |r| == |bs| + 1 && r[i] == b
    ensures forall j :: 0 <= j < i ==> r[j] == bs[j]
    ensures forall j :: i < j < |r| ==> r[j] == bs[j - 1]
    ensures multiset(r) == multiset(bs) + multiset{b}
  {
    assert bs == bs[..i] + bs[i..];
    bs[..i] + [b] + bs[i..]
  }

  /** `list.pop(index)`. */
  function RemoveAt(bs: seq<BufferRec>, i: nat): (r: seq<BufferRec>)
    requires i < |bs|
    ensures |r| == |bs| - 1
    ensures forall j :: 0 <= j < i ==> r[j] == bs[j]
    ensures forall j :: i <= j < |r| ==> r[j] == bs[j + 1]
    ensures multiset(r) == multiset(bs) - multiset{bs[i]}
  {
    assert bs == bs[..i] + [bs[i]] + bs[i + 1..];
    bs[..i] + bs[i + 1..]
  }

  /** Removing a buffer and inserting it back at the same index, or
      inserting one and removing it again, gives the list back. */
  lemma InsertRemoveInverse(bs: seq<BufferRec>, i: nat, b: BufferRec)
    requires i < |bs|
    ensures InsertAt(RemoveAt(bs, i), i, bs[i]) == bs
    ensures RemoveAt(InsertAt(bs, i, b), i) == bs
  {
  }
}

=== FILE: bytes.dfy ===
/** Bytes as the wire carries them, and the few fixed-width integer codecs
    of Python's `struct` module that the client uses. */
module Bytes {

  type byte = x: int | 0 <= x < 256
  type bytes = seq<byte>

  const TWO_31: int := 0x8000_0000
  const TWO_32: int := 0x1_0000_0000

  predicate IsInt32(x: int) { -TWO_31 <= x < TWO_31 }

  /** `struct.unpack('b', ...)`: one byte read as a signed value. */
  function Signed8(b: byte): (r: int)
    ensures -128 <= r < 128
    ensures r % 256 == b
  {
    if b < 128 then b else b - 256
  }

  /** `struct.pack('b', x)`. */
  function PackSigned8(x: int): (b: byte)
    requires -128 <= x < 128
    ensures Signed8(b) == x
  {
    if x < 0 then x + 256 else x
  }

  /** The unsigned value of four big-endian bytes. */
  function Unsigned32(b: bytes): (r: nat)
    requires |b| == 4
    ensures r < TWO_32
  {
    var b0: int, b1: int, b2: int, b3: int := b[0], b[1], b[2], b[3];
    ((b0 * 256 + b1) * 256 + b2) * 256 + b3
  }

  /** `struct.unpack('>i', ...)`: four big-endian bytes, two's complement. */
  function BE32(b: bytes): (r: int)
    requires |b| == 4
    ensures IsInt32(r)
    ensures (r - Unsigned32(b)) % TWO_32 == 0
  {
    var u := Unsigned32(b);
    if u < TWO_31 then u else u - TWO_32
  }

  /** `struct.pack('>i', x)`; the source raises `struct.error` outside the
      32-bit range, which callers check with `IsInt32` first. */
  function PackBE32(x: int): (r: bytes)
    requires IsInt32(x)
    ensures |r| == 4
  {
    var u := if x < 0 then x + TWO_32 else x;
    [u / 0x100_0000, (u / 0x1_0000) % 256, (u / 256) % 256, u % 256]
  }

  lemma {:induction false} UnpackPack(x: int)
    requires IsInt32(x)
    ensures BE32(PackBE32(x)) == x
  {
    var u := if x < 0 then x + TWO_32 else x;
    var r := PackBE32(x);
    var a, b, c, d := u / 0x100_0000, (u / 0x1_0000) % 256, (u / 256) % 256, u % 256;
    assert u / 0x1_0000 == a * 256 + b;
    assert u / 256 == (a * 256 + b) * 256 + c;
    assert u == ((a * 256 + b) * 256 + c) * 256 + d;
    assert Unsigned32(r) == u;
  }

  /** Python's normalisation of one slice bound against a length `n`:
      negative bounds count from the end, and both ends are clamped. */
  function SliceBound(i: int, n: nat): (r: nat)
    ensures r <= n
    ensures 0 <= i <= n ==> r == i
  {
    if i < 0 then (if i + n < 0 then 0 else i + n)
    else if i > n then n else i
  }

  /** `s[i:]` with Python semantics. */
  function From<T>(s: seq<T>, i: int): (r: seq<T>)
    ensures |r| <= |s|
  {
    s[SliceBound(i, |s|)..]
  }

  /** `s[0:j]` with Python semantics. */
  function Upto<T>(s: seq<T>, j: int): (r: seq<T>)
    ensures |r| <= |s|
  {
    s[..SliceBound(j, |s|)]
  }

  /** A slice never loses or invents data: the prefix up to `k` followed by
      the rest from `k` is the whole sequence, for every bound `k`. */
  lemma SplitAt<T>(s: seq<T>, k: int)
    ensures Upto(s, k) + From(s, k) == s
  {
    var b := SliceBound(k, |s|);
    assert s[..b] + s[b..] == s;
  }

  lemma AppendAssoc<T>(a: seq<T>, b: seq<T>, c: seq<T>)
    ensures (a + b) + c == a + (b + c)
  {
  }

  lemma TakeDrop<T>(s: seq<T>, n: nat)
    requires n <= |s|
    ensures s[..n] + s[n..] == s
  {
  }

  /** Bytes read as the text with the same code points (the Python 2 view
      of a byte string, also ISO 8859-1). */
  function Latin1(b: bytes): (s: string)
    ensures |s| == |b|
    ensures forall i :: 0 <= i < |b| ==> s[i] as int == b[i]
  {
    seq(|b|, i requires 0 <= i < |b| => b[i] as char)
  }

  /** The bytes of a text all of whose characters are below 256. */
  function Octets(s: string): (b: bytes)
    requires forall i :: 0 <= i < |s| ==> s[i] as int < 256
    ensures Latin1(b) == s
  {
    seq(|s|, i requires 0 <= i < |s| => s[i] as int)
  }
}

=== FILE: color.dfy ===
/** WeeChat's colour codes in a line of text (qweechat/weechat/color.py):
    the expression that finds them, their removal, and their translation
    into the `\x01(...)` markup the chat widget draws, or into a readable
    form for the debug window. */
module Color {
  import opened Results
  import opened Text
  import PyInt
  import Bytes
  import HexDump

  /** The four control characters: colour code, set attribute, remove
      attribute, reset. */
  const COLOR_CODE: char := '\U{19}'
  const SET_ATTR: char := '\U{1A}'
  const REMOVE_ATTR: char := '\U{1B}'
  const RESET: char := '\U{1C}'

  /** The markup for a reset: default foreground and background. */
  const RESET_MARKUP: string := "\U{1}(Fr)\U{1}(Br)"

  predicate IsControl(c: char) {
    c == COLOR_CODE || c == SET_ATTR || c == REMOVE_ATTR || c == RESET
  }

  /** The attribute flags that may precede a colour number. */
  predicate IsAttr(c: char) {
    c == '*' || c == '!' || c == '/' || c == '_' || c == '|'
  }

  /** A character that can occur inside a standard or extended colour. */
  predicate InColour(c: char) {
    IsAttr(c) || PyInt.IsDigit(c) || c == '@'
  }

  /** How many attribute flags `s` starts with (`[*!/_|]*`). */
  function AttrCount(s: string): (n: nat)
    ensures n <= |s|
    ensures forall k :: 0 <= k < n ==> IsAttr(s[k])
    ensures n < |s| ==> !IsAttr(s[n])
  {
    if |s| > 0 && IsAttr(s[0]) then 1 + AttrCount(s[1..]) else 0
  }

  /** `\d{n}` at position `i` of `s`, over the ASCII digits. */
  predicate DigitsAt(s: string, i: nat, n: nat) {
    i + n <= |s| && forall k :: i <= k < i + n ==> PyInt.IsDigit(s[k])
  }

  /** `RE_COLOR_ANY` at the start of `s`: a standard colour (flags, two
      digits) or else an extended one (`@`, flags, five digits); the
      length matched. */
  function Any(s: string): (r: Option<nat>)
    ensures r.Some? ==> 2 <= r.value <= |s|
    ensures r.Some? ==> forall k :: 0 <= k < r.value ==> InColour(s[k])
  {
    var a := AttrCount(s);
    if DigitsAt(s, a, 2) then Some(a + 2)
    else if |s| > 0 && s[0] == '@' && DigitsAt(s, 1 + AttrCount(s[1..]), 5) then
      var b := AttrCount(s[1..]);
      assert forall k :: 1 <= k < 1 + b ==> s[k] == s[1..][k - 1];
      Some(b + 6)
    else None
  }

  /** How many backslashes `s` starts with (`\\*`). */
  function Backslashes(s: string): (n: nat)
    ensures n <= |s|
    ensures forall k :: 0 <= k < n ==> s[k] == '\\'
    ensures n < |s| ==> s[n] != '\\'
  {
    if |s| > 0 && s[0] == '\\' then 1 + Backslashes(s[1..]) else 0
  }

  /** The optional `~` and background colour after a foreground: the
      length matched, 0 when absent. */
  function Background(s: string): (n: nat)
    ensures n <= |s|
    ensures n > 0 ==> s[0] == '~' && Any(s[1..]) == Some(n - 1)
    ensures n == 0 ==> |s| == 0 || s[0] != '~' || Any(s[1..]).None?
  {
    if |s| > 0 && s[0] == '~' && Any(s[1..]).Some? then 1 + Any(s[1..]).value else 0
  }

  /** What the first group of `RE_COLOR` matches after the colour-code
      character, its alternatives tried in the written order: a WeeChat
      colour number, `F` and a foreground, `B` and a background (standard
      or extended), `E`, backslashes and a foreground with an optional
      background, `@` and a pair number, `b` and a bar code, a reset. */
  function AfterColorCode(t: string): (r: Option<nat>)
    ensures r.Some? ==> 0 < r.value <= |t|
  {
    if DigitsAt(t, 0, 2) then Some(2)
    else if |t| > 0 && t[0] == 'F' && Any(t[1..]).Some? then Some(1 + Any(t[1..]).value)
    else if |t| > 0 && t[0] == 'B' && DigitsAt(t, 1, 2) then Some(3)
    else if |t| > 1 && t[0] == 'B' && t[1] == '@' && DigitsAt(t, 2, 5) then Some(7)
    else if |t| > 0 && t[0] == 'E' then Some(1)
    else if Any(t[Backslashes(t)..]).Some? then
      var m := Backslashes(t) + Any(t[Backslashes(t)..]).value;
      Some(m + Background(t[m..]))
    else if |t| > 0 && t[0] == '@' && DigitsAt(t, 1, 5) then Some(6)
    else if |t| > 1 && t[0] == 'b' && t[1] != '\n' then Some(2)
    else if |t| > 0 && t[0] == RESET then Some(1)
    else None
  }

  /** `RE_COLOR` at the start of `s`: the length of the code found there.
      Every code starts with a control character, and only a bare reset
      is a single character. */
  function Match(s: string): (r: Option<nat>)
    ensures r.Some? ==> 0 < r.value <= |s| && IsControl(s[0])
    ensures r.Some? && s[0] != RESET ==> r.value >= 2
    ensures |s| > 0 && s[0] == RESET ==> r == Some(1)
    ensures |s| > 1 && (s[0] == SET_ATTR || s[0] == REMOVE_ATTR) ==> (r.Some? <==> s[1] != '\n')
    ensures r.Some? && (s[0] == SET_ATTR || s[0] == REMOVE_ATTR) ==> r.value == 2
    ensures |s| > 0 && s[0] == COLOR_CODE ==>
      r == (if AfterColorCode(s[1..]).Some? then Some(AfterColorCode(s[1..]).value + 1) else None)
  {
    if |s| == 0 then None
    else if s[0] == COLOR_CODE then
      match AfterColorCode(s[1..])
      case Some(n) => Some(n + 1)
      case None => None
    else if s[0] == SET_ATTR || s[0] == REMOVE_ATTR then
      if |s| > 1 && s[1] != '\n' then Some(2) else None
    else if s[0] == RESET then Some(1)
    else None
  }

  /** `RE_COLOR.sub(repl, s)`: the text scanned from the left, each code
      found replaced according to `mode`, every other character kept. */
  datatype Mode = Strip | Markup(options: seq<string>) | Debug

  function Sub(s: string, mode: Mode): (r: string)
    ensures mode.Strip? ==> |r| <= |s|
    ensures (forall k :: 0 <= k < |s| ==> !IsControl(s[k])) ==> r == s
    decreases |s|, 1
  {
    if |s| == 0 then "" else Step(s, mode)
  }

  /** One step of the scan over a non-empty text: the replacement of the
      code at its start, or its first character, then the scan of the
      rest. */
  function Step(s: string, mode: Mode): (r: string)
    requires |s| > 0
    ensures mode.Strip? ==> |r| <= |s|
    ensures (forall k :: 0 <= k < |s| ==> !IsControl(s[k])) ==> r == s
    decreases |s|, 0
  {
    match Match(s)
    case Some(n) => Replacement(s, n, mode) + Sub(s[n..], mode)
    case None =>
      assert forall k :: 1 <= k < |s| ==> s[1..][k - 1] == s[k];
      [s[0]] + Sub(s[1..], mode)
  }

  /** What replaces the code of length `n` at the start of `s`. */
  function Replacement(s: string, n: nat, mode: Mode): string
    requires Match(s) == Some(n)
  {
    match mode
    case Strip => ""
    case Markup(options) => ConvertCode(s, n, options)
    case Debug => DebugCode(s[..n])
  }

  /** `remove(text)`: the text without its colour codes. */
  function Remove(text: string): (r: string)
    ensures |r| <= |text|
    ensures (forall k :: 0 <= k < |text| ==> !IsControl(text[k])) ==> r == text
  {
    if |text| == 0 then "" else Sub(text, Strip)
  }

  /** `Color(options, debug).convert(text)`: the codes turned into chat
      markup, or spelled out for the debug window. */
  function Convert(text: string, options: seq<string>, debug: bool): (r: string)
    ensures |text| == 0 ==> r == ""
    ensures (forall k :: 0 <= k < |text| ==> !IsControl(text[k])) ==> r == text
  {
    if |text| == 0 then "" else Sub(text, if debug then Debug else Markup(options))
  }

  // ---------------------------------------------------------------------
  // Markup

  /** `_convert_color`: the markup for the code of length `n` at the start
      of `s`. A bar code, a pair number and emphasis give nothing; a code
      no branch recognises (flags or backslashes before the colour) is
      kept as it is. */
  function ConvertCode(s: string, n: nat, options: seq<string>): (r: string)
    requires Match(s) == Some(n)
    ensures r == "" || r[0] == '\U{1}' || r == s[..n]
  {
    var g := s[..n];
    if g[0] == COLOR_CODE then
      if g[1] == 'b' then ""
      else if g[1] == RESET then RESET_MARKUP
      else if g[1] == 'F' || g[1] == 'B' then
        CodeShape(s, n);
        ColorAttr(g[1], g[2..])
      else if g[1] == '*' then
        CodeShape(s, n);
        StarShape(s, n);
        Star(g[2..], '~')
      else if g[1] == '@' then ""
      else if g[1] == 'E' then ""
      else if AllDigits(g[1..]) then WeechatColor(PyInt.DigitsValue(g[1..]), options)
      else g
    else if g[0] == SET_ATTR then "\U{1}(+" + AttrChar(g[1]) + ")"
    else if g[0] == REMOVE_ATTR then "\U{1}(-" + AttrChar(g[1]) + ")"
    else RESET_MARKUP
  }

  /** `str.isdigit()` over the ASCII digits. */
  predicate AllDigits(s: string) {
    |s| > 0 && forall k :: 0 <= k < |s| ==> PyInt.IsDigit(s[k])
  }

  /** The first two pieces of `colours` cut at `sep` are not empty. */
  predicate ItemsFilled(colours: string, sep: char) {
    var items := Split(colours, sep);
    |items[0]| > 0 && (|items| > 1 ==> |items[1]| > 0)
  }

  /** A code that starts with the colour-code character and `F`, `B` or
      `*` has a colour after those two characters. */
  lemma CodeShape(s: string, n: nat)
    requires Match(s) == Some(n) && s[0] == COLOR_CODE && n >= 2
    requires s[1] == 'F' || s[1] == 'B' || s[1] == '*'
    ensures n >= 4
  {
    AfterLetter(s[1..]);
  }

  /** After the colour-code character and `*`, cutting the colour at `~`
      or at `,` leaves no empty foreground or background. */
  lemma StarShape(s: string, n: nat)
    requires Match(s) == Some(n) && s[0] == COLOR_CODE && n >= 2 && s[1] == '*'
    ensures ItemsFilled(s[2..n], '~') && ItemsFilled(s[2..n], ',')
  {
    var t := s[1..];
    AfterLetter(t);
    var m := Any(t).value;
    var b := Background(t[m..]);
    StarPieces(t, m, b);
    assert s[2..n] == t[1..m + b];
  }

  /** After `F`, `B` or `*` come at least two more characters; after `*`
      they are a foreground and an optional background. */
  lemma AfterLetter(t: string)
    requires |t| > 0 && (t[0] == 'F' || t[0] == 'B' || t[0] == '*') && AfterColorCode(t).Some?
    ensures AfterColorCode(t).value >= 3
    ensures t[0] == '*' ==> Any(t).Some? && AfterColorCode(t).value == Any(t).value + Background(t[Any(t).value..])
  {
    LetterNotColour(t);
    assert Backslashes(t) == 0;
    assert t[Backslashes(t)..] == t;
    if t[0] == 'F' {
      AfterForeground(t);
    } else if t[0] == 'B' {
      AfterBackground(t);
    }
  }

  lemma AfterForeground(t: string)
    requires |t| > 0 && t[0] == 'F' && AfterColorCode(t).Some?
    requires !DigitsAt(t, 0, 2) && Any(t).None? && Backslashes(t) == 0
    ensures Any(t[1..]).Some? && AfterColorCode(t) == Some(1 + Any(t[1..]).value)
  {
    assert t[Backslashes(t)..] == t;
  }

  lemma AfterBackground(t: string)
    requires |t| > 0 && t[0] == 'B' && AfterColorCode(t).Some?
    requires !DigitsAt(t, 0, 2) && Any(t).None? && Backslashes(t) == 0
    ensures AfterColorCode(t) == Some(3) || AfterColorCode(t) == Some(7)
  {
    assert t[Backslashes(t)..] == t;
  }

  /** `F` and `B` start no colour; `*` is a flag, so a colour starting
      with it is longer than two characters. */
  lemma LetterNotColour(t: string)
    requires |t| > 0 && (t[0] == 'F' || t[0] == 'B' || t[0] == '*')
    ensures t[0] != '*' ==> Any(t).None?
    ensures Any(t).Some? ==> Any(t).value >= 3
    ensures !DigitsAt(t, 0, 2)
  {
    assert t[0] != '@' && !PyInt.IsDigit(t[0]);
    if t[0] == '*' {
      assert AttrCount(t) >= 1;
    } else {
      assert AttrCount(t) == 0;
    }
  }

  /** The pieces of `*`, a foreground and an optional background, cut at
      `~` or at `,`. */
  lemma StarPieces(t: string, m: nat, b: nat)
    requires |t| > 0 && t[0] == '*' && Any(t) == Some(m) && b == Background(t[m..])
    ensures ItemsFilled(t[1..m + b], '~') && ItemsFilled(t[1..m + b], ',')
  {
    var fore := t[1..m];
    NoSeparator(t, 1, m);
    if b == 0 {
      assert t[1..m + b] == fore;
      SplitNone(fore, '~');
      SplitNone(fore, ',');
    } else {
      var back := StarBackground(t, m, b);
      assert t[1..m + b] == fore + "~" + back;
      SplitPair(fore, back, '~');
      SplitNone(fore + "~" + back, ',');
    }
  }

  /** The background after `~`: at least two characters, none of them a
      separator. */
  lemma StarBackground(t: string, m: nat, b: nat) returns (back: string)
    requires m <= |t| && b == Background(t[m..]) && b > 0
    ensures m + b <= |t| && t[m] == '~' && back == t[m + 1..m + b]
    ensures |back| >= 2 && '~' !in back && ',' !in back
  {
    var u := t[m..];
    back := t[m + 1..m + b];
    assert u[1..][..b - 1] == back;
    NoSeparator(u[1..], 0, b - 1);
  }

  /** A run of characters that may appear in a colour holds neither `~`
      nor `,`. */
  lemma NoSeparator(s: string, i: nat, j: nat)
    requires i <= j <= |s| && forall k :: i <= k < j ==> InColour(s[k])
    ensures '~' !in s[i..j] && ',' !in s[i..j]
  {
    assert forall k :: 0 <= k < j - i ==> s[i..j][k] == s[i + k];
  }

  /** The `*` branch: a foreground, then a background if the colour was
      cut into more than one piece at `sep`. */
  function Star(colours: string, sep: char): (r: string)
    requires ItemsFilled(colours, sep)
    ensures r == "" || r[0] == '\U{1}'
    ensures sep !in colours ==> r == ColorAttr('F', colours)
  {
    var items := Split(colours, sep);
    assert sep !in colours ==> items == [colours] by {
      if sep !in colours { SplitNone(colours, sep); }
    }
    ColorAttr('F', items[0]) + (if |items| > 1 then ColorAttr('B', items[1]) else "")
  }

  /** The `*` branch as written: the colour is cut at `,`, a character the
      expression never lets into a code, while the background follows a
      `~`. */
  function StarAsWritten(colours: string): (r: string)
    requires ItemsFilled(colours, ',')
    ensures ',' !in colours ==> r == ColorAttr('F', colours)
  {
    Star(colours, ',')
  }

  /** `WEECHAT_BASIC_COLORS`: each basic colour's name and its entry in the
      terminal table. */
  const BASIC_COLORS: seq<(string, nat)> := [
    ("default", 0), ("black", 0), ("darkgray", 8), ("red", 1),
    ("lightred", 9), ("green", 2), ("lightgreen", 10), ("brown", 3),
    ("yellow", 11), ("blue", 4), ("lightblue", 12), ("magenta", 5),
    ("lightmagenta", 13), ("cyan", 6), ("lightcyan", 14), ("gray", 7),
    ("white", 0)]

  /** `_convert_color_attr`: an optional `@` marks an extended colour,
      then come the flags, then the number. An extended number is an
      entry of the terminal table; a standard one picks a basic colour,
      indexed as Python indexes (negative from the end). */
  function ColorAttr(fgbg: char, color: string): (r: string)
    requires |color| > 0
    ensures r == "" || (|r| > 3 && r[..3] == "\U{1}(" + [fgbg])
  {
    var extended := color[0] == '@';
    var rest := if extended then color[1..] else color;
    var a := AttrCount(rest);
    var number := PyInt.Parse(PyInt.OfStr, rest[a..]);
    if extended then TerminalColor(fgbg, rest[..a], number)
    else if number.Some? && -|BASIC_COLORS| <= number.value < |BASIC_COLORS| then
      var i := if number.value < 0 then number.value + |BASIC_COLORS| else number.value;
      TerminalColor(fgbg, rest[..a], Some(BASIC_COLORS[i].1))
    else ""
  }

  /** `_convert_terminal_color` once `int()` has run on the colour (`None`
      where it fails): the markup with the flags and the RGB value of the
      entry, or nothing when there is no such entry. */
  function TerminalColor(fgbg: char, attrs: string, index: Option<int>): (r: string)
    ensures r != "" <==> index.Some? && InTable(index.value)
    ensures r != "" ==> r == "\U{1}(" + [fgbg] + attrs + "#" + Rgb(index.value).value + ")"
  {
    if index.None? then ""
    else
      match Rgb(index.value)
      case Ok(rgb) => "\U{1}(" + [fgbg] + attrs + "#" + rgb + ")"
      case Err(_) => ""
  }

  /** `_convert_terminal_color` as written: every `_rgb_color` call fails
      and the failure is swallowed. */
  function TerminalColorAsWritten(fgbg: char, attrs: string, index: Option<int>): (r: string)
    ensures r == ""
  {
    if index.None? then ""
    else
      match RgbAsWritten(index.value)
      case Ok(rgb) => "\U{1}(" + [fgbg] + attrs + "#" + rgb + ")"
      case Err(_) => ""
  }

  /** `_convert_weechat_color`: the colour option with that number, or
      nothing past the end of the options. */
  function WeechatColor(index: nat, options: seq<string>): (r: string)
    ensures index < |options| <==> r != ""
  {
    if index < |options| then "\U{1}(Fr" + options[index] + ")" else ""
  }

  /** `_attrcode_to_char`: the flag for the attribute codes 1 to 4 (bold,
      reverse, italic, underline), nothing for any other character. */
  function AttrChar(code: char): (r: string)
    ensures |r| <= 1
    ensures |r| == 1 <==> '\U{1}' <= code <= '\U{4}'
    ensures |r| == 1 ==> IsAttr(r[0]) && r[0] != '|'
  {
    if code == '\U{1}' then "*"
    else if code == '\U{2}' then "!"
    else if code == '\U{3}' then "/"
    else if code == '\U{4}' then "_"
    else ""
  }

  /** Different attribute codes give different flags. */
  lemma AttrCharInjective(a: char, b: char)
    requires '\U{1}' <= a <= '\U{4}' && '\U{1}' <= b <= '\U{4}' && a != b
    ensures AttrChar(a) != AttrChar(b)
  {
  }

  /** Flags followed by a character that is no flag: the flags are
      counted, and only they. */
  lemma {:induction false} AttrCountPrefix(attrs: string, rest: string)
    requires forall k :: 0 <= k < |attrs| ==> IsAttr(attrs[k])
    requires |rest| > 0 ==> !IsAttr(rest[0])
    ensures AttrCount(attrs + rest) == |attrs|
    decreases |attrs|
  {
    if |attrs| > 0 {
      assert (attrs + rest)[1..] == attrs[1..] + rest;
      AttrCountPrefix(attrs[1..], rest);
    } else {
      assert attrs + rest == rest;
    }
  }

  /** A standard colour: flags and the decimal number of a basic colour
      give that colour's terminal entry with the flags. */
  lemma BasicColour(fgbg: char, attrs: string, n: nat)
    requires forall k :: 0 <= k < |attrs| ==> IsAttr(attrs[k])
    requires n < |BASIC_COLORS|
    ensures ColorAttr(fgbg, attrs + PyInt.Digits(n))
      == TerminalColor(fgbg, attrs, Some(BASIC_COLORS[n].1))
    ensures ColorAttr(fgbg, attrs + PyInt.Digits(n)) != ""
  {
    var color := attrs + PyInt.Digits(n);
    FlagsThenNumber(attrs, n);
    assert color[0] != '@';
    BasicEntries();
  }

  /** Flags then the decimal number `n`: the flags are counted and `int()`
      reads `n` from what follows. */
  lemma FlagsThenNumber(attrs: string, n: nat)
    requires forall k :: 0 <= k < |attrs| ==> IsAttr(attrs[k])
    ensures var color := attrs + PyInt.Digits(n);
      && |color| > 0 && color[0] != '@'
      && AttrCount(color) == |attrs| && color[..|attrs|] == attrs
      && PyInt.Parse(PyInt.OfStr, color[|attrs|..]) == Some(n)
  {
    var digits := PyInt.Digits(n);
    var color := attrs + digits;
    AttrCountPrefix(attrs, digits);
    assert color[..|attrs|] == attrs && color[|attrs|..] == digits;
    assert color[0] == (if |attrs| > 0 then attrs[0] else digits[0]);
    PyInt.ParseDigits(PyInt.OfStr, digits);
    PyInt.DigitsValueOfDigits(n);
  }

  /** The basic colours all name entries of the terminal table. */
  lemma BasicEntries()
    ensures forall i :: 0 <= i < |BASIC_COLORS| ==> BASIC_COLORS[i].1 < 16
  {
  }

  /** An extended colour: `@`, flags and a decimal number give the
      terminal entry with that number, when there is one. */
  lemma ExtendedColour(fgbg: char, attrs: string, n: nat)
    requires forall k :: 0 <= k < |attrs| ==> IsAttr(attrs[k])
    ensures ColorAttr(fgbg, "@" + attrs + PyInt.Digits(n)) == TerminalColor(fgbg, attrs, Some(n))
    ensures ColorAttr(fgbg, "@" + attrs + PyInt.Digits(n)) != "" <==> n < 256
  {
    var color := "@" + attrs + PyInt.Digits(n);
    assert color[1..] == attrs + PyInt.Digits(n);
    FlagsThenNumber(attrs, n);
  }

  /** A colour with `~` inside it is not a number, so it gives nothing. */
  lemma TildeNoColour(fgbg: char, color: string, i: nat)
    requires i < |color| && color[i] == '~'
    ensures ColorAttr(fgbg, color) == ""
  {
    var extended := color[0] == '@';
    var rest := if extended then color[1..] else color;
    var j := if extended then i - 1 else i;
    assert rest[j] == '~';
    var a := AttrCount(rest);
    assert a <= j;
    assert rest[a..][j - a] == '~';
    PyInt.ParseRejects(PyInt.OfStr, rest[a..], '~');
  }

  /** The `*` code as written loses a background given after `~`: cut at
      `,` the whole colour stays one piece, which is no number, so
      nothing is emitted where the intended code emits both colours. */
  lemma TildeSeparatorIgnored(fore: string, back: string)
    requires |fore| > 0 && |back| > 0
    requires '~' !in fore && '~' !in back && ',' !in fore && ',' !in back
    ensures ItemsFilled(fore + "~" + back, ',') && ItemsFilled(fore + "~" + back, '~')
    ensures StarAsWritten(fore + "~" + back) == ""
    ensures Star(fore + "~" + back, '~') == ColorAttr('F', fore) + ColorAttr('B', back)
  {
    var colours := fore + "~" + back;
    SplitPair(fore, back, '~');
    SplitNone(colours, ',');
    assert colours[|fore|] == '~';
    TildeNoColour('F', colours, |fore|);
  }

  // ---------------------------------------------------------------------
  // Terminal colours

  /** The first sixteen entries of `TERMINAL_COLORS`, the system colours. */
  const SYSTEM_COLORS: seq<nat> := [
    0x000000, 0xcd0000, 0x00cd00, 0xcdcd00, 0x0000cd, 0xcd00cd, 0x00cdcd, 0xe5e5e5,
    0x4d4d4d, 0xff0000, 0x00ff00, 0xffff00, 0x0000ff, 0xff00ff, 0x00ffff, 0xffffff]

  /** The six component levels of the colour cube in `TERMINAL_COLORS`. */
  const CUBE_LEVELS: seq<nat> := [0x00, 0x2a, 0x55, 0x80, 0xaa, 0xd4]

  /** Entry `i` of `TERMINAL_COLORS`, the table of the 256 terminal
      colours (each written in the source as six lower-case hexadecimal
      digits, which `Hex6` renders back). The table is the sixteen system
      colours, then a 6x6x6 cube over `CUBE_LEVELS` (red slowest, blue
      fastest), then 24 greys from 0x080808 in steps of 0x0a0a0a; the
      entries are computed that way here rather than listed. */
  function PaletteEntry(i: nat): (v: nat)
    requires i < 256
    ensures v < 0x100_0000
  {
    if i < 16 then SYSTEM_COLORS[i]
    else if i < 232 then
      var c := i - 16;
      CUBE_LEVELS[c / 36] * 0x1_0000 + CUBE_LEVELS[c / 6 % 6] * 0x100 + CUBE_LEVELS[c % 6]
    else (8 + 10 * (i - 232)) * 0x01_0101
  }

  predicate IsHexDigit(c: char) {
    '0' <= c <= '9' || 'a' <= c <= 'f' || 'A' <= c <= 'F'
  }

  function HexDigitValue(c: char): (v: nat)
    requires IsHexDigit(c)
    ensures v < 16
  {
    if '0' <= c <= '9' then c as int - '0' as int
    else if 'a' <= c <= 'f' then c as int - 'a' as int + 10
    else c as int - 'A' as int + 10
  }

  /** `int(s, 16)` for the table's fields: `ValueError` unless the text
      is made of hexadecimal digits (the table has no signs, spaces or
      prefixes). */
  function HexInt(s: string): (r: Result<nat>)
    ensures r.Ok? <==> |s| > 0 && forall k :: 0 <= k < |s| ==> IsHexDigit(s[k])
    ensures r.Ok? && |s| <= 1 ==> r.value < 16
    ensures r.Ok? && |s| <= 2 ==> r.value < 256
  {
    if |s| == 0 || !IsHexDigit(s[|s| - 1]) then Err(ValueError)
    else if |s| == 1 then Ok(HexDigitValue(s[0]))
    else
      var high :- HexInt(s[..|s| - 1]);
      assert forall k :: 0 <= k < |s| - 1 ==> s[..|s| - 1][k] == s[k];
      Ok(high * 16 + HexDigitValue(s[|s| - 1]))
  }

  function LowerHexDigit(n: nat): (c: char)
    requires n < 16
    ensures IsHexDigit(c) && HexDigitValue(c) == n
  {
    if n < 10 then ('0' as int + n) as char else ('a' as int + n - 10) as char
  }

  /** `'%02x' % v` for a value below 256: two lower-case digits that read
      back as `v`. */
  function Hex2Lower(v: nat): (s: string)
    requires v < 256
    ensures |s| == 2 && HexInt(s) == Ok(v)
  {
    var s := [LowerHexDigit(v / 16), LowerHexDigit(v % 16)];
    assert s[..1] == [s[0]];
    s
  }

  /** `s[i:j]` with Python's bounds. */
  function Slice(s: string, i: int, j: int): (r: string)
    ensures |r| <= |s| && (0 <= i <= j ==> |r| <= j - i)
    ensures 0 <= i <= j <= |s| ==> r == s[i..j]
  {
    var a := Bytes.SliceBound(i, |s|);
    var b := Bytes.SliceBound(j, |s|);
    if a < b then s[a..b] else ""
  }

  /** A colour below 0x1000000 as six lower-case hexadecimal digits, red
      first. */
  function Hex6(v: nat): (s: string)
    ensures |s| == 6
    ensures HexInt(s[0..2]) == Ok(v / 0x1_0000 % 0x100)
    ensures HexInt(s[2..4]) == Ok(v / 0x100 % 0x100)
    ensures HexInt(s[4..6]) == Ok(v % 0x100)
  {
    var s := Hex2Lower(v / 0x1_0000 % 0x100) + Hex2Lower(v / 0x100 % 0x100) + Hex2Lower(v % 0x100);
    assert s[0..2] == Hex2Lower(v / 0x1_0000 % 0x100);
    assert s[2..4] == Hex2Lower(v / 0x100 % 0x100);
    assert s[4..6] == Hex2Lower(v % 0x100);
    s
  }

  /** The numbers `_rgb_color` finds an entry for. */
  predicate InTable(index: int) {
    0 <= index < 256 || -256 <= index <= -2
  }

  /** The six digits `_rgb_color` slices out for `index`: entry `index`,
      or entry `256 + index` for -256 to -2 (Python counts a negative
      bound from the end), and nothing for any other number. */
  function Entry(index: int): (r: string)
    ensures InTable(index) ==> |r| == 6
    ensures !InTable(index) ==> r == ""
  {
    if 0 <= index < 256 then Hex6(PaletteEntry(index))
    else if -256 <= index <= -2 then Hex6(PaletteEntry(index + 256))
    else ""
  }

  /** Spot checks against the written table: the first system colour
      after black, the two ends of the cube and the two ends of the greys. */
  lemma PaletteSamples()
    ensures PaletteEntry(1) == 0xcd0000 && PaletteEntry(15) == 0xffffff
    ensures PaletteEntry(16) == 0x000000 && PaletteEntry(17) == 0x00002a && PaletteEntry(231) == 0xd4d4d4
    ensures PaletteEntry(232) == 0x080808 && PaletteEntry(254) == 0xe4e4e4 && PaletteEntry(255) == 0xeeeeee
  {
  }

  /** The two digits `pair` read back as the dimmed value of `field`. */
  predicate ReadsBack(pair: string, field: Result<nat>) {
    field.Ok? && HexInt(pair) == Ok(Dim(field.value))
  }

  /** The red (0), green (1) or blue (2) field of an entry. */
  function Channel(color: string, c: nat): (r: Result<nat>)
    ensures |color| == 0 ==> r.Err?
    ensures |color| == 6 && c < 3 ==> r == HexInt(color[2 * c..2 * c + 2])
    ensures r.Ok? ==> r.value < 256
  {
    HexInt(Slice(color, 2 * c, 2 * c + 2))
  }

  /** 85% of a colour component, truncated: what `'%02x'` made of the
      float product before Python 3. */
  function Dim(v: nat): (d: nat)
    ensures v < 256 ==> d < 256
  {
    v * 85 / 100
  }

  /** `_rgb_color` as intended: the entry with each component dimmed to
      85%, in lower-case hexadecimal. Each pair of digits reads back as
      the dimmed value of the entry's field, and a number outside the
      table (Python also reaches entries 254 down to 0 with -2 down to
      -256) has no colour. */
  function Rgb(index: int): (r: Result<string>)
    ensures r.Ok? ==> |r.value| == 6
    ensures r.Ok? ==> ReadsBack(r.value[0..2], Channel(Entry(index), 0))
    ensures r.Ok? ==> ReadsBack(r.value[2..4], Channel(Entry(index), 1))
    ensures r.Ok? ==> ReadsBack(r.value[4..6], Channel(Entry(index), 2))
    ensures r.Ok? <==> InTable(index)
  {
    var color := Entry(index);
    var red :- Channel(color, 0);
    var green :- Channel(color, 1);
    var blue :- Channel(color, 2);
    Ok(DimHex(red, green, blue))
  }

  /** `'%02x%02x%02x'` of the three dimmed components. */
  function DimHex(red: nat, green: nat, blue: nat): (s: string)
    requires red < 256 && green < 256 && blue < 256
    ensures |s| == 6
    ensures HexInt(s[0..2]) == Ok(Dim(red))
    ensures HexInt(s[2..4]) == Ok(Dim(green))
    ensures HexInt(s[4..6]) == Ok(Dim(blue))
  {
    var s := Hex2Lower(Dim(red)) + Hex2Lower(Dim(green)) + Hex2Lower(Dim(blue));
    assert s[0..2] == Hex2Lower(Dim(red));
    assert s[2..4] == Hex2Lower(Dim(green));
    assert s[4..6] == Hex2Lower(Dim(blue));
    s
  }

  /** `_rgb_color` as written: under Python 3, `'%02x'` refuses the float
      products with `TypeError`, so no entry is ever rendered. */
  function RgbAsWritten(index: int): (r: Result<string>)
    ensures r.Err?
    ensures Rgb(index).Ok? ==> r == Err(TypeError)
  {
    var color := Entry(index);
    var red :- Channel(color, 0);
    var green :- Channel(color, 1);
    var blue :- Channel(color, 2);
    Err(TypeError)
  }

  /** Every entry of the table has a colour, and the written code renders
      none of them: Python 3's `'%02x'` takes no float. */
  lemma DimmedColourLost(fgbg: char, attrs: string, index: int)
    requires InTable(index)
    ensures Rgb(index).Ok? && RgbAsWritten(index) == Err(TypeError)
    ensures TerminalColor(fgbg, attrs, Some(index)) != ""
    ensures TerminalColorAsWritten(fgbg, attrs, Some(index)) == ""
  {
  }

  // ---------------------------------------------------------------------
  // Debug view

  /** The codes the debug view spells out, in the order it replaces them. */
  const CODES: seq<char> := ['\U{1}', '\U{2}', '\U{3}', '\U{4}', COLOR_CODE, SET_ATTR, REMOVE_ATTR]

  /** `'<x%02X>' % code`. */
  function Spelled(c: char): (r: string)
    requires c as int < 256
    ensures |r| == 5 && r[0] == '<' && forall k :: 0 <= k < 5 ==> !IsControl(r[k]) && r[k] !in CODES
  {
    "<x" + HexDump.Hex2(c as int) + ">"
  }

  /** `s.replace(c, t)`. */
  function ReplaceChar(s: string, c: char, t: string): (r: string)
    ensures c !in s ==> r == s
  {
    if |s| == 0 then ""
    else (if s[0] == c then t else [s[0]]) + ReplaceChar(s[1..], c, t)
  }

  /** `_convert_color_debug` as the source does it: the codes replaced one
      after the other. */
  function DebugCode(g: string): (r: string)
    ensures r == EscapeWith(g, CODES)
  {
    EscapeNothing(g);
    ReplaceEachSpells(g, [], CODES);
    assert [] + CODES == CODES;
    ReplaceEach(g, CODES)
  }

  function ReplaceEach(g: string, cs: seq<char>): string
    requires forall i :: 0 <= i < |cs| ==> cs[i] as int < 256
    decreases |cs|
  {
    if |cs| == 0 then g else ReplaceEach(ReplaceChar(g, cs[0], Spelled(cs[0])), cs[1..])
  }

  // ---------------------------------------------------------------------
  // The debug view, character by character

  /** Each character of `cs` in `g` spelled out, the others kept. */
  function EscapeWith(g: string, cs: seq<char>): (r: string)
    requires forall i :: 0 <= i < |cs| ==> cs[i] as int < 256
  {
    if |g| == 0 then "" else (if g[0] in cs then Spelled(g[0]) else [g[0]]) + EscapeWith(g[1..], cs)
  }

  lemma {:induction false} ReplaceAppend(a: string, b: string, c: char, t: string)
    ensures ReplaceChar(a + b, c, t) == ReplaceChar(a, c, t) + ReplaceChar(b, c, t)
    decreases |a|
  {
    if |a| == 0 {
      assert a + b == b;
    } else {
      assert (a + b)[1..] == a[1..] + b;
      ReplaceAppend(a[1..], b, c, t);
    }
  }

  /** Replacing one more code after some have been spelled out spells it
      out too: no spelling contains a code. */
  lemma {:induction false} ReplaceStep(g: string, done: seq<char>, c: char)
    requires forall i :: 0 <= i < |done| ==> done[i] in CODES
    requires c in CODES
    ensures ReplaceChar(EscapeWith(g, done), c, Spelled(c)) == EscapeWith(g, done + [c])
    decreases |g|
  {
    if |g| > 0 {
      var head := if g[0] in done then Spelled(g[0]) else [g[0]];
      ReplaceAppend(head, EscapeWith(g[1..], done), c, Spelled(c));
      ReplaceStep(g[1..], done, c);
      if g[0] in done {
        assert c !in head;
      }
    }
  }

  lemma {:induction false} ReplaceEachSpells(g: string, done: seq<char>, rest: seq<char>)
    requires forall i :: 0 <= i < |done| ==> done[i] in CODES
    requires forall i :: 0 <= i < |rest| ==> rest[i] in CODES
    ensures ReplaceEach(EscapeWith(g, done), rest) == EscapeWith(g, done + rest)
    decreases |rest|
  {
    if |rest| == 0 {
      assert done + rest == done;
    } else {
      ReplaceStep(g, done, rest[0]);
      ReplaceEachSpells(g, done + [rest[0]], rest[1..]);
      assert [rest[0]] + rest[1..] == rest;
      Bytes.AppendAssoc(done, [rest[0]], rest[1..]);
    }
  }

  lemma {:induction false} EscapeNothing(g: string)
    ensures EscapeWith(g, []) == g
    decreases |g|
  {
    if |g| > 0 {
      EscapeNothing(g[1..]);
    }
  }

  /** The source's one-code-after-the-other replacement spells out every
      listed code in a single pass, leaving every other character. */
  lemma DebugCodeSpellsEach(g: string)
    ensures DebugCode(g) == EscapeWith(g, CODES)
  {
    EscapeNothing(g);
    ReplaceEachSpells(g, [], CODES);
    assert [] + CODES == CODES;
  }

  /** Reading `<xHH>` back as the character with that upper-case code. */
  function Unescape(s: string): string
    decreases |s|
  {
    if |s| == 0 then ""
    else if |s| >= 5 && s[0] == '<' && s[1] == 'x' && s[4] == '>'
      && 0 <= HexDump.HexValue(s[2]) && 0 <= HexDump.HexValue(s[3]) then
      [(HexDump.HexValue(s[2]) * 16 + HexDump.HexValue(s[3])) as char] + Unescape(s[5..])
    else [s[0]] + Unescape(s[1..])
  }

  lemma UnescapeSpelled(c: char, rest: string)
    requires c as int < 256
    ensures Unescape(Spelled(c) + rest) == [c] + Unescape(rest)
  {
    var b: Bytes.byte := c as int;
    var s := Spelled(c) + rest;
    assert HexDump.HexValue(HexDump.HexUpper(b / 16)) == b / 16;
    assert HexDump.HexValue(HexDump.HexUpper(b % 16)) == b % 16;
    assert s[2] == HexDump.HexUpper(b / 16) && s[3] == HexDump.HexUpper(b % 16);
    assert s[5..] == rest;
  }

  /** The debug view loses nothing: in a code without `<`, reading the
      spelled-out codes back gives the code. */
  lemma {:induction false} UnescapeEscape(g: string)
    requires '<' !in g
    ensures Unescape(EscapeWith(g, CODES)) == g
    decreases |g|
  {
    if |g| > 0 {
      var rest := EscapeWith(g[1..], CODES);
      UnescapeEscape(g[1..]);
      if g[0] in CODES {
        UnescapeSpelled(g[0], rest);
      } else {
        assert ([g[0]] + rest)[1..] == rest;
      }
      assert g == [g[0]] + g[1..];
    }
  }

  /** No listed code survives the debug view. */
  lemma {:induction false} EscapeClean(g: string)
    ensures forall k :: 0 <= k < |EscapeWith(g, CODES)| ==> EscapeWith(g, CODES)[k] !in CODES
    decreases |g|
  {
    if |g| > 0 {
      EscapeClean(g[1..]);
      var head := if g[0] in CODES then Spelled(g[0]) else [g[0]];
      var r := EscapeWith(g, CODES);
      forall k | 0 <= k < |r| ensures r[k] !in CODES {
        if k >= |head| {
          assert r[k] == EscapeWith(g[1..], CODES)[k - |head|];
        }
      }
    }
  }

  // ---------------------------------------------------------------------
  // The scan as pieces

  /** A character the scan keeps, or a code it found. */
  datatype Piece = Kept(c: char) | Code(group: string)

  function PieceText(p: Piece): string {
    match p
    case Kept(c) => [c]
    case Code(g) => g
  }

  function Joined(ps: seq<Piece>): string {
    if |ps| == 0 then "" else PieceText(ps[0]) + Joined(ps[1..])
  }

  /** The characters kept, in order. */
  function KeptText(ps: seq<Piece>): string {
    if |ps| == 0 then "" else (if ps[0].Kept? then [ps[0].c] else "") + KeptText(ps[1..])
  }

  /** The scan of `s` as `RE_COLOR.sub` performs it: the codes found and
      the characters between them. */
  function Pieces(s: string): seq<Piece>
    decreases |s|
  {
    if |s| == 0 then []
    else
      var head := Front(s);
      [head] + Pieces(s[|PieceText(head)|..])
  }

  /** Joining the pieces gives the text back. */
  lemma {:induction false} PiecesJoin(s: string)
    ensures Joined(Pieces(s)) == s
    decreases |s|
  {
    if |s| > 0 {
      var head := Front(s);
      var n := |PieceText(head)|;
      var rest := Pieces(s[n..]);
      PiecesJoin(s[n..]);
      assert Pieces(s) == [head] + rest;
      JoinedCons(head, rest);
      assert PieceText(head) == s[..n];
      Bytes.TakeDrop(s, n);
    }
  }

  /** Every code the scan finds starts with a control character. */
  lemma {:induction false} PiecesMarked(s: string)
    ensures CodesMarked(Pieces(s))
    decreases |s|
  {
    if |s| > 0 {
      var head := Front(s);
      PiecesMarked(s[|PieceText(head)|..]);
      CodesMarkedCons(head, Pieces(s[|PieceText(head)|..]));
    }
  }

  /** Every code piece is non-empty and starts with a control character. */
  predicate CodesMarked(ps: seq<Piece>) {
    forall i :: 0 <= i < |ps| && ps[i].Code? ==> |ps[i].group| > 0 && IsControl(ps[i].group[0])
  }

  lemma CodesMarkedCons(p: Piece, ps: seq<Piece>)
    requires p.Code? ==> |p.group| > 0 && IsControl(p.group[0])
    requires CodesMarked(ps)
    ensures CodesMarked([p] + ps)
  {
    assert forall i :: 1 <= i < |ps| + 1 ==> ([p] + ps)[i] == ps[i - 1];
  }

  /** The piece the scan finds at the start of a non-empty text: the code
      there, or else its first character. */
  function Front(s: string): (p: Piece)
    requires |s| > 0
    ensures 0 < |PieceText(p)| <= |s| && s[..|PieceText(p)|] == PieceText(p)
    ensures p.Code? <==> Match(s).Some?
    ensures p.Code? ==> |p.group| == Match(s).value && IsControl(p.group[0])
  {
    match Match(s)
    case Some(n) => Code(s[..n])
    case None => Kept(s[0])
  }

  lemma JoinedCons(p: Piece, ps: seq<Piece>)
    ensures Joined([p] + ps) == PieceText(p) + Joined(ps)
  {
    assert ([p] + ps)[1..] == ps;
  }

  /** `remove` keeps exactly the characters between the codes. */
  lemma {:induction false} RemoveKeepsBetween(s: string)
    ensures Remove(s) == KeptText(Pieces(s))
    decreases |s|
  {
    if |s| > 0 {
      var n := if Match(s).Some? then Match(s).value else 1;
      RemoveKeepsBetween(s[n..]);
      if Match(s).Some? {
        SubCode(s, n, Strip);
      } else {
        SubChar(s, Strip);
      }
      var ps := Pieces(s);
      assert ps[1..] == Pieces(s[n..]);
      if s[n..] == "" {
        assert Sub(s[n..], Strip) == "";
      }
    }
  }

  lemma {:induction false} KeptOfJoined(ps: seq<Piece>)
    requires CodesMarked(ps)
    ensures (forall i :: 0 <= i < |ps| ==> ps[i].Kept?) ==> KeptText(ps) == Joined(ps)
    ensures (exists i :: 0 <= i < |ps| && ps[i].Code?) ==> |KeptText(ps)| < |Joined(ps)|
    ensures |KeptText(ps)| <= |Joined(ps)|
    decreases |ps|
  {
    if |ps| > 0 {
      KeptOfJoined(ps[1..]);
      if exists i :: 0 <= i < |ps| && ps[i].Code? {
        var i :| 0 <= i < |ps| && ps[i].Code?;
        if i > 0 {
          assert ps[1..][i - 1].Code?;
        }
      }
    }
  }

  /** `remove` leaves a text alone exactly when the scan finds no code in
      it. */
  lemma RemoveUnchanged(s: string)
    ensures Remove(s) == s <==> forall i :: 0 <= i < |Pieces(s)| ==> Pieces(s)[i].Kept?
  {
    RemoveKeepsBetween(s);
    PiecesJoin(s);
    PiecesMarked(s);
    KeptOfJoined(Pieces(s));
  }

  // ---------------------------------------------------------------------
  // What each kind of code becomes

  /** One step of the scan over a code. */
  lemma SubCode(s: string, n: nat, mode: Mode)
    requires Match(s) == Some(n)
    ensures Sub(s, mode) == Replacement(s, n, mode) + Sub(s[n..], mode)
  {
    assert Sub(s, mode) == Step(s, mode);
  }

  /** One step of the scan over a character that starts no code. */
  lemma SubChar(s: string, mode: Mode)
    requires |s| > 0 && Match(s).None?
    ensures Sub(s, mode) == [s[0]] + Sub(s[1..], mode)
  {
    assert Sub(s, mode) == Step(s, mode);
  }

  lemma ConvertIsSub(s: string, options: seq<string>, debug: bool)
    ensures Convert(s, options, debug) == Sub(s, if debug then Debug else Markup(options))
  {
  }

  /** One step of `convert` over a code. */
  lemma ConvertStep(s: string, n: nat, options: seq<string>, debug: bool)
    requires Match(s) == Some(n)
    ensures Convert(s, options, debug)
      == Replacement(s, n, if debug then Debug else Markup(options)) + Convert(s[n..], options, debug)
  {
    SubCode(s, n, if debug then Debug else Markup(options));
    ConvertIsSub(s[n..], options, debug);
  }

  /** A reset becomes the default colours. */
  lemma ConvertReset(rest: string, options: seq<string>)
    ensures Convert([RESET] + rest, options, false) == RESET_MARKUP + Convert(rest, options, false)
  {
    var s := [RESET] + rest;
    assert Match(s) == Some(1);
    ConvertStep(s, 1, options, false);
    assert s[1..] == rest;
  }

  /** In the debug view a bare reset is kept as it is: 0x1C is not among
      the codes spelled out. */
  lemma DebugKeepsReset(rest: string, options: seq<string>)
    ensures Convert([RESET] + rest, options, true) == [RESET] + Convert(rest, options, true)
  {
    var s := [RESET] + rest;
    assert Match(s) == Some(1);
    ConvertStep(s, 1, options, true);
    assert s[1..] == rest && s[..1] == [RESET];
    DebugResetKept();
  }

  lemma DebugResetKept()
    ensures DebugCode([RESET]) == [RESET]
  {
    DebugCodeSpellsEach([RESET]);
    assert RESET !in CODES;
    assert EscapeWith([RESET], CODES) == [RESET] + EscapeWith([], CODES);
  }

  /** Setting or removing an attribute becomes `+` or `-` and its flag;
      the code and the character after it are consumed together. */
  lemma ConvertAttribute(code: char, c: char, rest: string, options: seq<string>)
    requires code == SET_ATTR || code == REMOVE_ATTR
    requires c != '\n'
    ensures Convert([code, c] + rest, options, false)
      == "\U{1}(" + (if code == SET_ATTR then "+" else "-") + AttrChar(c) + ")" + Convert(rest, options, false)
  {
    var s := [code, c] + rest;
    AttributeMarkup(s, options);
    ConvertStep(s, 2, options, false);
    assert s[2..] == rest;
  }

  lemma AttributeMarkup(s: string, options: seq<string>)
    requires |s| >= 2 && (s[0] == SET_ATTR || s[0] == REMOVE_ATTR) && s[1] != '\n'
    ensures Match(s) == Some(2)
    ensures ConvertCode(s, 2, options) == "\U{1}(" + (if s[0] == SET_ATTR then "+" else "-") + AttrChar(s[1]) + ")"
  {
    assert s[..2][0] == s[0] && s[..2][1] == s[1];
  }

  /** Two digits after the colour-code character pick a colour option by
      number; past the end of the options they give nothing. */
  lemma ConvertWeechatColour(d0: char, d1: char, rest: string, options: seq<string>)
    requires PyInt.IsDigit(d0) && PyInt.IsDigit(d1)
    ensures Convert([COLOR_CODE, d0, d1] + rest, options, false)
      == WeechatColor((d0 as int - '0' as int) * 10 + (d1 as int - '0' as int), options) + Convert(rest, options, false)
  {
    WeechatMarkup(d0, d1, rest, options);
    ConvertStep([COLOR_CODE, d0, d1] + rest, 3, options, false);
  }

  lemma WeechatMarkup(d0: char, d1: char, rest: string, options: seq<string>)
    requires PyInt.IsDigit(d0) && PyInt.IsDigit(d1)
    ensures var s := [COLOR_CODE, d0, d1] + rest;
      && Match(s) == Some(3) && s[3..] == rest
      && ConvertCode(s, 3, options) == WeechatColor((d0 as int - '0' as int) * 10 + (d1 as int - '0' as int), options)
  {
    var s := [COLOR_CODE, d0, d1] + rest;
    TwoDigitCode(d0, d1, rest);
    TwoDigits(d0, d1);
    assert s[..3][1..] == [d0, d1];
  }

  lemma TwoDigitCode(d0: char, d1: char, rest: string)
    requires PyInt.IsDigit(d0) && PyInt.IsDigit(d1)
    ensures var s := [COLOR_CODE, d0, d1] + rest;
      Match(s) == Some(3) && s[3..] == rest && s[..3] == [COLOR_CODE, d0, d1]
  {
    var s := [COLOR_CODE, d0, d1] + rest;
    assert s[1..][..2] == [d0, d1];
  }

  lemma TwoDigits(d0: char, d1: char)
    requires PyInt.IsDigit(d0) && PyInt.IsDigit(d1)
    ensures AllDigits([d0, d1])
    ensures PyInt.DigitsValue([d0, d1]) == (d0 as int - '0' as int) * 10 + (d1 as int - '0' as int)
  {
    var ds := [d0, d1];
    assert ds[..1] == [d0] && [d0][..0] == [];
    assert PyInt.DigitsValue([d0]) == d0 as int - '0' as int;
  }

  /** Emphasis, a bar code or a pair number disappears, in the chat view
      and in `remove` alike. */
  lemma IgnoredCodes(g: string, rest: string, options: seq<string>)
    requires g == [COLOR_CODE, 'E'] || (|g| == 3 && g[0] == COLOR_CODE && g[1] == 'b' && g[2] != '\n')
    ensures Convert(g + rest, options, false) == Convert(rest, options, false)
    ensures Remove(g + rest) == Remove(rest)
  {
    var s := g + rest;
    IgnoredMarkup(s, |g|, options);
    assert s[|g|..] == rest;
    ConvertStep(s, |g|, options, false);
    SubCode(s, |g|, Strip);
  }

  lemma IgnoredMarkup(s: string, n: nat, options: seq<string>)
    requires 2 <= n <= 3 && |s| >= n && s[0] == COLOR_CODE
    requires (n == 2 && s[1] == 'E') || (n == 3 && s[1] == 'b' && s[2] != '\n')
    ensures Match(s) == Some(n) && ConvertCode(s, n, options) == ""
  {
    var t := s[1..];
    assert t[0] == s[1];
    assert Backslashes(t) == 0;
    assert s[..n][1] == s[1];
  }

  /** The `@` and pair-number alternative of the expression is never the
      one that matches: the backslash alternative before it already takes
      `@` and five digits as an extended colour. */
  lemma PairNumberShadowed(t: string)
    requires |t| > 0 && t[0] == '@' && DigitsAt(t, 1, 5)
    ensures AfterColorCode(t) == Some(6 + Background(t[6..]))
  {
    assert AttrCount(t) == 0;
    assert AttrCount(t[1..]) == 0 by {
      assert t[1..][0] == t[1];
    }
    assert Backslashes(t) == 0;
    assert t[0..] == t;
  }

  /** `remove` is not idempotent: removing an attribute code can join a
      lone colour-code character to the two digits after it, and a
      second `remove` takes that new code away. */
  lemma RemoveNotIdempotent(c: char, d0: char, d1: char)
    requires c != '\n' && PyInt.IsDigit(d0) && PyInt.IsDigit(d1)
    ensures Remove([COLOR_CODE, SET_ATTR, c, d0, d1]) == [COLOR_CODE, d0, d1]
    ensures Remove([COLOR_CODE, d0, d1]) == ""
  {
    var digits := [d0, d1];
    assert forall k :: 0 <= k < |digits| ==> !IsControl(digits[k]);
    RemoveJoinsCode(c, digits);
    assert [COLOR_CODE, SET_ATTR, c] + digits == [COLOR_CODE, SET_ATTR, c, d0, d1];
    assert [COLOR_CODE] + digits == [COLOR_CODE, d0, d1];
    var u := [COLOR_CODE, d0, d1];
    TwoDigitCode(d0, d1, []);
    assert u + [] == u;
    RemoveStep(u, 3);
  }

  /** An attribute code right after a lone colour-code character is
      removed, and the character stays. */
  lemma RemoveJoinsCode(c: char, rest: string)
    requires c != '\n'
    requires forall k :: 0 <= k < |rest| ==> !IsControl(rest[k])
    ensures Remove([COLOR_CODE, SET_ATTR, c] + rest) == [COLOR_CODE] + rest
  {
    var s := [COLOR_CODE, SET_ATTR, c] + rest;
    var t := [SET_ATTR, c] + rest;
    LoneColourCode(t);
    assert s[1..] == t;
    RemoveChar(s);
    RemoveStep(t, 2);
    assert t[2..] == rest;
  }

  /** `remove` drops a code and goes on after it. */
  lemma RemoveStep(s: string, n: nat)
    requires Match(s) == Some(n)
    ensures Remove(s) == Remove(s[n..])
  {
    SubCode(s, n, Strip);
  }

  /** `remove` keeps a character that starts no code. */
  lemma RemoveChar(s: string)
    requires |s| > 0 && Match(s).None?
    ensures Remove(s) == [s[0]] + Remove(s[1..])
  {
    SubChar(s, Strip);
  }

  /** The colour-code character followed by an attribute code starts no
      code. */
  lemma LoneColourCode(t: string)
    requires |t| > 0 && t[0] == SET_ATTR
    ensures Match([COLOR_CODE] + t) == None
  {
    assert ([COLOR_CODE] + t)[1..] == t;
    assert Backslashes(t) == 0;
  }
}

=== FILE: dispatch.dfy ===
/** The main window's side of the connection (qweechat/qweechat.py): the
    debug log, what the user sends from the debug dialog and from a
    buffer's input line, and the routing of every message WeeChat sends
    to its handler. */
module Dispatch {
  import opened Results
  import opened Bytes
  import opened Text
  import PyInt
  import Utf8
  import Protocol
  import HexDump
  import Network
  import Framer
  import opened BufferList
  import Handlers
  import Buffer
  import opened Values

  /** How many debug entries the window keeps. */
  const DEBUG_NUM_LINES: nat := 50

  /** The forced colours of the debug entries. */
  const COLOUR_SENT: string := "#AA0000"
  const COLOUR_RECEIVED: string := "#008800"
  const COLOUR_STATUS: string := "#0000AA"

  /** Bytes per line of the hex dumps in the debug log. */
  const DUMP_WIDTH: nat := 20

  /** One `debug_display` call: direction arrow, text and forced colour
      (absent when the call gives none). */
  datatype DebugEntry = DebugEntry(direction: string, text: string, colour: Option<string>)

  /** The main window's state that the messages touch: the buffers, the
      debug log and the connection. */
  datatype Client = Client(buffers: seq<BufferRec>, debug: seq<DebugEntry>, net: Network.Session)

  /** A client state the window can be in: a debug log within its bound
      and well-formed nicklists. */
  predicate WellFormed(c: Client) {
    |c.debug| <= DEBUG_NUM_LINES && Handlers.Valid(c.buffers)
  }

  /** The window as `__init__` leaves it: one default buffer with no data,
      whose pointer is the empty string, an empty debug log and no
      connection. */
  function NewClient(): (c: Client)
    ensures WellFormed(c) && c.debug == [] && !Network.IsConnected(c.net)
    ensures |c.buffers| == 1 && Buffer.Pointer(c.buffers[0].data) == Ok(VStr(""))
    ensures c.buffers[0].nicklist == [] && c.buffers[0].chat == []
  {
    Client([NewBuffer([])], [], Network.NewSession())
  }

  // ---------------------------------------------------------------------
  // The debug log
  // ---------------------------------------------------------------------

  /** `lines[-DEBUG_NUM_LINES:]`. */
  function Last(es: seq<DebugEntry>): seq<DebugEntry> {
    if |es| <= DEBUG_NUM_LINES then es else es[|es| - DEBUG_NUM_LINES..]
  }

  /** The newest entries, as many as fit, in their order. */
  lemma LastKeepsNewest(es: seq<DebugEntry>)
    ensures |Last(es)| == if |es| < DEBUG_NUM_LINES then |es| else DEBUG_NUM_LINES
    ensures forall k :: 0 <= k < |Last(es)| ==> Last(es)[k] == es[|es| - |Last(es)| + k]
  {
    if |es| > DEBUG_NUM_LINES {
      var l := es[|es| - DEBUG_NUM_LINES..];
      assert Last(es) == l && |l| == DEBUG_NUM_LINES;
      forall k | 0 <= k < |l| ensures l[k] == es[|es| - DEBUG_NUM_LINES + k] {
      }
    }
  }

  /** Trimming a suffix that still holds the newest entries gives the same
      log. */
  lemma LastOfSuffix(es: seq<DebugEntry>, k: nat)
    requires k <= |es| && (|es| - k >= DEBUG_NUM_LINES || k == 0)
    ensures Last(es[k..]) == Last(es)
  {
    if |es| > DEBUG_NUM_LINES {
      assert es[k..][|es| - k - DEBUG_NUM_LINES..] == es[|es| - DEBUG_NUM_LINES..];
    }
  }

  /** Trimming early changes nothing: trimming, adding and trimming again
      is adding and trimming once. */
  lemma LastAbsorbs(a: seq<DebugEntry>, b: seq<DebugEntry>)
    ensures Last(Last(a) + b) == Last(a + b)
  {
    if |a| > DEBUG_NUM_LINES {
      var k := |a| - DEBUG_NUM_LINES;
      assert Last(a) + b == (a + b)[k..];
      LastOfSuffix(a + b, k);
    }
  }

  /** `debug_display`: the entry is added and only the newest entries are
      kept; nothing else changes. */
  function Display(c: Client, e: DebugEntry): (r: Client)
    ensures r.debug == Last(c.debug + [e]) && r.(debug := c.debug) == c
    ensures 0 < |r.debug| <= DEBUG_NUM_LINES && r.debug[|r.debug| - 1] == e
  {
    c.(debug := Last(c.debug + [e]))
  }

  /** `debug_display` for each entry in turn. Trimming after each entry
      keeps the same log as appending them all and trimming once; nothing
      else changes. */
  function DisplayAll(c: Client, es: seq<DebugEntry>): (r: Client)
    requires |c.debug| <= DEBUG_NUM_LINES
    ensures r == c.(debug := Last(c.debug + es))
    ensures |r.debug| <= DEBUG_NUM_LINES
    decreases |es|
  {
    if |es| == 0 then
      assert c.debug + es == c.debug;
      c
    else
      LastAbsorbs(c.debug + [es[0]], es[1..]);
      assert c.debug + [es[0]] + es[1..] == c.debug + es;
      DisplayAll(Display(c, es[0]), es[1..])
  }

  // ---------------------------------------------------------------------
  // Input sent to WeeChat
  // ---------------------------------------------------------------------

  /** The text `debug_input_text_sent` sends: "(x)rest", where ')' is the
      first closing parenthesis, becomes "(debug_x)rest", anything else
      gets the prefix "(debug) ". */
  function DebugRewrite(text: string): (r: string)
    ensures StartsWith(r, "(debug")
  {
    match Find(text, ')')
    case Some(pos) =>
      if StartsWith(text, "(") then "(debug_" + text[1..pos] + ")" + text[pos + 1..]
      else "(debug) " + text
    case None => "(debug) " + text
  }

  /** What was typed, recovered from the text sent. */
  function DebugUndo(sent: string): string {
    if StartsWith(sent, "(debug_") then "(" + sent[7..]
    else if StartsWith(sent, "(debug) ") then sent[8..]
    else sent
  }

  /** The rewrite loses nothing: the typed text can be read back. */
  lemma UndoRewrite(text: string)
    ensures DebugUndo(DebugRewrite(text)) == text
  {
    var r := DebugRewrite(text);
    match Find(text, ')')
    case Some(pos) =>
      if StartsWith(text, "(") {
        assert r[..7] == "(debug_";
        assert "(" + r[7..] == text[..1] + text[1..pos] + ")" + text[pos + 1..];
        assert text == text[..1] + text[1..pos] + [text[pos]] + text[pos + 1..];
      } else {
        assert r[..7] == "(debug)";
        assert r[..8] == "(debug) ";
      }
    case None =>
      assert r[..7] == "(debug)";
      assert r[..8] == "(debug) ";
  }

  /** The message id of a command: the text between its leading '(' and
      the first ')'. */
  function CommandId(cmd: string): Option<string> {
    match Find(cmd, ')')
    case Some(pos) => if StartsWith(cmd, "(") then Some(cmd[1..pos]) else None
    case None => None
  }

  /** Every command typed in the debug dialog carries a message id that
      starts with "debug", so WeeChat's replies to it are the ones
      `parse_message` ignores. */
  lemma DebugRepliesIgnored(text: string)
    ensures CommandId(DebugRewrite(text)).Some?
    ensures RouteOf(CommandId(DebugRewrite(text)).value) == ToDebug
  {
    var r := DebugRewrite(text);
    if Find(text, ')').Some? && StartsWith(text, "(") {
      NamedCommandId(text, Find(text, ')').value);
    } else {
      assert r == "(debug) " + text;
      FindFirst(r, ')', 6);
      assert r[1..6] == "debug";
    }
  }

  /** "(x)rest" is sent as "(debug_x)rest", whose id is "debug_x". */
  lemma NamedCommandId(text: string, pos: nat)
    requires StartsWith(text, "(") && Find(text, ')') == Some(pos)
    ensures CommandId(DebugRewrite(text)) == Some("debug_" + text[1..pos])
  {
    var r := DebugRewrite(text);
    var mid := text[1..pos];
    var id := "debug_" + mid;
    var head := "(" + id;
    assert head == "(debug_" + mid;
    assert r == head + (")" + text[pos + 1..]);
    assert r[..|head|] == head && r[|head|] == ')';
    assert ')' !in head by {
      forall k | 0 <= k < |head| ensures head[k] != ')' {
        if k >= 7 {
          assert head[k] == text[..pos][k - 6];
        }
      }
    }
    FindFirst(r, ')', |head|);
    assert r[1..|head|] == head[1..] == id;
  }

  /** `debug_input_text_sent`: when connected, the rewritten text is
      logged and sent with a newline; otherwise nothing happens. */
  function DebugInput(c: Client, text: string): (r: Client)
    requires WellFormed(c)
    ensures WellFormed(r) && r.buffers == c.buffers
    ensures !Network.IsConnected(c.net) ==> r == c
    ensures Network.IsConnected(c.net) ==>
      && r.debug == Last(c.debug + [DebugEntry("<==", DebugRewrite(text), Some(COLOUR_SENT))])
      && |r.net.sent| == |c.net.sent| + 1 && r.net.sent[..|c.net.sent|] == c.net.sent
      && Utf8.Decode(r.net.sent[|c.net.sent|]) == Some(DebugRewrite(text) + "\n")
  {
    if !Network.IsConnected(c.net) then c
    else
      var t := DebugRewrite(text);
      var d := Display(c, DebugEntry("<==", t, Some(COLOUR_SENT)));
      d.(net := Network.Send(d.net, t + "\n"))
  }

  /** The command `buffer_input` sends. */
  function InputCommand(fullName: string, text: string): string {
    "input " + fullName + " " + text + "\n"
  }

  /** WeeChat's reading of an `input` command: the buffer name up to the
      first space after "input ", then the text up to the final newline. */
  function ReadInputCommand(cmd: string): Option<(string, string)> {
    if !StartsWith(cmd, "input ") || |cmd| == 6 || cmd[|cmd| - 1] != '\n' then None
    else
      var body := cmd[6..|cmd| - 1];
      match Find(body, ' ')
      case Some(pos) => Some((body[..pos], body[pos + 1..]))
      case None => None
  }

  /** A buffer name without spaces and the text typed come back from the
      command sent; a name with a space would be cut at it. */
  lemma InputCommandRoundTrip(fullName: string, text: string)
    requires ' ' !in fullName
    ensures ReadInputCommand(InputCommand(fullName, text)) == Some((fullName, text))
  {
    var cmd := InputCommand(fullName, text);
    assert cmd[..6] == "input ";
    var body := cmd[6..|cmd| - 1];
    assert body == fullName + " " + text;
    assert body[..|fullName|] == fullName;
    FindFirst(body, ' ', |fullName|);
    assert body[|fullName| + 1..] == text;
  }

  /** `buffer_input`: when connected, the command is sent and logged;
      otherwise nothing happens. */
  function BufferInput(c: Client, fullName: string, text: string): (r: Client)
    requires WellFormed(c)
    ensures WellFormed(r) && r.buffers == c.buffers
    ensures !Network.IsConnected(c.net) ==> r == c
    ensures Network.IsConnected(c.net) ==>
      && r.debug == Last(c.debug + [DebugEntry("<==", InputCommand(fullName, text), Some(COLOUR_SENT))])
      && |r.net.sent| == |c.net.sent| + 1 && r.net.sent[..|c.net.sent|] == c.net.sent
      && Utf8.Decode(r.net.sent[|c.net.sent|]) == Some(InputCommand(fullName, text))
  {
    if !Network.IsConnected(c.net) then c
    else
      var message := InputCommand(fullName, text);
      var d := c.(net := Network.Send(c.net, message));
      Display(d, DebugEntry("<==", message, Some(COLOUR_SENT)))
  }

  /** `_network_status_changed`: the new status is logged. */
  function StatusChanged(c: Client, status: string): (r: Client)
    requires WellFormed(c)
    ensures WellFormed(r) && r.(debug := c.debug) == c
    ensures |r.debug| > 0 && r.debug[|r.debug| - 1] == DebugEntry("", status, Some(COLOUR_STATUS))
  {
    Display(c, DebugEntry("", status, Some(COLOUR_STATUS)))
  }

  /** The entry `_network_status_changed` logs for one status change; the
      detail text is not logged. */
  function StatusEntry(sc: Network.StatusChange): DebugEntry {
    DebugEntry("", sc.status, Some(COLOUR_STATUS))
  }

  function StatusEntries(ss: seq<Network.StatusChange>): (es: seq<DebugEntry>)
    ensures |es| == |ss| && forall k :: 0 <= k < |ss| ==> es[k] == StatusEntry(ss[k])
  {
    if |ss| == 0 then [] else [StatusEntry(ss[0])] + StatusEntries(ss[1..])
  }

  /** The entry logged when the connection reports it is gone. */
  const DISCONNECTED_ENTRY: DebugEntry := StatusEntry(Network.StatusChange(Network.STATUS_DISCONNECTED, None))

  /** What a disconnect adds to the log: one status entry, unless the
      socket was already unconnected. */
  function DisconnectLog(s: Network.Session): seq<DebugEntry> {
    if s.socket == Network.Unconnected then [] else [DISCONNECTED_ENTRY]
  }

  /** The statuses a disconnect emits are logged as `DisconnectLog`. */
  lemma DisconnectLogged(s: Network.Session)
    ensures var n := Network.DisconnectWeechat(s);
      |s.statuses| <= |n.statuses| && StatusEntries(n.statuses[|s.statuses|..]) == DisconnectLog(s)
  {
    var n := Network.DisconnectWeechat(s);
    if s.socket != Network.Unconnected {
      assert n.statuses[|s.statuses|..] == [Network.StatusChange(Network.STATUS_DISCONNECTED, None)];
    }
  }

  /** `self.network.disconnect_weechat()` as the window sees it: each
      status the network emits on the way reaches `_network_status_changed`
      at once and is logged. */
  function Disconnect(c: Client): (r: Client)
    requires WellFormed(c)
    ensures WellFormed(r) && r.buffers == c.buffers && !Network.IsConnected(r.net)
    ensures r.net == Network.DisconnectWeechat(c.net)
    ensures r.debug == Last(c.debug + StatusEntries(r.net.statuses[|c.net.statuses|..]))
    ensures c.net.socket == Network.Unconnected ==> r == c
    ensures r.debug == Last(c.debug + DisconnectLog(c.net))
  {
    var n := Network.DisconnectWeechat(c.net);
    DisconnectLogged(c.net);
    assert c.debug + [] == c.debug;
    DisplayAll(c.(net := n), StatusEntries(n.statuses[|c.net.statuses|..]))
  }

  // ---------------------------------------------------------------------
  // Routing
  // ---------------------------------------------------------------------

  /** The handler a message goes to. */
  datatype Route =
    | ToDebug | ToListbuffers | ToLines | ToNicklist | ToNicklistDiff
    | ToOpened | ToBufferEvent | ToUpgrade | ToUpgradeEnded | Unhandled

  /** The message ids with a handler of their own. */
  const KNOWN_IDS: set<string> := {"listbuffers", "listlines", "_buffer_line_added",
    "_nicklist", "nicklist", "_nicklist_diff", "_buffer_opened", "_upgrade", "_upgrade_ended"}

  /** `parse_message`'s chain of tests, first match wins. Read as a
      table: a "debug" prefix always wins; the two `_buffer_` ids with
      handlers of their own never reach the generic `_buffer_` handler;
      everything else is matched exactly or ignored. */
  function RouteOf(msgid: string): (r: Route)
    ensures r == ToDebug <==> StartsWith(msgid, "debug")
    ensures r == ToListbuffers <==> msgid == "listbuffers"
    ensures r == ToLines <==> msgid == "listlines" || msgid == "_buffer_line_added"
    ensures r == ToNicklist <==> msgid == "_nicklist" || msgid == "nicklist"
    ensures r == ToNicklistDiff <==> msgid == "_nicklist_diff"
    ensures r == ToOpened <==> msgid == "_buffer_opened"
    ensures r == ToBufferEvent <==> StartsWith(msgid, "_buffer_") && msgid != "_buffer_line_added" && msgid != "_buffer_opened"
    ensures r == ToUpgrade <==> msgid == "_upgrade"
    ensures r == ToUpgradeEnded <==> msgid == "_upgrade_ended"
    ensures r == Unhandled <==> !StartsWith(msgid, "debug") && !StartsWith(msgid, "_buffer_") && msgid !in KNOWN_IDS
  {
    if StartsWith(msgid, "debug") then
      assert msgid[0] == 'd';
      ToDebug
    else if msgid == "listbuffers" then ToListbuffers
    else if msgid == "listlines" || msgid == "_buffer_line_added" then ToLines
    else if msgid == "_nicklist" || msgid == "nicklist" then ToNicklist
    else if msgid == "_nicklist_diff" then
      assert msgid[1] == 'n';
      ToNicklistDiff
    else if msgid == "_buffer_opened" then ToOpened
    else if StartsWith(msgid, "_buffer_") then
      assert msgid[1] == 'b';
      ToBufferEvent
    else if msgid == "_upgrade" then ToUpgrade
    else if msgid == "_upgrade_ended" then ToUpgradeEnded
    else Unhandled
  }

  /** The entry logged for a message whose id starts with "debug". */
  const IGNORED: DebugEntry := DebugEntry("", "(debug message, ignored)", None)

  /** The routes whose handler works on the buffer list. */
  predicate ChangesBuffers(route: Route) {
    route in {ToListbuffers, ToLines, ToNicklist, ToNicklistDiff, ToOpened, ToBufferEvent}
  }

  /** The buffer handlers, by route, each giving the list as far as it
      got and the exception that stopped it, if any: `listbuffers` either
      leaves the list alone or replaces it by fresh buffers, lines only
      grow chats, nicklists keep the buffers and their chats and redraw
      nothing when they raise, an opened buffer is added, and only a
      closing event or a move that raises shrinks the list. Every handler
      keeps the nicklists valid. */
  function UpdateBuffers(bs: seq<BufferRec>, route: Route, msgid: string, objs: seq<Protocol.Obj>): (r: Outcome<seq<BufferRec>>)
    requires Handlers.Valid(bs) && ChangesBuffers(route)
    ensures Handlers.Valid(r.state)
    ensures route == ToListbuffers ==> r.state == bs || Handlers.AllFresh(r.state)
    ensures route == ToLines ==> |r.state| == |bs|
    ensures route == ToLines ==> forall j :: 0 <= j < |bs| ==>
      r.state[j].(chat := bs[j].chat) == bs[j] && bs[j].chat <= r.state[j].chat
    ensures route in {ToNicklist, ToNicklistDiff} ==> |r.state| == |bs|
    ensures route in {ToNicklist, ToNicklistDiff} ==> forall j :: 0 <= j < |bs| ==>
      r.state[j].data == bs[j].data && r.state[j].chat == bs[j].chat
    ensures route in {ToNicklist, ToNicklistDiff} && r.Raised() ==> forall j :: 0 <= j < |bs| ==>
      r.state[j].shown == bs[j].shown
    ensures route in {ToNicklist, ToNicklistDiff} && !r.Raised() ==> forall j :: 0 <= j < |bs| ==>
      r.state[j] == bs[j] || r.state[j].shown == Buffer.Refresh(r.state[j].nicklist)
    ensures route == ToOpened ==> multiset(bs) <= multiset(r.state)
    ensures route == ToOpened && !r.Raised() ==>
      multiset(r.state) == multiset(bs) + multiset(Handlers.Fresh(Handlers.BufferItems(objs)))
    ensures route == ToBufferEvent ==> |r.state| <= |bs|
    ensures route == ToBufferEvent && msgid != Handlers.BUFFER_CLOSING && !Handlers.IsMove(msgid) ==> |r.state| == |bs|
    ensures route == ToBufferEvent && msgid != Handlers.BUFFER_CLOSING && !r.Raised() ==> |r.state| == |bs|
  {
    match route
    case ToListbuffers => Handlers.Listbuffers(bs, objs)
    case ToLines =>
      var r := Handlers.ParseLines(bs, msgid, objs);
      assert forall j :: 0 <= j < |r.state| ==> r.state[j].nicklist == bs[j].nicklist;
      r
    case ToNicklist => Handlers.Nicklist(bs, objs)
    case ToNicklistDiff => Handlers.NicklistDiff(bs, objs)
    case ToOpened => Handlers.BufferOpened(bs, objs)
    case ToBufferEvent => Handlers.BufferEvents(bs, msgid, objs)
  }

  /** The routes that leave the buffers alone: a debug message is only
      logged, the upgrade messages desynchronise and resynchronise (with
      the configured line count), anything else is ignored. */
  function Control(c: Client, route: Route): (r: Client)
    requires WellFormed(c) && !ChangesBuffers(route)
    ensures WellFormed(r) && r.buffers == c.buffers
    ensures route == ToDebug ==> r == Display(c, IGNORED)
    ensures route == ToUpgrade ==> r == c.(net := Network.Desync(c.net))
    ensures route == ToUpgradeEnded ==> r == c.(net := Network.SyncFixed(c.net))
    ensures route == Unhandled ==> r == c
  {
    match route
    case ToDebug => Display(c, IGNORED)
    case ToUpgrade => c.(net := Network.Desync(c.net))
    case ToUpgradeEnded => c.(net := Network.SyncFixed(c.net))
    case Unhandled => c
  }

  /** `parse_message`: the message goes to its handler. Only the buffer
      handlers touch the buffers; a handler that raises leaves them as far
      as it got, since nothing undoes a partial update. */
  function ParseMessage(c: Client, m: Protocol.Message): (r: Outcome<Client>)
    requires WellFormed(c)
    ensures WellFormed(r.state)
    ensures !ChangesBuffers(RouteOf(m.msgid)) ==> r == Outcome(Control(c, RouteOf(m.msgid)), None)
    ensures ChangesBuffers(RouteOf(m.msgid)) ==>
      var u := UpdateBuffers(c.buffers, RouteOf(m.msgid), m.msgid, m.objects);
      r == Outcome(c.(buffers := u.state), u.fault)
  {
    var route := RouteOf(m.msgid);
    if !ChangesBuffers(route) then Outcome(Control(c, route), None)
    else
      var u := UpdateBuffers(c.buffers, route, m.msgid, m.objects);
      Outcome(c.(buffers := u.state), u.fault)
  }

  /** `_upgrade_ended` as written: the sync commands go out with the
      line-count placeholder unsubstituted. */
  function UpgradeEndedAsWritten(c: Client): (r: Client)
    ensures r.(net := c.net) == c
    ensures |r.net.sent| == |c.net.sent| + 1 && r.net.sent[..|c.net.sent|] == c.net.sent
    ensures Utf8.Decode(r.net.sent[|c.net.sent|]) == Some(Join(Network.SyncCommands(Network.LINES_PLACEHOLDER), "\n"))
  {
    c.(net := Network.Sync(c.net))
  }

  // ---------------------------------------------------------------------
  // Receiving
  // ---------------------------------------------------------------------

  /** The log entry for a frame as received. */
  function FrameEntry(frame: bytes): DebugEntry {
    DebugEntry("==>", "message (" + PyInt.Render(|frame|) + " bytes):\n" + HexDump.HexAndAscii(frame, DUMP_WIDTH), Some(COLOUR_RECEIVED))
  }

  /** The log entry for a decoded message's uncompressed bytes. */
  function UncompressedEntry(m: Protocol.Message): DebugEntry {
    DebugEntry("==>", "message uncompressed (" + PyInt.Render(m.sizeUncompressed) + " bytes):\n" + HexDump.HexAndAscii(m.uncompressed, DUMP_WIDTH), Some(COLOUR_RECEIVED))
  }

  /** The log entry with the message's own rendering, which `describe`
      stands for. */
  function MessageEntry(m: Protocol.Message, describe: Protocol.Message -> string): DebugEntry {
    DebugEntry("", "Message: " + describe(m), None)
  }

  /** The end of `_network_weechat_msg` for a decoded message: it is
      parsed, and a handler that raises disconnects, with the buffers and
      the log as the handler left them and the disconnection logged. */
  function Handle(c: Client, m: Protocol.Message): (r: Client)
    requires WellFormed(c)
    ensures WellFormed(r)
    ensures !ParseMessage(c, m).Raised() ==> r == ParseMessage(c, m).state
    ensures ParseMessage(c, m).Raised() ==> r == Disconnect(ParseMessage(c, m).state)
  {
    var p := ParseMessage(c, m);
    if p.Raised() then Disconnect(p.state)
    else p.state
  }

  /** The three entries `_network_weechat_msg` logs for a decoded
      message, one call at a time: the log is as if they were appended
      together and trimmed once. */
  function Logged(c: Client, frame: bytes, m: Protocol.Message, describe: Protocol.Message -> string): (r: Client)
    requires |c.debug| <= DEBUG_NUM_LINES
    ensures r == DisplayAll(c, [FrameEntry(frame), UncompressedEntry(m), MessageEntry(m, describe)])
  {
    var es := [FrameEntry(frame), UncompressedEntry(m), MessageEntry(m, describe)];
    var r := Display(Display(Display(c, es[0]), es[1]), es[2]);
    assert c.debug + es == c.debug + [es[0]] + [es[1]] + [es[2]];
    LastAbsorbs(c.debug + [es[0]], [es[1]]);
    LastAbsorbs(c.debug + [es[0]] + [es[1]], [es[2]]);
    LastAbsorbs(Last(c.debug + [es[0]]) + [es[1]], [es[2]]);
    r
  }

  /** `_network_weechat_msg`: the frame is logged, decoded, its
      uncompressed bytes and its rendering are logged, and it is handled.
      A frame that does not decode disconnects, keeping the buffers as
      they were. `inflate` stands for zlib. */
  function Receive(c: Client, frame: bytes, inflate: bytes -> Option<bytes>, describe: Protocol.Message -> string): (r: Client)
    requires WellFormed(c)
    ensures WellFormed(r)
    ensures Protocol.Decode(frame, inflate).Err? ==>
      && r.buffers == c.buffers
      && r.net == Network.DisconnectWeechat(c.net)
      && r.debug == Last(c.debug + [FrameEntry(frame)] + StatusEntries(r.net.statuses[|c.net.statuses|..]))
    ensures Protocol.Decode(frame, inflate).Ok? ==>
      var m := Protocol.Decode(frame, inflate).value;
      r == Handle(DisplayAll(c, [FrameEntry(frame), UncompressedEntry(m), MessageEntry(m, describe)]), m)
  {
    var d := Protocol.Decode(frame, inflate);
    if d.Err? then
      var c1 := Display(c, FrameEntry(frame));
      var r := Disconnect(c1);
      LastAbsorbs(c.debug + [FrameEntry(frame)], StatusEntries(r.net.statuses[|c.net.statuses|..]));
      r
    else
      Handle(Logged(c, frame, d.value, describe), d.value)
  }

  /** A frame the decoder rejects disconnects the client and leaves its
      buffers alone; whatever the connection state, it is closed after. */
  lemma PoisonDisconnects(c: Client, inflate: bytes -> Option<bytes>, describe: Protocol.Message -> string)
    requires WellFormed(c)
    ensures var r := Receive(c, Network.POISON, inflate, describe);
      && r.buffers == c.buffers
      && !Network.IsConnected(r.net)
      && r.debug == Last(c.debug + [FrameEntry(Network.POISON)] + DisconnectLog(c.net))
  {
    Network.PoisonFails(inflate);
    DisconnectLogged(c.net);
  }

  /** A frame of length 0 (or shorter than its header) does not decode,
      so receiving it disconnects; the read loop then stops, because it
      only goes on while connected. */
  lemma EmptyFrameDisconnects(c: Client, inflate: bytes -> Option<bytes>, describe: Protocol.Message -> string)
    requires WellFormed(c)
    ensures Protocol.Decode([], inflate) == Err(StructError)
    ensures var r := Receive(c, [], inflate, describe);
      && r.buffers == c.buffers
      && !Network.IsConnected(r.net)
      && r.debug == Last(c.debug + [FrameEntry([])] + DisconnectLog(c.net))
      && (Network.IsConnected(c.net) ==> r.net.password.None? && r.net.server.None?)
  {
    DisconnectLogged(c.net);
  }

  /** The read loop spins only if the connection is still up after its
      last message, which is empty; but handling an empty message
      disconnects, so with the client's own handler the loop stops
      there instead. */
  lemma SpinNeedsLiveConnection(c: Client, buffer: bytes, stays: nat -> bool, k: nat,
                                inflate: bytes -> Option<bytes>, describe: Protocol.Message -> string)
    requires WellFormed(c) && Framer.Drain(buffer, stays, k).status == Framer.Spinning
    ensures var r := Framer.Drain(buffer, stays, k);
      && |r.frames| > 0 && stays(k + |r.frames| - 1)
      && !Network.IsConnected(Receive(c, r.frames[|r.frames| - 1], inflate, describe).net)
  {
    Framer.DrainSpins(buffer, stays, k);
    EmptyFrameDisconnects(c, inflate, describe);
  }

  /** A `listbuffers` reply whose buffer hdata has no items empties the
      list: the buffers are removed before `self.buffers[0]` raises
      `IndexError`, and the client disconnects with no buffer left; a
      live connection forgets its options and logs that it is gone. */
  lemma EmptyListbuffersEmpties(c: Client, m: Protocol.Message)
    requires WellFormed(c) && m.msgid == "listbuffers"
    requires |m.objects| > 0 && Handlers.HdataItems(m.objects[0], "buffer") == Ok(Some([]))
    ensures ParseMessage(c, m).fault == Some(IndexError)
    ensures Handle(c, m).buffers == [] && !Network.IsConnected(Handle(c, m).net)
    ensures Handle(c, m).debug == Last(c.debug + DisconnectLog(c.net))
    ensures Network.IsConnected(c.net) ==>
      && Handle(c, m).net.password.None? && Handle(c, m).net.server.None?
      && Handle(c, m).debug[|Handle(c, m).debug| - 1] == DISCONNECTED_ENTRY
  {
    Handlers.ListbuffersEmptyFails(c.buffers, m.objects, 0);
    assert RouteOf(m.msgid) == ToListbuffers;
    assert ParseMessage(c, m).state == c.(buffers := []);
  }

  /** A message WeeChat sends in reply to a debug command changes only
      the log: its id starts with "debug". */
  lemma DebugReplyOnlyLogs(c: Client, m: Protocol.Message, text: string)
    requires WellFormed(c)
    requires CommandId(DebugRewrite(text)) == Some(m.msgid)
    ensures ParseMessage(c, m) == Outcome(Display(c, IGNORED), None)
  {
    DebugRepliesIgnored(text);
    assert !ChangesBuffers(ToDebug);
  }
}

=== FILE: framer.dfy ===
/** Cutting the relay's byte stream into messages: `Network._socket_read`
    (qweechat/network.py). Received bytes are appended to a buffer; while
    the buffer holds at least the four-byte length field and at least as
    many bytes as it announces, the announced prefix is emitted as one
    message and the rest stays for the next turn. */
module Framer {
  import opened Results
  import opened Bytes

  /** How a read ends. `Waiting`: the buffer holds no complete message.
      `Stopped`: the handler of the last message disconnected.
      `Spinning`: an empty message was cut (announced length 0, or a
      negative length at least the buffer's size), the remainder is the
      whole buffer and the source's loop would cut the same message
      again. */
  datatype Status = Waiting | Stopped | Spinning

  /** The messages emitted by one read, the buffer it leaves, and how it
      ended. */
  datatype Drained = Drained(frames: seq<bytes>, buffer: bytes, status: Status)

  function Concat(fs: seq<bytes>): bytes {
    if |fs| == 0 then [] else fs[0] + Concat(fs[1..])
  }

  lemma ConcatCons(f: bytes, fs: seq<bytes>)
    ensures Concat([f] + fs) == f + Concat(fs)
  {
    assert ([f] + fs)[0] == f && ([f] + fs)[1..] == fs;
  }

  lemma {:induction false} ConcatAppend(a: seq<bytes>, b: seq<bytes>)
    ensures Concat(a + b) == Concat(a) + Concat(b)
  {
    if |a| == 0 {
      assert a + b == b;
    } else {
      assert (a + b)[0] == a[0];
      assert (a + b)[1..] == a[1..] + b;
      ConcatAppend(a[1..], b);
    }
  }

  /** A buffer the loop leaves alone: too short for the length field, or
      shorter than the length it announces. */
  predicate Incomplete(buffer: bytes) {
    |buffer| < 4 || |buffer| < BE32(buffer[..4])
  }

  /** One turn of the loop: the length at the front, then the message
      (`buffer[0:length]`) and the remainder (`buffer[length:]`), both
      with Python's slice rules, or the whole buffer when the length is
      exactly its size. */
  function Cut(buffer: bytes): (r: Option<(bytes, bytes)>)
    ensures r.None? <==> Incomplete(buffer)
    ensures r.Some? ==> r.value.0 + r.value.1 == buffer
    ensures r.Some? && 0 <= BE32(buffer[..4]) ==> |r.value.0| == BE32(buffer[..4])
  {
    if |buffer| < 4 then None
    else
      var length := BE32(buffer[..4]);
      if |buffer| < length then None
      else if length < |buffer| then
        SplitAt(buffer, length);
        Some((Upto(buffer, length), From(buffer, length)))
      else Some((buffer, []))
  }

  /** The loop of `_socket_read` on a buffer, as written. `stays(k)` says
      whether the connection is still up once the handler has processed
      the `k`-th message of this read. When it is not, the loop returns
      and the buffer keeps the message just emitted. */
  function Drain(buffer: bytes, stays: nat -> bool, k: nat): (r: Drained)
    ensures r.status == Waiting ==> Incomplete(r.buffer)
    decreases |buffer|
  {
    match Cut(buffer)
    case None => Drained([], buffer, Waiting)
    case Some((frame, remainder)) =>
      if !stays(k) then Drained([frame], frame, Stopped)
      else if |frame| == 0 then Drained([frame], remainder, Spinning)
      else
        var r := Drain(remainder, stays, k + 1);
        Drained([frame] + r.frames, r.buffer, r.status)
  }

  /** Unless the handler disconnected, no byte is lost or duplicated: the
      emitted messages followed by the new buffer are the old buffer. */
  lemma {:induction false} DrainConserves(buffer: bytes, stays: nat -> bool, k: nat)
    ensures var r := Drain(buffer, stays, k);
      r.status != Stopped ==> Concat(r.frames) + r.buffer == buffer
    decreases |buffer|
  {
    match Cut(buffer)
    case None =>
    case Some((frame, remainder)) =>
      if !stays(k) {
      } else if |frame| == 0 {
        ConcatCons(frame, []);
      } else {
        DrainConserves(remainder, stays, k + 1);
        var r := Drain(remainder, stays, k + 1);
        ConcatCons(frame, r.frames);
        AppendAssoc(frame, Concat(r.frames), r.buffer);
      }
  }

  /** A read that stops leaves the last message it emitted in the
      buffer. */
  lemma {:induction false} DrainStops(buffer: bytes, stays: nat -> bool, k: nat)
    ensures var r := Drain(buffer, stays, k);
      r.status == Stopped ==> |r.frames| > 0 && r.buffer == r.frames[|r.frames| - 1]
    decreases |buffer|
  {
    var c := Cut(buffer);
    if c.Some? && stays(k) && |c.value.0| > 0 {
      var r := Drain(c.value.1, stays, k + 1);
      DrainStops(c.value.1, stays, k + 1);
      DrainGoesOn(buffer, stays, k);
      if r.status == Stopped {
        assert ([c.value.0] + r.frames)[|r.frames|] == r.frames[|r.frames| - 1];
      }
    }
  }

  /** Every message but the last is non-empty. */
  predicate NonEmptyBeforeLast(frames: seq<bytes>) {
    forall i :: 0 <= i < |frames| - 1 ==> |frames[i]| > 0
  }

  lemma NonEmptyCons(f: bytes, fs: seq<bytes>)
    requires |f| > 0 && NonEmptyBeforeLast(fs)
    ensures NonEmptyBeforeLast([f] + fs)
  {
    var frames := [f] + fs;
    assert forall i :: 1 <= i < |frames| ==> frames[i] == fs[i - 1];
  }

  /** A read that spins ends on an empty message, after whose handling
      the connection was taken to be still up. */
  lemma {:induction false} DrainSpins(buffer: bytes, stays: nat -> bool, k: nat)
    ensures var r := Drain(buffer, stays, k);
      r.status == Spinning ==> |r.frames| > 0 && r.frames[|r.frames| - 1] == [] && stays(k + |r.frames| - 1)
    decreases |buffer|
  {
    var c := Cut(buffer);
    if c.Some? && stays(k) && |c.value.0| > 0 {
      var r := Drain(c.value.1, stays, k + 1);
      DrainSpins(c.value.1, stays, k + 1);
      DrainGoesOn(buffer, stays, k);
      if r.status == Spinning {
        assert ([c.value.0] + r.frames)[|r.frames|] == r.frames[|r.frames| - 1];
      }
    }
    DrainSpinsLive(buffer, stays, k);
  }

  /** The message a read spins on is one after which the connection was
      taken to be still up. */
  lemma {:induction false} DrainSpinsLive(buffer: bytes, stays: nat -> bool, k: nat)
    ensures var r := Drain(buffer, stays, k);
      r.status == Spinning ==> |r.frames| > 0 && stays(k + |r.frames| - 1)
    decreases |buffer|
  {
    match Cut(buffer)
    case None =>
    case Some((frame, remainder)) =>
      if stays(k) && |frame| > 0 {
        DrainSpinsLive(remainder, stays, k + 1);
        var rest := Drain(remainder, stays, k + 1);
        assert Drain(buffer, stays, k) == Drained([frame] + rest.frames, rest.buffer, rest.status);
      }
  }

  /** A non-empty message, with the connection kept, is emitted in front
      of what the loop does with the remainder. */
  lemma DrainGoesOn(buffer: bytes, stays: nat -> bool, k: nat)
    requires Cut(buffer).Some? && stays(k) && |Cut(buffer).value.0| > 0
    ensures var r := Drain(Cut(buffer).value.1, stays, k + 1);
      Drain(buffer, stays, k) == Drained([Cut(buffer).value.0] + r.frames, r.buffer, r.status)
  {
  }

  /** Only the last message of a read can be empty: an empty one ends
      the read. */
  lemma {:induction false} DrainNonEmpty(buffer: bytes, stays: nat -> bool, k: nat)
    ensures NonEmptyBeforeLast(Drain(buffer, stays, k).frames)
    decreases |buffer|
  {
    var c := Cut(buffer);
    if c.Some? && stays(k) && |c.value.0| > 0 {
      DrainNonEmpty(c.value.1, stays, k + 1);
      DrainGoesOn(buffer, stays, k);
      NonEmptyCons(c.value.0, Drain(c.value.1, stays, k + 1).frames);
    }
  }

  /** `_socket_read` as written: the new data goes after what the buffer
      held, and the loop keeps the last message when it stops. */
  function SocketReadAsWritten(buffer: bytes, data: bytes, stays: nat -> bool): (r: Drained)
    ensures r.status != Stopped ==> Concat(r.frames) + r.buffer == buffer + data
  {
    DrainConserves(buffer + data, stays, 0);
    Drain(buffer + data, stays, 0)
  }

  /** `_socket_read` with the fixed loop: every byte received is either
      emitted or kept, and a read that disconnects keeps nothing. */
  function SocketRead(buffer: bytes, data: bytes, stays: nat -> bool): (r: Drained)
    ensures r.status != Stopped ==> Concat(r.frames) + r.buffer == buffer + data
    ensures r.status == Stopped ==> r.buffer == [] && |r.frames| > 0
    ensures r.frames == SocketReadAsWritten(buffer, data, stays).frames
  {
    DrainConserves(buffer + data, stays, 0);
    DrainStops(buffer + data, stays, 0);
    DrainFixed(buffer + data, stays, 0)
  }

  /** The loop with the buffer emptied when the handler disconnects, so
      that nothing of a closed connection is read again. */
  function DrainFixed(buffer: bytes, stays: nat -> bool, k: nat): (r: Drained)
    ensures r.status != Stopped ==> r == Drain(buffer, stays, k)
    ensures r.status == Stopped ==> r.buffer == [] && r.frames == Drain(buffer, stays, k).frames
    ensures r.status == Drain(buffer, stays, k).status
    decreases |buffer|
  {
    match Cut(buffer)
    case None => Drained([], buffer, Waiting)
    case Some((frame, remainder)) =>
      if !stays(k) then Drained([frame], [], Stopped)
      else if |frame| == 0 then Drained([frame], remainder, Spinning)
      else
        var r := DrainFixed(remainder, stays, k + 1);
        Drained([frame] + r.frames, r.buffer, r.status)
  }

  /** A complete relay message: its length field announces its own size. */
  predicate IsFrame(m: bytes) {
    |m| >= 4 && BE32(m[..4]) == |m|
  }

  /** A complete message at the front of the buffer is cut off exactly. */
  lemma CutFrame(m: bytes, rest: bytes)
    requires IsFrame(m)
    ensures Cut(m + rest) == Some((m, rest))
  {
    var b := m + rest;
    assert b[..4] == m[..4];
    if |m| < |b| {
      assert b[..|m|] == m;
      assert b[|m|..] == rest;
    } else {
      assert rest == [] && b == m;
    }
  }

  /** A stream of complete messages followed by an incomplete tail is cut
      into exactly those messages, and the tail waits in the buffer. */
  lemma {:induction false} DrainFrames(ms: seq<bytes>, tail: bytes, stays: nat -> bool, k: nat)
    requires forall i :: 0 <= i < |ms| ==> IsFrame(ms[i])
    requires Incomplete(tail)
    requires forall j :: k <= j ==> stays(j)
    ensures Drain(Concat(ms) + tail, stays, k) == Drained(ms, tail, Waiting)
    decreases |ms|
  {
    if |ms| > 0 {
      var rest := Concat(ms[1..]) + tail;
      ConcatCons(ms[0], ms[1..]);
      assert ms == [ms[0]] + ms[1..];
      AppendAssoc(ms[0], Concat(ms[1..]), tail);
      assert forall i :: 0 <= i < |ms| - 1 ==> ms[1..][i] == ms[i + 1];
      DrainFrames(ms[1..], tail, stays, k + 1);
      DrainCons(ms[0], rest, stays, k);
    } else {
      assert Concat(ms) + tail == tail;
      DrainIncomplete(tail, stays, k);
    }
  }

  /** A prefix of a complete message, shorter than it, is incomplete. */
  lemma PrefixIncomplete(m: bytes, j: nat)
    requires IsFrame(m) && j < |m|
    ensures Incomplete(m[..j])
  {
    if j >= 4 {
      assert m[..j][..4] == m[..4];
    }
  }

  /** A prefix of an incomplete buffer is incomplete. */
  lemma PrefixOfIncomplete(t: bytes, j: nat)
    requires Incomplete(t) && j <= |t|
    ensures Incomplete(t[..j])
  {
    if j >= 4 {
      assert t[..j][..4] == t[..4];
    }
  }

  /** A read that follows `first` on the same connection, with `more`
      received in between; a first read that does not end waiting is the
      end. */
  function Then(first: Drained, more: bytes, stays: nat -> bool, k: nat): Drained {
    if first.status != Waiting then first
    else
      var second := Drain(first.buffer + more, stays, k + |first.frames|);
      Drained(first.frames + second.frames, second.buffer, second.status)
  }

  /** Two consecutive reads: the first `j` bytes of `stream`, then the
      rest. */
  function TwoReadsOf(stream: bytes, j: nat, stays: nat -> bool, k: nat): Drained
    requires j <= |stream|
  {
    Then(Drain(stream[..j], stays, k), stream[j..], stays, k)
  }

  /** How the stream is split between two reads does not matter: reading
      the first `j` bytes, then the rest, emits the same messages as one
      read of everything (`DrainFrames`), and leaves the same tail. */
  lemma {:induction false} TwoReads(ms: seq<bytes>, tail: bytes, j: nat, stays: nat -> bool, k: nat)
    requires forall i :: 0 <= i < |ms| ==> IsFrame(ms[i])
    requires Incomplete(tail)
    requires forall i :: k <= i ==> stays(i)
    requires j <= |Concat(ms) + tail|
    ensures TwoReadsOf(Concat(ms) + tail, j, stays, k) == Drained(ms, tail, Waiting)
    decreases |ms|
  {
    if |ms| == 0 {
      TwoReadsTail(ms, tail, j, stays, k);
    } else if j < |ms[0]| {
      TwoReadsInFirst(ms, tail, j, stays, k);
    } else {
      ConcatCons(ms[0], ms[1..]);
      TwoReads(ms[1..], tail, j - |ms[0]|, stays, k + 1);
      TwoReadsCons(ms, tail, j, stays, k);
    }
  }

  /** No complete message: both reads fall inside the incomplete tail. */
  lemma TwoReadsTail(ms: seq<bytes>, tail: bytes, j: nat, stays: nat -> bool, k: nat)
    requires |ms| == 0 && Incomplete(tail) && j <= |Concat(ms) + tail|
    ensures TwoReadsOf(Concat(ms) + tail, j, stays, k) == Drained(ms, tail, Waiting)
  {
    assert Concat(ms) + tail == tail;
    PrefixOfIncomplete(tail, j);
    assert tail[..j] + tail[j..] == tail;
  }

  /** The first read stops inside the first message: it emits nothing and
      the second read sees the whole stream. */
  lemma TwoReadsInFirst(ms: seq<bytes>, tail: bytes, j: nat, stays: nat -> bool, k: nat)
    requires forall i :: 0 <= i < |ms| ==> IsFrame(ms[i])
    requires Incomplete(tail)
    requires forall i :: k <= i ==> stays(i)
    requires |ms| > 0 && j < |ms[0]|
    ensures var stream := Concat(ms) + tail;
      j <= |stream| && TwoReadsOf(stream, j, stays, k) == Drained(ms, tail, Waiting)
  {
    var m := ms[0];
    var stream := Concat(ms) + tail;
    ConcatCons(m, ms[1..]);
    assert ms == [m] + ms[1..];
    AppendAssoc(m, Concat(ms[1..]), tail);
    PrefixOf(m, Concat(ms[1..]) + tail, j);
    PrefixIncomplete(m, j);
    var p := stream[..j];
    DrainIncomplete(p, stays, k);
    ThenFromNothing(p, stream[j..], stays, k);
    assert p + stream[j..] == stream;
    DrainFrames(ms, tail, stays, k);
  }

  /** After a read that emitted nothing, the next read sees all the bytes
      so far. */
  lemma ThenFromNothing(p: bytes, more: bytes, stays: nat -> bool, k: nat)
    ensures Then(Drained([], p, Waiting), more, stays, k) == Drain(p + more, stays, k)
  {
    assert [] + Drain(p + more, stays, k).frames == Drain(p + more, stays, k).frames;
  }

  lemma PrefixOf(a: bytes, b: bytes, j: nat)
    requires j <= |a|
    ensures (a + b)[..j] == a[..j]
  {
  }

  /** An incomplete buffer is left as it is. */
  lemma DrainIncomplete(buffer: bytes, stays: nat -> bool, k: nat)
    requires Incomplete(buffer)
    ensures Drain(buffer, stays, k) == Drained([], buffer, Waiting)
  {
  }

  /** The inductive step of `TwoReads`: one more complete message in
      front. */
  lemma TwoReadsCons(ms: seq<bytes>, tail: bytes, j: nat, stays: nat -> bool, k: nat)
    requires |ms| > 0 && IsFrame(ms[0]) && stays(k)
    requires |ms[0]| <= j <= |ms[0]| + |Concat(ms[1..]) + tail|
    requires TwoReadsOf(Concat(ms[1..]) + tail, j - |ms[0]|, stays, k + 1) == Drained(ms[1..], tail, Waiting)
    ensures j <= |Concat(ms) + tail|
    ensures TwoReadsOf(Concat(ms) + tail, j, stays, k) == Drained(ms, tail, Waiting)
  {
    var m := ms[0];
    var rest := Concat(ms[1..]) + tail;
    ConcatCons(m, ms[1..]);
    assert ms == [m] + ms[1..];
    AppendAssoc(m, Concat(ms[1..]), tail);
    TwoReadsStep(m, rest, j, stays, k);
  }

  /** A complete message at the front, with the connection kept, is
      emitted and the loop goes on with the rest. */
  lemma DrainCons(m: bytes, rest: bytes, stays: nat -> bool, k: nat)
    requires IsFrame(m) && stays(k)
    ensures var r := Drain(rest, stays, k + 1);
      Drain(m + rest, stays, k) == Drained([m] + r.frames, r.buffer, r.status)
  {
    CutFrame(m, rest);
  }

  /** A message emitted in front of a first read is emitted in front of
      both. */
  lemma ThenCons(m: bytes, inner: Drained, more: bytes, stays: nat -> bool, k: nat)
    ensures var r := Then(inner, more, stays, k + 1);
      Then(Drained([m] + inner.frames, inner.buffer, inner.status), more, stays, k)
        == Drained([m] + r.frames, r.buffer, r.status)
  {
    if inner.status == Waiting {
      var second := Drain(inner.buffer + more, stays, k + 1 + |inner.frames|);
      assert k + |[m] + inner.frames| == k + 1 + |inner.frames|;
      AppendAssoc([m], inner.frames, second.frames);
    }
  }

  /** The first read gets past the first message: both reads begin by
      cutting it off, then go on as on the rest of the stream. */
  lemma TwoReadsStep(m: bytes, rest: bytes, j: nat, stays: nat -> bool, k: nat)
    requires IsFrame(m) && |m| <= j <= |m| + |rest| && stays(k)
    ensures var r := TwoReadsOf(rest, j - |m|, stays, k + 1);
      TwoReadsOf(m + rest, j, stays, k) == Drained([m] + r.frames, r.buffer, r.status)
  {
    var stream := m + rest;
    var a, b := rest[..j - |m|], rest[j - |m|..];
    assert stream[..j] == m + a;
    assert stream[j..] == b;
    DrainCons(m, a, stays, k);
    ThenCons(m, Drain(a, stays, k + 1), b, stays, k);
  }

  /** As written, a message whose handler disconnects stays in the buffer
      and is emitted again by the first read on the next connection. */
  lemma StaleFrameReplayed(m: bytes, data: bytes, stays: nat -> bool)
    requires IsFrame(m) && !stays(0)
    ensures Drain(m, stays, 0) == Drained([m], m, Stopped)
    ensures SocketReadAsWritten(Drain(m, stays, 0).buffer, data, stays).frames[0] == m
  {
    CutFrame(m, []);
    assert m + [] == m;
    CutFrame(m, data);
  }

  /** With the fix, the next connection starts from an empty buffer: its
      first read emits only what it received. */
  lemma FixedStartsClean(m: bytes, data: bytes, stays: nat -> bool)
    requires IsFrame(m) && !stays(0)
    ensures DrainFixed(m, stays, 0) == Drained([m], [], Stopped)
    ensures var r := DrainFixed(DrainFixed(m, stays, 0).buffer + data, stays, 0);
      r.status != Stopped ==> Concat(r.frames) + r.buffer == data
  {
    CutFrame(m, []);
    assert m + [] == m;
    assert [] + data == data;
  }
}

=== FILE: handlers.dfy ===
/** The main window's message handlers (`MainWindow._parse_*` in
    qweechat/qweechat.py) as functions on the buffer list. A fault is
    the Python exception the handler raises. */
module Handlers {
  import opened Results
  import opened ODict
  import opened Values
  import opened Text
  import Buffer
  import Protocol
  import opened BufferList

  /** Every buffer's nicklist has one entry per group name, as a Python
      dict does. */
  predicate Valid(bs: seq<BufferRec>) {
    forall i :: 0 <= i < |bs| ==> UniqueKeys(bs[i].nicklist)
  }

  /** The items of an object when it is an hdata whose path ends in
      `last`; `None` for any other object. An hdata with an empty path
      makes `path[-1]` raise. */
  function HdataItems(obj: Protocol.Obj, last: string): Result<Option<seq<Item>>> {
    if obj.objType != "hda" then Ok(None)
    else if !obj.value.VHdata? then Err(TypeError)
    else if |obj.value.path| == 0 then Err(IndexError)
    else if obj.value.path[|obj.value.path| - 1] != last then Ok(None)
    else Ok(Some(obj.value.items))
  }

  /** `item[name]`. */
  function Field(item: Item, name: string): (r: Result<Value>)
    ensures r.Ok? <==> HasKey(item, name)
    ensures r.Ok? ==> Get(item, name) == Some(r.value)
    ensures r.Err? ==> r.fault == KeyError
  {
    match Get(item, name)
    case None => Err(KeyError)
    case Some(v) => Ok(v)
  }

  /** `item['__path'][0]`. */
  function PathHead(item: Item): (r: Result<Value>)
    ensures HasKey(item, "__path") ==> r == Buffer.Pointer(item)
    ensures !HasKey(item, "__path") ==> r == Err(KeyError)
  {
    match Get(item, "__path")
    case None => Err(KeyError)
    case Some(v) =>
      if !v.VList? then Err(TypeError)
      else if |v.elems| == 0 then Err(IndexError)
      else Ok(v.elems[0])
  }

  /** A name or prefix field. WeeChat declares these as strings; any
      other value is refused here. */
  function Str(v: Value): (r: Result<string>)
    ensures r.Ok? <==> v.VStr?
    ensures r.Ok? ==> v == VStr(r.value)
  {
    if v.VStr? then Ok(v.s) else Err(TypeError)
  }

  // ---------------------------------------------------------------------
  // listbuffers

  /** One new buffer per item, in item order. */
  function Fresh(items: seq<Item>): (r: seq<BufferRec>)
    ensures |r| == |items|
    ensures forall i :: 0 <= i < |r| ==> r[i] == NewBuffer(items[i])
  {
    seq(|items|, i requires 0 <= i < |items| => NewBuffer(items[i]))
  }

  /** Buffers holding nothing but their data: no nicklist, nothing shown
      and no chat. */
  predicate AllFresh(bs: seq<BufferRec>) {
    forall j :: 0 <= j < |bs| ==> bs[j] == NewBuffer(bs[j].data)
  }

  /** `insert_buffer` at the end of the list appends, and raises what
      the row label raises. */
  lemma InsertAtEnd(bs: seq<BufferRec>, b: BufferRec)
    ensures InsertBuffer(bs, |bs|, b) == Outcome(bs + [b], LabelFault(b.data))
  {
    assert bs[..|bs|] + [b] + bs[|bs|..] == bs + [b];
  }

  /** The items' buffers appended in turn with `insert_buffer` at the end
      (`InsertAtEnd`). A buffer whose row label raises has been appended
      when the exception stops the loop; the items after it are not
      reached (`AppendStops`). */
  function AppendItems(bs: seq<BufferRec>, items: seq<Item>): (r: Outcome<seq<BufferRec>>)
    ensures |bs| <= |r.state| <= |bs| + |items|
    ensures r.state == bs + Fresh(items[..|r.state| - |bs|])
    decreases |items|
  {
    if |items| == 0 then Outcome(bs, None)
    else
      var b := NewBuffer(items[0]);
      if LabelFault(items[0]).Some? then
        assert Fresh(items[..1]) == [b];
        Outcome(bs + [b], LabelFault(items[0]))
      else
        var r := AppendItems(bs + [b], items[1..]);
        FreshStep(items, |r.state| - |bs| - 1);
        r
  }

  /** The index of the first item whose row label raises, or the number
      of items when none does. */
  function FirstBad(items: seq<Item>): (r: nat)
    ensures r <= |items|
    ensures forall k :: 0 <= k < r ==> LabelFault(items[k]).None?
    ensures r < |items| ==> LabelFault(items[r]).Some?
  {
    if |items| == 0 then 0
    else if LabelFault(items[0]).Some? then 0
    else 1 + FirstBad(items[1..])
  }

  /** Appending stops at the first item whose row label raises, with that
      item's buffer appended and its exception raised; without one,
      every buffer is appended. */
  lemma {:induction false} AppendStops(bs: seq<BufferRec>, items: seq<Item>)
    ensures var k := FirstBad(items);
      var r := AppendItems(bs, items);
      && |r.state| == |bs| + (if k < |items| then k + 1 else k)
      && r.fault == (if k < |items| then LabelFault(items[k]) else None)
    decreases |items|
  {
    if |items| > 0 && LabelFault(items[0]).None? {
      var k := FirstBad(items[1..]);
      AppendStops(bs + [NewBuffer(items[0])], items[1..]);
      assert k < |items| - 1 ==> items[1..][k] == items[k + 1];
    }
  }

  /** Appending raises exactly when some item's row label does, and then
      at the first such item, whose buffer is the last one appended;
      otherwise every item's buffer is appended. */
  lemma AppendFaults(bs: seq<BufferRec>, items: seq<Item>)
    ensures var r := AppendItems(bs, items);
      && (!r.Raised() <==> forall k :: 0 <= k < |items| ==> LabelFault(items[k]).None?)
      && (!r.Raised() ==> r.state == bs + Fresh(items))
      && (r.Raised() ==>
        && |bs| < |r.state|
        && r.fault == LabelFault(items[|r.state| - |bs| - 1])
        && forall k :: 0 <= k < |r.state| - |bs| - 1 ==> LabelFault(items[k]).None?)
  {
    AppendRaises(bs, items);
    AppendWhole(bs, items);
  }

  lemma AppendRaises(bs: seq<BufferRec>, items: seq<Item>)
    ensures var r := AppendItems(bs, items);
      && (!r.Raised() <==> forall k :: 0 <= k < |items| ==> LabelFault(items[k]).None?)
      && (r.Raised() ==>
        && |bs| < |r.state|
        && r.fault == LabelFault(items[|r.state| - |bs| - 1])
        && forall k :: 0 <= k < |r.state| - |bs| - 1 ==> LabelFault(items[k]).None?)
  {
    var r := AppendItems(bs, items);
    var k := FirstBad(items);
    AppendStops(bs, items);
    if k < |items| {
      assert r.Raised() && |r.state| - |bs| - 1 == k;
      assert LabelFault(items[k]).Some?;
    }
  }

  lemma AppendWhole(bs: seq<BufferRec>, items: seq<Item>)
    ensures !AppendItems(bs, items).Raised() ==> AppendItems(bs, items).state == bs + Fresh(items)
  {
    var r := AppendItems(bs, items);
    AppendStops(bs, items);
    if !r.Raised() {
      assert FirstBad(items) == |items|;
      assert items[..|items|] == items;
    }
  }

  /** The buffers of the first `n + 1` items: the first item's, then the
      next `n`. */
  lemma FreshStep(items: seq<Item>, n: nat)
    requires n < |items|
    ensures Fresh(items[..n + 1]) == [NewBuffer(items[0])] + Fresh(items[1..][..n])
  {
    assert items[1..][..n] == items[1..n + 1];
  }

  /** `_parse_listbuffers`: each buffer hdata empties the list and appends
      one new buffer per item; then the first buffer takes the focus,
      which raises `IndexError` for an hdata without items. An exception
      leaves the list as far as it got. */
  function Listbuffers(bs: seq<BufferRec>, objs: seq<Protocol.Obj>): (r: Outcome<seq<BufferRec>>)
    requires Valid(bs)
    ensures Valid(r.state)
    ensures r.state == bs || AllFresh(r.state)
    decreases |objs|
  {
    if |objs| == 0 then Outcome(bs, None)
    else
      match HdataItems(objs[0], "buffer")
      case Err(f) => Outcome(bs, Some(f))
      case Ok(None) => Listbuffers(bs, objs[1..])
      case Ok(Some(items)) =>
        var o := AppendItems([], items);
        assert AllFresh(o.state) && Valid(o.state);
        if o.Raised() then o
        else if |o.state| == 0 then Outcome([], Some(IndexError))
        else
          var r := Listbuffers(o.state, objs[1..]);
          assert r.state == o.state || AllFresh(r.state);
          r
  }

  /** A buffer hdata whose items all format replaces the list by their
      buffers, and the rest of the message goes on from there. */
  lemma {:induction false} ListbuffersStep(bs: seq<BufferRec>, objs: seq<Protocol.Obj>, items: seq<Item>)
    requires Valid(bs) && 0 < |objs| && HdataItems(objs[0], "buffer") == Ok(Some(items))
    requires |items| > 0 && forall m :: 0 <= m < |items| ==> LabelFault(items[m]).None?
    ensures Valid(Fresh(items))
    ensures Listbuffers(bs, objs) == Listbuffers(Fresh(items), objs[1..])
  {
    var o := AppendItems([], items);
    AppendFaults([], items);
    assert !o.Raised() && o.state == Fresh(items) && |o.state| > 0;
    assert AllFresh(o.state) && Valid(o.state);
  }

  /** A message without any buffer hdata leaves the list alone. */
  lemma {:induction false} ListbuffersIgnores(bs: seq<BufferRec>, objs: seq<Protocol.Obj>)
    requires Valid(bs)
    requires forall k :: 0 <= k < |objs| ==> HdataItems(objs[k], "buffer") == Ok(None)
    ensures Listbuffers(bs, objs) == Outcome(bs, None)
    decreases |objs|
  {
    if |objs| > 0 {
      ListbuffersIgnores(bs, objs[1..]);
    }
  }

  /** After a `listbuffers` that raised nothing, the list is exactly the
      items of the last buffer hdata, which had at least one item. */
  lemma {:induction false} ListbuffersLast(bs: seq<BufferRec>, objs: seq<Protocol.Obj>, k: nat, items: seq<Item>)
    requires Valid(bs)
    requires k < |objs| && HdataItems(objs[k], "buffer") == Ok(Some(items))
    requires forall m :: k < m < |objs| ==> HdataItems(objs[m], "buffer") == Ok(None)
    ensures !Listbuffers(bs, objs).Raised() ==> |items| > 0 && Listbuffers(bs, objs).state == Fresh(items)
    decreases |objs|
  {
    if k == 0 {
      ListbuffersLastHere(bs, objs, items);
    } else {
      assert forall m :: k - 1 < m < |objs[1..]| ==> HdataItems(objs[1..][m], "buffer") == Ok(None) by {
        forall m | k - 1 < m < |objs[1..]| ensures HdataItems(objs[1..][m], "buffer") == Ok(None) {
          assert objs[1..][m] == objs[m + 1];
        }
      }
      var h := HdataItems(objs[0], "buffer");
      if h.Ok? {
        if h.value.None? {
          ListbuffersLast(bs, objs[1..], k - 1, items);
        } else {
          var o := AppendItems([], h.value.value);
          if !o.Raised() && |o.state| > 0 {
            assert AllFresh(o.state) && Valid(o.state);
            ListbuffersLast(o.state, objs[1..], k - 1, items);
            assert Listbuffers(bs, objs) == Listbuffers(o.state, objs[1..]);
          }
        }
      }
    }
  }

  /** `ListbuffersLast` when the hdata is the first object. */
  lemma ListbuffersLastHere(bs: seq<BufferRec>, objs: seq<Protocol.Obj>, items: seq<Item>)
    requires Valid(bs)
    requires 0 < |objs| && HdataItems(objs[0], "buffer") == Ok(Some(items))
    requires forall m :: 0 < m < |objs| ==> HdataItems(objs[m], "buffer") == Ok(None)
    ensures !Listbuffers(bs, objs).Raised() ==> |items| > 0 && Listbuffers(bs, objs).state == Fresh(items)
  {
    var o := AppendItems([], items);
    if !o.Raised() && |items| > 0 {
      AppendFaults([], items);
      ListbuffersStep(bs, objs, items);
      assert forall m :: 0 <= m < |objs[1..]| ==> HdataItems(objs[1..][m], "buffer") == Ok(None) by {
        forall m | 0 <= m < |objs[1..]| ensures HdataItems(objs[1..][m], "buffer") == Ok(None) {
          assert objs[1..][m] == objs[m + 1];
        }
      }
      ListbuffersIgnores(Fresh(items), objs[1..]);
    }
  }


  /** The hdata reaches the focus with at least one buffer: it is not a
      buffer hdata, or it has items whose labels all format. */
  predicate Appendable(h: Result<Option<seq<Item>>>) {
    && h.Ok?
    && (h.value.Some? ==>
      && |h.value.value| > 0
      && forall m :: 0 <= m < |h.value.value| ==> LabelFault(h.value.value[m]).None?)
  }

  /** A buffer hdata without items, reached without an earlier fault,
      makes `listbuffers` raise `IndexError` with the list left empty. */
  lemma {:induction false} ListbuffersEmptyFails(bs: seq<BufferRec>, objs: seq<Protocol.Obj>, k: nat)
    requires Valid(bs)
    requires k < |objs| && HdataItems(objs[k], "buffer") == Ok(Some([]))
    requires forall m :: 0 <= m < k ==> Appendable(HdataItems(objs[m], "buffer"))
    ensures Listbuffers(bs, objs) == Outcome([], Some(IndexError))
    decreases |objs|
  {
    if k > 0 {
      var h := HdataItems(objs[0], "buffer");
      assert Appendable(h);
      assert forall m :: 0 <= m < k - 1 ==> Appendable(HdataItems(objs[1..][m], "buffer")) by {
        forall m | 0 <= m < k - 1 ensures Appendable(HdataItems(objs[1..][m], "buffer")) {
          assert objs[1..][m] == objs[m + 1];
        }
      }
      if h.value.None? {
        ListbuffersEmptyFails(bs, objs[1..], k - 1);
      } else {
        ListbuffersStep(bs, objs, h.value.value);
        ListbuffersEmptyFails(Fresh(h.value.value), objs[1..], k - 1);
      }
    }
  }

  /** `_parse_listbuffers` as written: the list is emptied, and then the
      first item's `create_buffer` raises `TypeError`; an hdata without
      items raises `IndexError` at the focus instead. */
  function ListbuffersAsWritten(bs: seq<BufferRec>, objs: seq<Protocol.Obj>): (r: Outcome<seq<BufferRec>>)
    ensures r.state == bs || r.state == []
    ensures !r.Raised() ==> r.state == bs
    decreases |objs|
  {
    if |objs| == 0 then Outcome(bs, None)
    else
      match HdataItems(objs[0], "buffer")
      case Err(f) => Outcome(bs, Some(f))
      case Ok(None) => ListbuffersAsWritten(bs, objs[1..])
      case Ok(Some(items)) =>
        if |items| == 0 then Outcome([], Some(IndexError))
        else Outcome([], Some(CreateBufferAsWritten(items[0]).fault))
  }

  /** As written, the first buffer hdata always leaves an empty list and
      raises; as intended, items whose labels format make up the list. */
  lemma {:induction false} ListbuffersAsWrittenEmpties(bs: seq<BufferRec>, objs: seq<Protocol.Obj>, k: nat, items: seq<Item>)
    requires Valid(bs)
    requires k < |objs| && HdataItems(objs[k], "buffer") == Ok(Some(items))
    requires forall m :: 0 <= m < k ==> HdataItems(objs[m], "buffer") == Ok(None)
    ensures ListbuffersAsWritten(bs, objs) == Outcome([], Some(if |items| == 0 then IndexError else TypeError))
    ensures |items| > 0 && (forall m :: 0 <= m < |items| ==> LabelFault(items[m]).None?)
      && (forall m :: k < m < |objs| ==> HdataItems(objs[m], "buffer") == Ok(None))
      ==> Listbuffers(bs, objs) == Outcome(Fresh(items), None)
    decreases |objs|
  {
    if k > 0 {
      ListbuffersAsWrittenEmpties(bs, objs[1..], k - 1, items);
    } else if |items| > 0 && forall m :: 0 <= m < |items| ==> LabelFault(items[m]).None? {
      if forall m :: 0 < m < |objs| ==> HdataItems(objs[m], "buffer") == Ok(None) {
        ListbuffersStep(bs, objs, items);
        assert forall m :: 0 <= m < |objs[1..]| ==> HdataItems(objs[1..][m], "buffer") == Ok(None) by {
          forall m | 0 <= m < |objs[1..]| ensures HdataItems(objs[1..][m], "buffer") == Ok(None) {
            assert objs[1..][m] == objs[m + 1];
          }
        }
        ListbuffersIgnores(Fresh(items), objs[1..]);
      }
    }
  }


  // ---------------------------------------------------------------------
  // listlines, _buffer_line_added

  const LISTLINES: string := "listlines"

  /** The pointer a line item names its buffer by: the first entry of its
      path for `listlines`, its `buffer` field otherwise. */
  function LineKey(msgid: string, item: Item): Result<Value> {
    if msgid == LISTLINES then PathHead(item) else Field(item, "buffer")
  }

  /** One line item: the index of its buffer with the line, or nothing
      when no buffer has that pointer. */
  function RouteOne(bs: seq<BufferRec>, msgid: string, item: Item): (r: Result<Option<(nat, Line)>>)
    ensures r.Ok? ==> LineKey(msgid, item).Ok?
    ensures r.Ok? && r.value.Some? ==>
      && r.value.value.0 < |bs|
      && Buffer.Pointer(bs[r.value.value.0].data) == LineKey(msgid, item)
      && Field(item, "date").Ok? && Field(item, "prefix").Ok? && Field(item, "message").Ok?
      && r.value.value.1 == Line(Field(item, "date").value, Field(item, "prefix").value, Field(item, "message").value)
    ensures r.Ok? && r.value.None? ==>
      forall j :: 0 <= j < |bs| ==> Buffer.Pointer(bs[j].data) != LineKey(msgid, item)
  {
    var key :- LineKey(msgid, item);
    var found :- Locate(bs, Ok(key));
    if found.None? then
      LocateMissing(bs, key);
      Ok(None)
    else
      LocateFound(bs, key);
      var date :- Field(item, "date");
      var prefix :- Field(item, "prefix");
      var message :- Field(item, "message");
      Ok(Some((found.value, Line(date, prefix, message))))
  }

  /** The lines of an hdata with their buffers, in item order; the lines
      of unknown buffers are dropped. */
  function Routed(bs: seq<BufferRec>, msgid: string, items: seq<Item>): (r: Result<seq<(nat, Line)>>)
    ensures r.Ok? ==> |r.value| <= |items|
    ensures r.Ok? ==> forall k :: 0 <= k < |r.value| ==> r.value[k].0 < |bs|
    decreases |items|
  {
    if |items| == 0 then Ok([])
    else
      var one :- RouteOne(bs, msgid, items[0]);
      var rest :- Routed(bs, msgid, items[1..]);
      Ok((if one.Some? then [one.value] else []) + rest)
  }

  function Reverse<T>(s: seq<T>): (r: seq<T>)
    ensures |r| == |s|
    ensures forall i :: 0 <= i < |s| ==> r[i] == s[|s| - 1 - i]
  {
    if |s| == 0 then [] else Reverse(s[1..]) + [s[0]]
  }

  /** The order lines are displayed in: reversed for `listlines` only. */
  function Ordered(msgid: string, lines: seq<(nat, Line)>): seq<(nat, Line)> {
    if msgid == LISTLINES then Reverse(lines) else lines
  }

  /** The lines for buffer `j`, in order. */
  function LinesFor(lines: seq<(nat, Line)>, j: nat): seq<Line> {
    if |lines| == 0 then []
    else (if lines[0].0 == j then [lines[0].1] else []) + LinesFor(lines[1..], j)
  }

  /** Each line displayed in turn at the end of its buffer's chat. */
  function Show(bs: seq<BufferRec>, lines: seq<(nat, Line)>): (r: seq<BufferRec>)
    requires forall k :: 0 <= k < |lines| ==> lines[k].0 < |bs|
    ensures |r| == |bs|
    decreases |lines|
  {
    if |lines| == 0 then bs
    else
      var i := lines[0].0;
      Show(bs[i := bs[i].(chat := bs[i].chat + [lines[0].1])], lines[1..])
  }

  /** Displaying lines appends to every buffer exactly the lines for it,
      in order, and touches nothing else. */
  lemma {:induction false} ShowAppends(bs: seq<BufferRec>, lines: seq<(nat, Line)>, j: nat)
    requires forall k :: 0 <= k < |lines| ==> lines[k].0 < |bs|
    requires j < |bs|
    ensures Show(bs, lines)[j] == bs[j].(chat := bs[j].chat + LinesFor(lines, j))
    decreases |lines|
  {
    if |lines| > 0 {
      var i := lines[0].0;
      var bs' := bs[i := bs[i].(chat := bs[i].chat + [lines[0].1])];
      ShowAppends(bs', lines[1..], j);
      if i == j {
        assert bs'[j].chat + LinesFor(lines[1..], j) == bs[j].chat + ([lines[0].1] + LinesFor(lines[1..], j));
      } else {
        assert [] + LinesFor(lines[1..], j) == LinesFor(lines[1..], j);
      }
    }
  }

  lemma ReverseInRange(lines: seq<(nat, Line)>, n: nat)
    requires forall k :: 0 <= k < |lines| ==> lines[k].0 < n
    ensures forall k :: 0 <= k < |Reverse(lines)| ==> Reverse(lines)[k].0 < n
  {
  }

  /** `_parse_line`: for each line hdata, the lines of known buffers are
      collected and then displayed, reversed for `listlines`. Whether or
      not a later hdata raises, only chats change, and only by growing. */
  function ParseLines(bs: seq<BufferRec>, msgid: string, objs: seq<Protocol.Obj>): (r: Outcome<seq<BufferRec>>)
    ensures |r.state| == |bs|
    ensures forall j :: 0 <= j < |bs| ==>
      r.state[j].(chat := bs[j].chat) == bs[j] && bs[j].chat <= r.state[j].chat
    decreases |objs|
  {
    if |objs| == 0 then Outcome(bs, None)
    else
      match HdataItems(objs[0], "line_data")
      case Err(f) => Outcome(bs, Some(f))
      case Ok(None) => ParseLines(bs, msgid, objs[1..])
      case Ok(Some(items)) =>
        match Routed(bs, msgid, items)
        case Err(f) => Outcome(bs, Some(f))
        case Ok(routed) =>
          ReverseInRange(routed, |bs|);
          var shown := Show(bs, Ordered(msgid, routed));
          assert forall j :: 0 <= j < |bs| ==> shown[j] == bs[j].(chat := bs[j].chat + LinesFor(Ordered(msgid, routed), j)) by {
            forall j | 0 <= j < |bs| {
              ShowAppends(bs, Ordered(msgid, routed), j);
            }
          }
          var r := ParseLines(shown, msgid, objs[1..]);
          assert forall j :: 0 <= j < |bs| ==> bs[j].chat <= shown[j].chat <= r.state[j].chat;
          r
  }

  /** A message with one line hdata appends to each buffer the lines
      routed to it, in wire order, or in reverse order for `listlines`. */
  lemma LinesOfOneHdata(bs: seq<BufferRec>, msgid: string, obj: Protocol.Obj, items: seq<Item>, j: nat)
    requires HdataItems(obj, "line_data") == Ok(Some(items))
    requires Routed(bs, msgid, items).Ok? && j < |bs|
    ensures !ParseLines(bs, msgid, [obj]).Raised()
    ensures ParseLines(bs, msgid, [obj]).state[j].chat
      == bs[j].chat + LinesFor(Ordered(msgid, Routed(bs, msgid, items).value), j)
  {
    var routed := Routed(bs, msgid, items).value;
    ReverseInRange(routed, |bs|);
    ShowAppends(bs, Ordered(msgid, routed), j);
    assert [obj][1..] == [];
  }

  /** Lines already displayed stay displayed when a later object of the
      same message raises. */
  lemma LinesKeptOnFault(bs: seq<BufferRec>, msgid: string, obj: Protocol.Obj, bad: Protocol.Obj)
    requires HdataItems(obj, "line_data").Ok? && HdataItems(obj, "line_data").value.Some?
    requires Routed(bs, msgid, HdataItems(obj, "line_data").value.value).Ok?
    requires HdataItems(bad, "line_data").Err?
    ensures ParseLines(bs, msgid, [obj, bad])
      == Outcome(ParseLines(bs, msgid, [obj]).state, Some(HdataItems(bad, "line_data").fault))
  {
    assert [obj, bad][1..] == [bad];
    assert [bad][1..] == [];
    assert [obj][1..] == [];
  }

  // ---------------------------------------------------------------------
  // _nicklist, nicklist

  /** The state carried through a nicklist message: the buffers, the
      buffers touched so far (to be refreshed at the end), and the
      current group. */
  datatype Pass = Pass(bs: seq<BufferRec>, touched: set<nat>, group: string)

  predicate Good(p: Pass) {
    Valid(p.bs) && forall t :: t in p.touched ==> t < |p.bs|
  }

  /** Only the nicklists of touched buffers differ between `p` and `q`. */
  predicate OnlyNicklists(p: Pass, q: Pass) {
    && |q.bs| == |p.bs|
    && p.touched <= q.touched
    && forall j :: 0 <= j < |p.bs| ==>
      && q.bs[j] == p.bs[j].(nicklist := q.bs[j].nicklist)
      && (j !in q.touched ==> q.bs[j] == p.bs[j])
  }

  /** The group root nicks are added to until a group item comes. */
  const ROOT_GROUP: string := "__root"

  /** The pass after buffer `i`'s nicklist became `nl`. */
  function SetNicklist(p: Pass, i: nat, nl: Buffer.Nicklist, group: string): (q: Pass)
    requires Good(p) && i < |p.bs| && UniqueKeys(nl)
    ensures Good(q) && OnlyNicklists(p, q)
    ensures q.touched == p.touched + {i} && q.group == group
    ensures q.bs == p.bs[i := p.bs[i].(nicklist := nl)]
  {
    Pass(p.bs[i := p.bs[i].(nicklist := nl)], p.touched + {i}, group)
  }

  /** The pass after buffer `i` was named, with nothing changed in it. */
  function Mark(p: Pass, i: nat, group: string): (q: Pass)
    requires Good(p) && i < |p.bs|
    ensures Good(q) && OnlyNicklists(p, q)
    ensures q == Pass(p.bs, p.touched + {i}, group)
  {
    Pass(p.bs, p.touched + {i}, group)
  }

  /** The arguments a nicklist item passes to add or update: whether it
      is a group, its prefix, name and visibility. */
  datatype NickArgs = NickArgs(isGroup: bool, prefix: string, name: string, visible: Value)

  function ReadArgs(item: Item): (r: Result<NickArgs>)
    ensures r.Ok? ==> Get(item, "name") == Some(VStr(r.value.name)) && Get(item, "prefix") == Some(VStr(r.value.prefix))
    ensures r.Ok? ==> HasKey(item, "group") && r.value.isGroup == Truthy(Get(item, "group").value)
    ensures r.Ok? ==> Get(item, "visible") == Some(r.value.visible)
  {
    var isGroup :- Field(item, "group");
    var prefix :- Field(item, "prefix");
    var prefix :- Str(prefix);
    var name :- Field(item, "name");
    var name :- Str(name);
    var visible :- Field(item, "visible");
    Ok(NickArgs(Truthy(isGroup), prefix, name, visible))
  }

  /** The current group after an item: its name for a group item. */
  function NextGroup(item: Item, isGroup: bool, group: string): (r: Result<string>)
    ensures !isGroup ==> r == Ok(group)
    ensures isGroup ==> (r.Ok? <==> Get(item, "name").Some? && Get(item, "name").value.VStr?)
    ensures isGroup && r.Ok? ==> Get(item, "name") == Some(VStr(r.value))
  {
    if isGroup then
      var n :- Field(item, "name");
      Str(n)
    else Ok(group)
  }

  /** What a full nicklist item does once its buffer's nicklist is reset:
      the new current group, and the nicklist with the group or nick
      added. */
  function NickAdded(nl: Buffer.Nicklist, group: string, item: Item): (r: Result<(string, Buffer.Nicklist)>)
    requires UniqueKeys(nl)
    ensures r.Ok? ==> UniqueKeys(r.value.1)
  {
    var isGroup :- Field(item, "group");
    var group' :- NextGroup(item, Truthy(isGroup), group);
    var args :- ReadArgs(item);
    var nl' :- Buffer.AddItem(nl, group', args.isGroup, args.prefix, args.name, args.visible);
    Ok((group', nl'))
  }

  /** One item of a full nicklist: the first item for a buffer in this
      message resets that buffer's nicklist; a group item becomes the
      current group; then the group or nick is added. A fault after the
      reset keeps it. */
  function NickItem(p: Pass, item: Item): (r: Outcome<Pass>)
    requires Good(p)
    ensures Good(r.state) && OnlyNicklists(p, r.state)
    ensures Locate(p.bs, PathHead(item)) == Ok(None) ==> r == Outcome(p, None)
    ensures Locate(p.bs, PathHead(item)).Ok? && Locate(p.bs, PathHead(item)).value.Some? ==>
      var i := Locate(p.bs, PathHead(item)).value.value;
      && i in r.state.touched
      && (r.Raised() && i !in p.touched ==> r.state.bs[i].nicklist == [])
  {
    match Locate(p.bs, PathHead(item))
    case Err(f) => Outcome(p, Some(f))
    case Ok(None) => Outcome(p, None)
    case Ok(Some(i)) =>
      var nl := if i in p.touched then p.bs[i].nicklist else [];
      match NickAdded(nl, p.group, item)
      case Err(f) => Outcome(SetNicklist(p, i, nl, p.group), Some(f))
      case Ok((group, nl')) => Outcome(SetNicklist(p, i, nl', group), None)
  }

  function NickItems(p: Pass, items: seq<Item>): (r: Outcome<Pass>)
    requires Good(p)
    ensures Good(r.state) && OnlyNicklists(p, r.state)
    decreases |items|
  {
    if |items| == 0 then Outcome(p, None)
    else
      var o := NickItem(p, items[0]);
      if o.Raised() then o else NickItems(o.state, items[1..])
  }

  /** Each nicklist hdata starts again from the root group. */
  function NickObjects(p: Pass, objs: seq<Protocol.Obj>): (r: Outcome<Pass>)
    requires Good(p)
    ensures Good(r.state) && OnlyNicklists(p, r.state)
    decreases |objs|
  {
    if |objs| == 0 then Outcome(p, None)
    else
      match HdataItems(objs[0], "nicklist_item")
      case Err(f) => Outcome(p, Some(f))
      case Ok(None) => NickObjects(p, objs[1..])
      case Ok(Some(items)) =>
        var o := NickItems(p.(group := ROOT_GROUP), items);
        if o.Raised() then o else NickObjects(o.state, objs[1..])
  }

  /** `nicklist_refresh` on every touched buffer. */
  function RefreshTouched(bs: seq<BufferRec>, touched: set<nat>): (r: seq<BufferRec>)
    ensures |r| == |bs|
    ensures forall j :: 0 <= j < |bs| && j in touched ==> r[j] == bs[j].(shown := Buffer.Refresh(bs[j].nicklist))
    ensures forall j :: 0 <= j < |bs| && j !in touched ==> r[j] == bs[j]
  {
    seq(|bs|, j requires 0 <= j < |bs| => if j in touched then bs[j].(shown := Buffer.Refresh(bs[j].nicklist)) else bs[j])
  }

  /** `_parse_nicklist`: the nicklists of the buffers the message names
      are rebuilt from its items, and their widgets refreshed at the end.
      Every other buffer, and everything but the nicklist, stays as it
      was; after an exception nothing is refreshed. */
  function Nicklist(bs: seq<BufferRec>, objs: seq<Protocol.Obj>): (r: Outcome<seq<BufferRec>>)
    requires Valid(bs)
    ensures Valid(r.state) && |r.state| == |bs|
    ensures forall j :: 0 <= j < |bs| ==> r.state[j].data == bs[j].data && r.state[j].chat == bs[j].chat
    ensures r.Raised() ==> forall j :: 0 <= j < |bs| ==> r.state[j].shown == bs[j].shown
    ensures !r.Raised() ==> forall j :: 0 <= j < |bs| ==>
      r.state[j] == bs[j] || r.state[j].shown == Buffer.Refresh(r.state[j].nicklist)
  {
    var o := NickObjects(Pass(bs, {}, ROOT_GROUP), objs);
    if o.Raised() then Outcome(o.state.bs, o.fault)
    else Outcome(RefreshTouched(o.state.bs, o.state.touched), None)
  }

  /** Two passes that differ at most in the nicklists of buffers not
      touched yet. */
  predicate Agree(a: Pass, b: Pass) {
    && a.touched == b.touched && a.group == b.group && |a.bs| == |b.bs|
    && forall j :: 0 <= j < |a.bs| ==>
      && a.bs[j].(nicklist := []) == b.bs[j].(nicklist := [])
      && (j in a.touched ==> a.bs[j].nicklist == b.bs[j].nicklist)
  }

  /** `Locate` looks only at the buffers' data. */
  lemma {:induction false} LocateByData(a: seq<BufferRec>, b: seq<BufferRec>, key: Result<Value>)
    requires |a| == |b| && forall j :: 0 <= j < |a| ==> a[j].data == b[j].data
    ensures Locate(a, key) == Locate(b, key)
    decreases |a|
  {
    if |a| > 0 {
      LocateByData(a[1..], b[1..], key);
    }
  }

  lemma SameData(a: Pass, b: Pass)
    requires Agree(a, b)
    ensures forall j :: 0 <= j < |a.bs| ==> a.bs[j].data == b.bs[j].data
  {
    forall j | 0 <= j < |a.bs| ensures a.bs[j].data == b.bs[j].data {
      assert a.bs[j].data == a.bs[j].(nicklist := []).data;
      assert b.bs[j].data == b.bs[j].(nicklist := []).data;
    }
  }

  /** Setting the same nicklist in two agreeing passes keeps them
      agreeing. */
  lemma SetAgree(a: Pass, b: Pass, i: nat, nl: Buffer.Nicklist, group: string)
    requires Good(a) && Good(b) && Agree(a, b) && i < |a.bs| && UniqueKeys(nl)
    ensures Agree(SetNicklist(a, i, nl, group), SetNicklist(b, i, nl, group))
  {
    var qa := SetNicklist(a, i, nl, group);
    var qb := SetNicklist(b, i, nl, group);
    forall j | 0 <= j < |qa.bs|
      ensures qa.bs[j].(nicklist := []) == qb.bs[j].(nicklist := [])
      ensures j in qa.touched ==> qa.bs[j].nicklist == qb.bs[j].nicklist
    {
      if j == i {
        assert qa.bs[j].(nicklist := []) == a.bs[j].(nicklist := []);
        assert qb.bs[j].(nicklist := []) == b.bs[j].(nicklist := []);
      }
    }
  }

  lemma NickItemAgree(a: Pass, b: Pass, item: Item)
    requires Good(a) && Good(b) && Agree(a, b)
    ensures NickItem(a, item).fault == NickItem(b, item).fault
    ensures Agree(NickItem(a, item).state, NickItem(b, item).state)
  {
    SameData(a, b);
    LocateByData(a.bs, b.bs, PathHead(item));
    var found := Locate(a.bs, PathHead(item));
    if found.Ok? && found.value.Some? {
      var i := found.value.value;
      var nl := if i in a.touched then a.bs[i].nicklist else [];
      assert nl == if i in b.touched then b.bs[i].nicklist else [];
      var added := NickAdded(nl, a.group, item);
      if added.Ok? {
        assert NickItem(a, item) == Outcome(SetNicklist(a, i, added.value.1, added.value.0), None);
        assert NickItem(b, item) == Outcome(SetNicklist(b, i, added.value.1, added.value.0), None);
        SetAgree(a, b, i, added.value.1, added.value.0);
      } else {
        assert NickItem(a, item) == Outcome(SetNicklist(a, i, nl, a.group), Some(added.fault));
        assert NickItem(b, item) == Outcome(SetNicklist(b, i, nl, b.group), Some(added.fault));
        SetAgree(a, b, i, nl, a.group);
      }
    }
  }

  lemma {:induction false} NickItemsAgree(a: Pass, b: Pass, items: seq<Item>)
    requires Good(a) && Good(b) && Agree(a, b)
    ensures NickItems(a, items).fault == NickItems(b, items).fault
    ensures Agree(NickItems(a, items).state, NickItems(b, items).state)
    decreases |items|
  {
    if |items| > 0 {
      NickItemAgree(a, b, items[0]);
      if !NickItem(a, items[0]).Raised() {
        NickItemsAgree(NickItem(a, items[0]).state, NickItem(b, items[0]).state, items[1..]);
      }
    }
  }

  lemma {:induction false} NickObjectsAgree(a: Pass, b: Pass, objs: seq<Protocol.Obj>)
    requires Good(a) && Good(b) && Agree(a, b)
    ensures NickObjects(a, objs).fault == NickObjects(b, objs).fault
    ensures Agree(NickObjects(a, objs).state, NickObjects(b, objs).state)
    decreases |objs|
  {
    if |objs| > 0 {
      var h := HdataItems(objs[0], "nicklist_item");
      if h.Ok? {
        if h.value.None? {
          NickObjectsAgree(a, b, objs[1..]);
        } else {
          var a0 := a.(group := ROOT_GROUP);
          var b0 := b.(group := ROOT_GROUP);
          NickItemsAgree(a0, b0, h.value.value);
          if !NickItems(a0, h.value.value).Raised() {
            NickObjectsAgree(NickItems(a0, h.value.value).state, NickItems(b0, h.value.value).state, objs[1..]);
          }
        }
      }
    }
  }

  /** A full nicklist does not build on what a buffer had before: with
      any other previous nicklist in buffer `i` the message raises the
      same exception or none, and buffer `i` ends the same, unless the
      message left it alone altogether. */
  lemma NicklistForgetsOld(bs: seq<BufferRec>, objs: seq<Protocol.Obj>, i: nat, previous: Buffer.Nicklist)
    requires Valid(bs) && i < |bs| && UniqueKeys(previous)
    ensures var r1 := Nicklist(bs, objs);
      var r2 := Nicklist(bs[i := bs[i].(nicklist := previous)], objs);
      && r1.fault == r2.fault
      && |r1.state| == |r2.state|
      && (forall j :: 0 <= j < |bs| && j != i ==> r1.state[j] == r2.state[j])
      && (r1.state[i] == r2.state[i] || (r1.state[i] == bs[i] && r2.state[i] == bs[i].(nicklist := previous)))
  {
    var bs2 := bs[i := bs[i].(nicklist := previous)];
    var a := Pass(bs, {}, ROOT_GROUP);
    var b := Pass(bs2, {}, ROOT_GROUP);
    NickObjectsAgree(a, b, objs);
    var qa := NickObjects(a, objs).state;
    var qb := NickObjects(b, objs).state;
    forall j | 0 <= j < |bs| && j in qa.touched ensures qa.bs[j] == qb.bs[j] {
      assert qa.bs[j] == qa.bs[j].(nicklist := []).(nicklist := qa.bs[j].nicklist);
      assert qb.bs[j] == qb.bs[j].(nicklist := []).(nicklist := qb.bs[j].nicklist);
    }
  }

  // ---------------------------------------------------------------------
  // _nicklist_diff

  const DIFF_GROUP: Value := VInt(94)   // '^'
  const DIFF_ADD: Value := VInt(43)     // '+'
  const DIFF_REMOVE: Value := VInt(45)  // '-'
  const DIFF_UPDATE: Value := VInt(42)  // '*'

  /** One item of a nicklist diff. An item for an unknown buffer is
      skipped, `^` included; otherwise the buffer is marked for refresh
      and `^` sets the current group while `+`, `-` and `*` add, remove
      or update under it. */
  function DiffItem(p: Pass, item: Item): (r: Result<Pass>)
    requires Good(p)
    ensures r.Ok? ==> Good(r.value) && OnlyNicklists(p, r.value)
    ensures Locate(p.bs, PathHead(item)) == Ok(None) ==> r == Ok(p)
    ensures r.Ok? && Get(item, "_diff") == Some(DIFF_GROUP) ==> r.value.bs == p.bs
    ensures r.Ok? && Get(item, "_diff") != Some(DIFF_GROUP) ==> r.value.group == p.group
  {
    var found :- Locate(p.bs, PathHead(item));
    if found.None? then Ok(p)
    else
      var i := found.value;
      var nl := p.bs[i].nicklist;
      var diff :- Field(item, "_diff");
      if diff == DIFF_GROUP then
        var n :- Field(item, "name");
        var group :- Str(n);
        Ok(Mark(p, i, group))
      else if diff == DIFF_ADD then
        var args :- ReadArgs(item);
        var nl' :- Buffer.AddItem(nl, p.group, args.isGroup, args.prefix, args.name, args.visible);
        Ok(SetNicklist(p, i, nl', p.group))
      else if diff == DIFF_REMOVE then
        var isGroup :- Field(item, "group");
        var n :- Field(item, "name");
        var name :- Str(n);
        Ok(SetNicklist(p, i, Buffer.RemoveItem(nl, p.group, Truthy(isGroup), name), p.group))
      else if diff == DIFF_UPDATE then
        var args :- ReadArgs(item);
        Ok(SetNicklist(p, i, Buffer.UpdateItem(nl, p.group, args.isGroup, args.prefix, args.name, args.visible), p.group))
      else
        Ok(Mark(p, i, p.group))
  }

  function DiffItems(p: Pass, items: seq<Item>): (r: Outcome<Pass>)
    requires Good(p)
    ensures Good(r.state) && OnlyNicklists(p, r.state)
    decreases |items|
  {
    if |items| == 0 then Outcome(p, None)
    else
      match DiffItem(p, items[0])
      case Err(f) => Outcome(p, Some(f))
      case Ok(q) => DiffItems(q, items[1..])
  }

  function DiffObjects(p: Pass, objs: seq<Protocol.Obj>): (r: Outcome<Pass>)
    requires Good(p)
    ensures Good(r.state) && OnlyNicklists(p, r.state)
    decreases |objs|
  {
    if |objs| == 0 then Outcome(p, None)
    else
      match HdataItems(objs[0], "nicklist_item")
      case Err(f) => Outcome(p, Some(f))
      case Ok(None) => DiffObjects(p, objs[1..])
      case Ok(Some(items)) =>
        var o := DiffItems(p.(group := ROOT_GROUP), items);
        if o.Raised() then o else DiffObjects(o.state, objs[1..])
  }

  /** `_parse_nicklist_diff`: the changes are applied to the nicklists of
      the buffers they name, whose widgets are refreshed at the end. The
      changes made before an exception stay; nothing is refreshed then. */
  function NicklistDiff(bs: seq<BufferRec>, objs: seq<Protocol.Obj>): (r: Outcome<seq<BufferRec>>)
    requires Valid(bs)
    ensures Valid(r.state) && |r.state| == |bs|
    ensures forall j :: 0 <= j < |bs| ==> r.state[j].data == bs[j].data && r.state[j].chat == bs[j].chat
    ensures r.Raised() ==> forall j :: 0 <= j < |bs| ==> r.state[j].shown == bs[j].shown
    ensures !r.Raised() ==> forall j :: 0 <= j < |bs| ==>
      r.state[j] == bs[j] || r.state[j].shown == Buffer.Refresh(r.state[j].nicklist)
  {
    var o := DiffObjects(Pass(bs, {}, ROOT_GROUP), objs);
    if o.Raised() then Outcome(o.state.bs, o.fault)
    else Outcome(RefreshTouched(o.state.bs, o.state.touched), None)
  }

  /** A `+` item for a nick, in the buffer at `i`. */
  lemma DiffAddStep(p: Pass, add: Item, i: nat, args: NickArgs)
    requires Good(p)
    requires Locate(p.bs, PathHead(add)) == Ok(Some(i))
    requires Get(add, "_diff") == Some(DIFF_ADD) && ReadArgs(add) == Ok(args)
    requires i < |p.bs| && UniqueKeys(p.bs[i].nicklist)
    requires Buffer.AddItem(p.bs[i].nicklist, p.group, args.isGroup, args.prefix, args.name, args.visible).Ok?
    ensures DiffItem(p, add) == Ok(SetNicklist(p, i, Buffer.AddItem(p.bs[i].nicklist, p.group, args.isGroup, args.prefix, args.name, args.visible).value, p.group))
  {
    assert DIFF_ADD != DIFF_GROUP;
    assert Field(add, "_diff") == Ok(DIFF_ADD);
  }

  /** A `-` item for a nick, in the buffer at `i`. */
  lemma DiffRemoveStep(p: Pass, del: Item, i: nat, name: string)
    requires Good(p)
    requires Locate(p.bs, PathHead(del)) == Ok(Some(i))
    requires Get(del, "_diff") == Some(DIFF_REMOVE)
    requires Get(del, "group") == Some(VInt(0)) && Get(del, "name") == Some(VStr(name))
    requires i < |p.bs|
    ensures DiffItem(p, del) == Ok(SetNicklist(p, i, Buffer.RemoveItem(p.bs[i].nicklist, p.group, false, name), p.group))
  {
    assert DIFF_REMOVE != DIFF_GROUP && DIFF_REMOVE != DIFF_ADD;
    assert Field(del, "_diff") == Ok(DIFF_REMOVE);
    assert Field(del, "group") == Ok(VInt(0));
    assert Field(del, "name") == Ok(VStr(name));
    assert !Truthy(VInt(0));
  }

  /** A `+` of a nick followed by a `-` of the same nick, in a group that
      had no nick of that name, leaves the buffer's nicklist as it was. */
  lemma DiffAddThenRemove(p: Pass, add: Item, del: Item, i: nat, name: string)
    requires Good(p)
    requires Locate(p.bs, PathHead(add)) == Ok(Some(i)) && PathHead(del) == PathHead(add)
    requires Get(add, "_diff") == Some(DIFF_ADD) && Get(del, "_diff") == Some(DIFF_REMOVE)
    requires Get(add, "group") == Some(VInt(0)) && Get(del, "group") == Some(VInt(0))
    requires Get(add, "name") == Some(VStr(name)) && Get(del, "name") == Some(VStr(name))
    requires HasKey(add, "prefix") && Get(add, "prefix").value.VStr? && HasKey(add, "visible")
    requires i < |p.bs| && HasKey(p.bs[i].nicklist, p.group)
    requires var g := Get(p.bs[i].nicklist, p.group).value;
      forall k :: 0 <= k < |g.nicks| ==> g.nicks[k].name != name
    ensures DiffItem(p, add).Ok?
    ensures DiffItem(DiffItem(p, add).value, del) == Ok(Pass(p.bs, p.touched + {i}, p.group))
  {
    var nl := p.bs[i].nicklist;
    var args := NickArgs(false, Get(add, "prefix").value.s, name, Get(add, "visible").value);
    assert ReadArgs(add) == Ok(args);
    Buffer.AddThenRemove(nl, p.group, args.prefix, name, args.visible);
    var nl' := Buffer.AddItem(nl, p.group, false, args.prefix, name, args.visible).value;
    DiffAddStep(p, add, i, args);
    var q := SetNicklist(p, i, nl', p.group);
    SetBack(p, i, nl');
    LocateByData(p.bs, q.bs, PathHead(add));
    DiffRemoveStep(q, del, i, name);
  }

  /** Setting a nicklist and then the previous one again. */
  lemma SetBack(p: Pass, i: nat, nl: Buffer.Nicklist)
    requires Good(p) && i < |p.bs| && UniqueKeys(nl)
    ensures var q := SetNicklist(p, i, nl, p.group);
      && (forall j :: 0 <= j < |p.bs| ==> q.bs[j].data == p.bs[j].data)
      && q.bs[i].nicklist == nl
      && SetNicklist(q, i, p.bs[i].nicklist, p.group) == Pass(p.bs, p.touched + {i}, p.group)
  {
    var q := SetNicklist(p, i, nl, p.group);
    assert q.bs[i := q.bs[i].(nicklist := p.bs[i].nicklist)] == p.bs;
  }

  // ---------------------------------------------------------------------
  // _buffer_opened

  /** One opened buffer, `create_buffer` as intended: created from the
      item and inserted where its `next_buffer` says. A missing or
      unplaceable `next_buffer` raises with the list untouched; a row
      label that cannot be formatted raises after the insertion. */
  function OpenOne(bs: seq<BufferRec>, item: Item): (r: Outcome<seq<BufferRec>>)
    ensures |r.state| == |bs| + 1 <==>
      HasKey(item, "next_buffer") && FindInsertIndex(bs, Get(item, "next_buffer").value).Ok?
    ensures |r.state| == |bs| + 1 ==>
      r.state == InsertAt(bs, FindInsertIndex(bs, Get(item, "next_buffer").value).value, NewBuffer(item))
    ensures |r.state| != |bs| + 1 ==> r.state == bs && r.Raised()
    ensures !r.Raised() <==> |r.state| == |bs| + 1 && LabelFault(item).None?
  {
    match Field(item, "next_buffer")
    case Err(f) => Outcome(bs, Some(f))
    case Ok(next) =>
      match FindInsertIndex(bs, next)
      case Err(f) => Outcome(bs, Some(f))
      case Ok(index) => InsertBuffer(bs, index, NewBuffer(item))
  }

  /** One opened buffer as written: `create_buffer` raises before
      anything changes. */
  function OpenOneAsWritten(bs: seq<BufferRec>, item: Item): (r: Outcome<seq<BufferRec>>)
    ensures r == Outcome(bs, Some(TypeError))
  {
    Outcome(bs, Some(CreateBufferAsWritten(item).fault))
  }

  /** A buffer opened before a known buffer lands right in front of it;
      one opened with the null pointer (or, as intended, an unknown
      pointer) goes last. */
  lemma OpenedBeforeNext(bs: seq<BufferRec>, item: Item, k: nat)
    requires HasKey(item, "next_buffer") && |OpenOne(bs, item).state| == |bs| + 1
    requires k < |bs| && Locate(bs, Ok(Get(item, "next_buffer").value)) == Ok(Some(k))
    requires Get(item, "next_buffer").value != NULL_PTR
    ensures OpenOne(bs, item).state[k] == NewBuffer(item)
    ensures OpenOne(bs, item).state[k + 1] == bs[k]
    ensures Buffer.Pointer(OpenOne(bs, item).state[k + 1].data) == Ok(Get(item, "next_buffer").value)
  {
    LocateFound(bs, Get(item, "next_buffer").value);
  }

  lemma OpenedLast(bs: seq<BufferRec>, item: Item)
    requires Get(item, "next_buffer") == Some(NULL_PTR)
    ensures OpenOne(bs, item) == Outcome(bs + [NewBuffer(item)], LabelFault(item))
  {
    assert bs[..|bs|] + [NewBuffer(item)] + bs[|bs|..] == bs + [NewBuffer(item)];
  }

  /** An opened buffer is added to the list or not at all. */
  lemma OpenOneAdds(bs: seq<BufferRec>, item: Item)
    requires Valid(bs)
    ensures var r := OpenOne(bs, item);
      && Valid(r.state)
      && (multiset(r.state) == multiset(bs) || multiset(r.state) == multiset(bs) + multiset{NewBuffer(item)})
      && |bs| <= |r.state| <= |bs| + 1
      && (!r.Raised() ==> multiset(r.state) == multiset(bs) + multiset{NewBuffer(item)} && |r.state| == |bs| + 1)
  {
    var r := OpenOne(bs, item);
    if |r.state| == |bs| + 1 {
      var index := FindInsertIndex(bs, Get(item, "next_buffer").value).value;
      assert r.state == InsertAt(bs, index, NewBuffer(item));
      assert forall j :: 0 <= j < |r.state| ==> r.state[j] == NewBuffer(item) || r.state[j] in bs;
    }
  }

  function OpenItems(bs: seq<BufferRec>, items: seq<Item>): (r: Outcome<seq<BufferRec>>)
    requires Valid(bs)
    ensures Valid(r.state) && |bs| <= |r.state| <= |bs| + |items|
    ensures multiset(bs) <= multiset(r.state) <= multiset(bs) + multiset(Fresh(items))
    ensures !r.Raised() ==> multiset(r.state) == multiset(bs) + multiset(Fresh(items))
    decreases |items|
  {
    if |items| == 0 then Outcome(bs, None)
    else
      var o := OpenOne(bs, items[0]);
      OpenOneAdds(bs, items[0]);
      assert Fresh(items) == [NewBuffer(items[0])] + Fresh(items[1..]);
      if o.Raised() then o else OpenItems(o.state, items[1..])
  }

  /** The items of a message's buffer hdatas, in order. */
  function BufferItems(objs: seq<Protocol.Obj>): seq<Item> {
    if |objs| == 0 then []
    else
      (match HdataItems(objs[0], "buffer") case Ok(Some(items)) => items case _ => [])
      + BufferItems(objs[1..])
  }

  lemma FreshConcat(a: seq<Item>, b: seq<Item>)
    ensures Fresh(a + b) == Fresh(a) + Fresh(b)
  {
  }

  /** `_parse_buffer_opened`, `create_buffer` as intended: every item of
      every buffer hdata becomes a new buffer; the buffers already there
      all stay, and the buffers inserted before an exception stay too. */
  function BufferOpened(bs: seq<BufferRec>, objs: seq<Protocol.Obj>): (r: Outcome<seq<BufferRec>>)
    requires Valid(bs)
    ensures Valid(r.state) && |r.state| >= |bs| && multiset(bs) <= multiset(r.state)
    ensures !r.Raised() ==> multiset(r.state) == multiset(bs) + multiset(Fresh(BufferItems(objs)))
    decreases |objs|
  {
    if |objs| == 0 then Outcome(bs, None)
    else
      match HdataItems(objs[0], "buffer")
      case Err(f) => Outcome(bs, Some(f))
      case Ok(None) =>
        assert BufferItems(objs) == BufferItems(objs[1..]);
        BufferOpened(bs, objs[1..])
      case Ok(Some(items)) =>
        var o := OpenItems(bs, items);
        if o.Raised() then o
        else
          var r := BufferOpened(o.state, objs[1..]);
          assert BufferItems(objs) == items + BufferItems(objs[1..]);
          FreshConcat(items, BufferItems(objs[1..]));
          assert !r.Raised() ==> multiset(r.state) == multiset(bs) + multiset(Fresh(items)) + multiset(Fresh(BufferItems(objs[1..])));
          r
  }

  /** `_parse_buffer_opened` as written: the first item raises in
      `create_buffer`, so the list never changes, and nothing is raised
      only when no buffer hdata has an item, where the intended handler
      does nothing either. */
  function BufferOpenedAsWritten(bs: seq<BufferRec>, objs: seq<Protocol.Obj>): (r: Outcome<seq<BufferRec>>)
    requires Valid(bs)
    ensures r.state == bs
    ensures !r.Raised() ==> r == BufferOpened(bs, objs)
    decreases |objs|
  {
    if |objs| == 0 then Outcome(bs, None)
    else
      match HdataItems(objs[0], "buffer")
      case Err(f) => Outcome(bs, Some(f))
      case Ok(None) => BufferOpenedAsWritten(bs, objs[1..])
      case Ok(Some(items)) =>
        if |items| == 0 then BufferOpenedAsWritten(bs, objs[1..])
        else OpenOneAsWritten(bs, items[0])
  }

  /** One buffer opened at the end: as written the message raises
      `TypeError` and the list stays; as intended the buffer is appended
      (`OpenedAtEnd`). */
  lemma OpenedAsWrittenFaults(bs: seq<BufferRec>, obj: Protocol.Obj, item: Item)
    requires Valid(bs)
    requires HdataItems(obj, "buffer") == Ok(Some([item]))
    requires Get(item, "next_buffer") == Some(NULL_PTR) && LabelFault(item).None?
    ensures BufferOpenedAsWritten(bs, [obj]) == Outcome(bs, Some(TypeError))
    ensures BufferOpened(bs, [obj]) == Outcome(bs + [NewBuffer(item)], None)
  {
    assert BufferOpenedAsWritten(bs, [obj]) == OpenOneAsWritten(bs, item);
    OpenedAtEnd(bs, obj, item);
  }

  /** A message opening one buffer at the end appends it. */
  lemma OpenedAtEnd(bs: seq<BufferRec>, obj: Protocol.Obj, item: Item)
    requires Valid(bs)
    requires HdataItems(obj, "buffer") == Ok(Some([item]))
    requires Get(item, "next_buffer") == Some(NULL_PTR) && LabelFault(item).None?
    ensures BufferOpened(bs, [obj]) == Outcome(bs + [NewBuffer(item)], None)
  {
    var b := NewBuffer(item);
    OpenedLast(bs, item);
    OpenOneItem(bs, item, bs + [b]);
    OpenedOneHdata(bs, obj, [item], bs + [b]);
  }

  /** A message of one buffer hdata whose items raise nothing. */
  lemma OpenedOneHdata(bs: seq<BufferRec>, obj: Protocol.Obj, items: seq<Item>, after: seq<BufferRec>)
    requires Valid(bs) && HdataItems(obj, "buffer") == Ok(Some(items))
    requires OpenItems(bs, items) == Outcome(after, None)
    ensures BufferOpened(bs, [obj]) == Outcome(after, None)
  {
    assert [obj][1..] == [];
  }

  /** Opening a single item that raises nothing. */
  lemma OpenOneItem(bs: seq<BufferRec>, item: Item, after: seq<BufferRec>)
    requires Valid(bs) && OpenOne(bs, item) == Outcome(after, None)
    ensures OpenItems(bs, [item]) == Outcome(after, None)
  {
    assert [item][1..] == [];
    OpenOneAdds(bs, item);
  }

  // ---------------------------------------------------------------------
  // _buffer_* events

  const BUFFER_CLOSING: string := "_buffer_closing"
  const BUFFER_CLEARED: string := "_buffer_cleared"
  const LOCALVAR_PREFIX: string := "_buffer_localvar_"

  /** The events that take a buffer out and put it back where its
      `next_buffer` says. */
  predicate IsMove(msgid: string) {
    msgid == "_buffer_moved" || msgid == "_buffer_merged" || msgid == "_buffer_unmerged"
  }

  /** The data fields an event copies from its item, in order. */
  function CopiedFields(msgid: string): seq<string> {
    if msgid == "_buffer_type_changed" then ["type"]
    else if msgid == "_buffer_renamed" then ["full_name", "short_name"]
    else if msgid == "_buffer_title_changed" then ["title"]
    else if StartsWith(msgid, LOCALVAR_PREFIX) then ["local_variables"]
    else []
  }

  /** `buffers[i].data[f] = item[f]` for each field `f` in turn. A
      missing field raises `KeyError`, keeping the fields copied before
      it. */
  function CopyFields(bs: seq<BufferRec>, i: nat, item: Item, fs: seq<string>): (r: Outcome<seq<BufferRec>>)
    requires i < |bs|
    ensures |r.state| == |bs|
    ensures forall j :: 0 <= j < |bs| && j != i ==> r.state[j] == bs[j]
    ensures r.state[i] == bs[i].(data := r.state[i].data)
    ensures forall k :: k !in fs ==> Get(r.state[i].data, k) == Get(bs[i].data, k)
    ensures forall k :: Get(r.state[i].data, k) != Get(bs[i].data, k) ==> Get(r.state[i].data, k) == Get(item, k)
    ensures !r.Raised() <==> forall f :: f in fs ==> HasKey(item, f)
    ensures !r.Raised() ==> forall f :: f in fs ==> Get(r.state[i].data, f) == Get(item, f)
    ensures r.Raised() ==> r.fault == Some(KeyError)
    ensures Valid(bs) ==> Valid(r.state)
    decreases |fs|
  {
    if |fs| == 0 then Outcome(bs, None)
    else
      match Field(item, fs[0])
      case Err(f) => Outcome(bs, Some(f))
      case Ok(v) =>
        var next := bs[i := bs[i].(data := Put(bs[i].data, fs[0], v))];
        var r := CopyFields(next, i, item, fs[1..]);
        assert forall f :: f in fs <==> f == fs[0] || f in fs[1..];
        r
  }

  /** A rename whose item lacks `short_name` raises with the new
      `full_name` already in place. */
  lemma RenameHalfDone(bs: seq<BufferRec>, i: nat, item: Item)
    requires i < |bs| && HasKey(item, "full_name") && !HasKey(item, "short_name")
    ensures var r := CopyFields(bs, i, item, CopiedFields("_buffer_renamed"));
      && r.fault == Some(KeyError)
      && Get(r.state[i].data, "full_name") == Get(item, "full_name")
      && Get(r.state[i].data, "short_name") == Get(bs[i].data, "short_name")
  {
    var fs := CopiedFields("_buffer_renamed");
    assert fs == ["full_name", "short_name"];
    assert fs[1..] == ["short_name"];
    var v := Get(item, "full_name").value;
    var next := bs[i := bs[i].(data := Put(bs[i].data, "full_name", v))];
    assert CopyFields(next, i, item, ["short_name"]) == Outcome(next, Some(KeyError));
  }

  /** The buffer of a move event with its new number. */
  function Renumbered(b: BufferRec, item: Item): BufferRec
    requires HasKey(item, "number")
  {
    b.(data := Put(b.data, "number", Get(item, "number").value))
  }

  /** Where a moved buffer goes back in: before the buffer `next_buffer`
      names, at the end for the null or an unknown pointer. */
  function MoveTarget(rest: seq<BufferRec>, item: Item): (r: Result<nat>)
    ensures r.Ok? <==> HasKey(item, "next_buffer") && FindInsertIndex(rest, Get(item, "next_buffer").value).Ok?
    ensures r.Ok? ==> r.value <= |rest| && r == FindInsertIndex(rest, Get(item, "next_buffer").value)
  {
    var next :- Field(item, "next_buffer");
    FindInsertIndex(rest, next)
  }

  /** A move, merge or unmerge, `insert_buffer` as intended: the buffer
      is renumbered, taken out of the list and put back where
      `MoveTarget` says. A missing `number` raises before anything
      changes, a missing `next_buffer` after the buffer was taken out,
      and a row label that cannot be formatted after it was put back. */
  function MoveBuffer(bs: seq<BufferRec>, i: nat, item: Item): (r: Outcome<seq<BufferRec>>)
    requires i < |bs|
    ensures Valid(bs) ==> Valid(r.state)
    ensures !HasKey(item, "number") ==> r == Outcome(bs, Some(KeyError))
    ensures HasKey(item, "number") && MoveTarget(RemoveAt(bs, i), item).Err? ==>
      r == Outcome(RemoveAt(bs, i), Some(MoveTarget(RemoveAt(bs, i), item).fault))
    ensures HasKey(item, "number") && MoveTarget(RemoveAt(bs, i), item).Ok? ==>
      && |r.state| == |bs|
      && multiset(r.state) == multiset(bs) - multiset{bs[i]} + multiset{Renumbered(bs[i], item)}
      && r.state[MoveTarget(RemoveAt(bs, i), item).value] == Renumbered(bs[i], item)
      && r.fault == LabelFault(Renumbered(bs[i], item).data)
  {
    if !HasKey(item, "number") then Outcome(bs, Some(KeyError))
    else
      var buf := Renumbered(bs[i], item);
      var rest := RemoveAt(bs, i);
      assert Valid(bs) ==> Valid(rest);
      match MoveTarget(rest, item)
      case Err(f) => Outcome(rest, Some(f))
      case Ok(j) =>
        var r := InsertBuffer(rest, j, buf);
        assert Valid(bs) ==> Valid(r.state);
        r
  }

  /** A move as written: `find_buffer_index_for_insert` raises for an
      unknown pointer and `insert_buffer` raises on a text `full_name`.
      Whenever it raises nothing it agrees with `MoveBuffer`, and it
      always leaves the list where `MoveBuffer` does or with the buffer
      taken out. */
  function MoveBufferAsWritten(bs: seq<BufferRec>, i: nat, item: Item): (r: Outcome<seq<BufferRec>>)
    requires i < |bs|
    ensures !r.Raised() ==> r == MoveBuffer(bs, i, item)
    ensures r.state == MoveBuffer(bs, i, item).state || (r.Raised() && r.state == RemoveAt(bs, i))
  {
    if !HasKey(item, "number") then Outcome(bs, Some(KeyError))
    else
      var buf := Renumbered(bs[i], item);
      var rest := RemoveAt(bs, i);
      match Field(item, "next_buffer")
      case Err(f) => Outcome(rest, Some(f))
      case Ok(next) =>
        match FindInsertIndexAsWritten(rest, next)
        case Err(f) => Outcome(rest, Some(f))
        case Ok(j) => InsertBufferAsWritten(rest, j, buf)
  }

  /** A buffer moved to the end with a numeric `number` and a text
      `full_name`: as written it is put back and then `AttributeError`
      disconnects; as intended the move completes. */
  lemma MovedThenFaults(bs: seq<BufferRec>, i: nat, item: Item, number: int, name: string)
    requires i < |bs|
    requires Get(item, "number") == Some(VInt(number)) && Get(item, "next_buffer") == Some(NULL_PTR)
    requires Get(bs[i].data, "full_name") == Some(VStr(name))
    ensures MoveBufferAsWritten(bs, i, item) == Outcome(RemoveAt(bs, i) + [Renumbered(bs[i], item)], Some(AttributeError))
    ensures MoveBuffer(bs, i, item) == Outcome(RemoveAt(bs, i) + [Renumbered(bs[i], item)], None)
  {
    var buf := Renumbered(bs[i], item);
    var rest := RemoveAt(bs, i);
    assert Get(buf.data, "number") == Some(VInt(number));
    assert Get(buf.data, "full_name") == Some(VStr(name));
    TextNameFaults(rest, |rest|, buf, number, name);
    assert rest[..|rest|] + [buf] + rest[|rest|..] == rest + [buf];
  }

  /** `_buffer_cleared`: the buffer's chat is emptied, nothing else
      changes. */
  function ClearChat(bs: seq<BufferRec>, i: nat): (r: seq<BufferRec>)
    requires i < |bs|
    ensures |r| == |bs| && r[i].chat == [] && r[i] == bs[i].(chat := r[i].chat)
    ensures forall j :: 0 <= j < |bs| && j != i ==> r[j] == bs[j]
    ensures Valid(bs) ==> Valid(r)
  {
    bs[i := bs[i].(chat := [])]
  }

  /** Copying fields other than `__path` never changes a buffer's
      pointer, whether or not the copy raises; no event copies
      `__path`. */
  lemma CopyKeepsPointer(bs: seq<BufferRec>, i: nat, item: Item, fs: seq<string>)
    requires i < |bs| && "__path" !in fs
    ensures Pointers(CopyFields(bs, i, item, fs).state) == Pointers(bs)
  {
    var r := CopyFields(bs, i, item, fs).state;
    assert Get(r[i].data, "__path") == Get(bs[i].data, "__path");
    PointersAgree(r, bs);
  }

  /** Lists whose buffers have the same pointers, position by position,
      have the same pointers. */
  lemma {:induction false} PointersAgree(a: seq<BufferRec>, b: seq<BufferRec>)
    requires |a| == |b|
    requires forall k :: 0 <= k < |a| ==> Buffer.Pointer(a[k].data) == Buffer.Pointer(b[k].data)
    ensures Pointers(a) == Pointers(b)
    decreases |a|
  {
    if |a| > 0 {
      PointersAgree(a[1..], b[1..]);
    }
  }

  /** One buffer event, on the buffer its pointer names: a move, clearing,
      closing, or else the copy of the event's fields. Unknown buffers are
      ignored, and every outcome keeps the nicklists valid. Only a close,
      or a move that raised after taking its buffer out, shortens the
      list. */
  function EventOne(bs: seq<BufferRec>, msgid: string, item: Item): (r: Outcome<seq<BufferRec>>)
    requires Valid(bs)
    ensures Valid(r.state)
    ensures |r.state| <= |bs| <= |r.state| + 1
    ensures |r.state| < |bs| ==> msgid == BUFFER_CLOSING || (IsMove(msgid) && r.Raised())
    ensures Locate(bs, PathHead(item)).Err? ==> r == Outcome(bs, Some(Locate(bs, PathHead(item)).fault))
    ensures Locate(bs, PathHead(item)) == Ok(None) ==> r == Outcome(bs, None)
  {
    match Locate(bs, PathHead(item))
    case Err(f) => Outcome(bs, Some(f))
    case Ok(None) => Outcome(bs, None)
    case Ok(Some(i)) =>
      if IsMove(msgid) then MoveBuffer(bs, i, item)
      else if msgid == BUFFER_CLEARED then Outcome(ClearChat(bs, i), None)
      else if msgid == BUFFER_CLOSING then Outcome(RemoveAt(bs, i), None)
      else CopyFields(bs, i, item, CopiedFields(msgid))
  }

  function EventItems(bs: seq<BufferRec>, msgid: string, items: seq<Item>): (r: Outcome<seq<BufferRec>>)
    requires Valid(bs)
    ensures Valid(r.state) && |r.state| <= |bs|
    ensures msgid != BUFFER_CLOSING && !IsMove(msgid) ==> |r.state| == |bs|
    ensures msgid != BUFFER_CLOSING && !r.Raised() ==> |r.state| == |bs|
    decreases |items|
  {
    if |items| == 0 then Outcome(bs, None)
    else
      var o := EventOne(bs, msgid, items[0]);
      if o.Raised() then o else EventItems(o.state, msgid, items[1..])
  }

  /** `_parse_buffer`: each item of each buffer hdata is one event for
      the buffer its path names. The events applied before an exception
      stay applied. */
  function BufferEvents(bs: seq<BufferRec>, msgid: string, objs: seq<Protocol.Obj>): (r: Outcome<seq<BufferRec>>)
    requires Valid(bs)
    ensures Valid(r.state) && |r.state| <= |bs|
    ensures msgid != BUFFER_CLOSING && !IsMove(msgid) ==> |r.state| == |bs|
    ensures msgid != BUFFER_CLOSING && !r.Raised() ==> |r.state| == |bs|
    decreases |objs|
  {
    if |objs| == 0 then Outcome(bs, None)
    else
      match HdataItems(objs[0], "buffer")
      case Err(f) => Outcome(bs, Some(f))
      case Ok(None) => BufferEvents(bs, msgid, objs[1..])
      case Ok(Some(items)) =>
        var o := EventItems(bs, msgid, items);
        if o.Raised() then o else BufferEvents(o.state, msgid, objs[1..])
  }
}

=== FILE: hexdump.dfy ===
/** `hex_and_ascii` (qweechat/weechat/protocol.py): the debug dump of a
    received message, one line per `bytes_per_line` bytes with the bytes
    in hexadecimal, a space, then the printable ones as characters. The
    last line is padded with the byte `x`. */
module HexDump {
  import opened Bytes
  import Text

  /** The padding byte, `b'x'`. */
  const PAD: byte := 0x78

  function HexUpper(n: nat): (c: char)
    requires n < 16
  {
    if n < 10 then ('0' as int + n) as char else ('A' as int + n - 10) as char
  }

  /** The value of an upper-case hexadecimal digit. */
  function HexValue(c: char): int {
    if '0' <= c <= '9' then c as int - '0' as int
    else if 'A' <= c <= 'F' then c as int - 'A' as int + 10
    else -1
  }

  /** `'%02X' % b`. */
  function Hex2(b: byte): (s: string)
    ensures |s| == 2
    ensures HexValue(s[0]) * 16 + HexValue(s[1]) == b
  {
    [HexUpper(b / 16), HexUpper(b % 16)]
  }

  /** The byte itself when 32 <= byte <= 127, otherwise '.'. */
  function Shown(b: byte): (c: char)
    ensures c != '\n'
  {
    if 32 <= b <= 127 then b as char else '.'
  }

  /** `data[index:index+1]`, or the padding byte past the end. */
  function ByteAt(data: bytes, index: nat): byte {
    if index < |data| then data[index] else PAD
  }

  /** `((len(data) - 1) // bytes_per_line) + 1`, Python's floor division
      agreeing with Dafny's for a positive divisor. */
  function NumLines(n: nat, perLine: nat): int
    requires perLine >= 1
  {
    (n - 1) / perLine + 1
  }

  /** `b' '.join(str_hex)`: two digits per byte, one space between. */
  function HexPart(data: bytes, line: nat, perLine: nat): (s: string)
    requires perLine >= 1
    ensures |s| == 3 * perLine - 1
    ensures forall p :: 0 <= p < |s| ==> s[p] != '\n'
  {
    seq(3 * perLine - 1, p requires 0 <= p < 3 * perLine - 1 =>
      if p % 3 == 2 then ' ' else Hex2(ByteAt(data, line * perLine + p / 3))[p % 3])
  }

  function AsciiPart(data: bytes, line: nat, perLine: nat): (s: string)
    ensures |s| == perLine
    ensures forall j :: 0 <= j < |s| ==> s[j] != '\n'
  {
    var s := seq(perLine, j requires 0 <= j < perLine => Shown(ByteAt(data, line * perLine + j)));
    assert forall j :: 0 <= j < perLine ==> s[j] == Shown(ByteAt(data, line * perLine + j));
    s
  }

  /** One line: the hex part (exactly as wide as the `%-Ns` field, so no
      extra padding), a space, the ascii part. */
  function Line(data: bytes, line: nat, perLine: nat): (s: string)
    requires perLine >= 1
    ensures |s| == 4 * perLine
    ensures '\n' !in s
  {
    var s := HexPart(data, line, perLine) + " " + AsciiPart(data, line, perLine);
    assert forall p :: 0 <= p < |s| ==> s[p] != '\n';
    s
  }

  function Lines(data: bytes, perLine: nat): (ls: seq<string>)
    requires perLine >= 1
    ensures |data| > 0 ==> |ls| == NumLines(|data|, perLine)
    ensures |data| == 0 ==> ls == []
  {
    if |data| == 0 then []
    else seq(NumLines(|data|, perLine), i requires 0 <= i => Line(data, i, perLine))
  }

  /** `hex_and_ascii(data, bytes_per_line)`. */
  function HexAndAscii(data: bytes, perLine: nat): (r: string)
    requires perLine >= 1
    ensures |data| == 0 ==> r == ""
    ensures |data| > 0 ==> Text.Split(r, '\n') == Lines(data, perLine)
  {
    var ls := Lines(data, perLine);
    if |data| == 0 then Text.Join(ls, "\n")
    else
      LinesCover(|data|, perLine);
      Text.SplitJoin(ls, '\n');
      Text.Join(ls, "\n")
  }

  /** There are just enough lines for the data: the last one holds the
      last byte, and fewer lines would not. */
  lemma LinesCover(n: nat, perLine: nat)
    requires perLine >= 1 && n > 0
    ensures (NumLines(n, perLine) - 1) * perLine < n <= NumLines(n, perLine) * perLine
  {
    var q := (n - 1) / perLine;
    assert q * perLine <= n - 1 < q * perLine + perLine;
  }

  /** Division by a positive number is monotonic. */
  lemma DivMonotonic(a: nat, b: nat, d: nat)
    requires d >= 1 && a <= b
    ensures a / d <= b / d
  {
    var qa, qb := a / d, b / d;
    assert qa * d <= a;
    assert b < qb * d + d;
    MulMonotonic(qb + 1, qa, d);
  }

  /** Multiplying by a natural number keeps the order of two integers. */
  lemma MulMonotonic(x: int, y: int, d: nat)
    ensures x <= y ==> x * d <= y * d
  {
    if x <= y {
      assert y * d - x * d == (y - x) * d;
    }
  }

  /** Byte `k` is on an existing line. */
  lemma LineExists(n: nat, perLine: nat, k: nat)
    requires perLine >= 1 && k < n
    ensures k / perLine < NumLines(n, perLine)
  {
    DivMonotonic(k, n - 1, perLine);
  }

  /** The hex digits of the `j`-th byte of a line. */
  lemma HexColumn(data: bytes, line: nat, perLine: nat, j: nat)
    requires perLine >= 1 && j < perLine
    ensures var h := HexPart(data, line, perLine);
      HexValue(h[3 * j]) * 16 + HexValue(h[3 * j + 1]) == ByteAt(data, line * perLine + j)
  {
    var h := HexPart(data, line, perLine);
    var x := Hex2(ByteAt(data, line * perLine + j));
    assert (3 * j) / 3 == j && (3 * j) % 3 == 0;
    assert (3 * j + 1) / 3 == j && (3 * j + 1) % 3 == 1;
    assert h[3 * j] == x[0] && h[3 * j + 1] == x[1];
  }

  /** Every byte of the data can be read back from the dump: the two hex
      digits of byte `k` sit on line `k / bytes_per_line` at column
      `3 * (k % bytes_per_line)`, and the ascii column shows it. */
  lemma DumpShowsByte(data: bytes, perLine: nat, k: nat)
    requires perLine >= 1 && k < |data|
    ensures var ls := Lines(data, perLine);
      var i, j := k / perLine, k % perLine;
      && i < |ls|
      && HexValue(ls[i][3 * j]) * 16 + HexValue(ls[i][3 * j + 1]) == data[k]
      && ls[i][3 * perLine + j] == Shown(data[k])
  {
    var i, j := k / perLine, k % perLine;
    LineExists(|data|, perLine, k);
    assert i * perLine + j == k;
    HexColumn(data, i, perLine, j);
    var line := Line(data, i, perLine);
    var h := HexPart(data, i, perLine);
    assert line == h + " " + AsciiPart(data, i, perLine);
    assert line[3 * j] == h[3 * j] && line[3 * j + 1] == h[3 * j + 1];
    assert line[3 * perLine + j] == AsciiPart(data, i, perLine)[j];
  }

  /** The dump splits back into its lines, one per `bytes_per_line`
      bytes. */
  lemma DumpSplits(data: bytes, perLine: nat)
    requires perLine >= 1 && |data| > 0
    ensures Text.Split(HexAndAscii(data, perLine), '\n') == Lines(data, perLine)
  {
    var ls := Lines(data, perLine);
    LinesCover(|data|, perLine);
    Text.SplitJoin(ls, '\n');
  }
}

=== FILE: history.dfy ===
/** The chat input line's history (qweechat/input.py): lines sent with
    Return are remembered, and Up/Down walk through them the way the
    curses client does. Qt's own handling of a key is a parameter: the
    cursor position it leaves behind. */
module History {
  import opened Results

  /** The input line: the remembered lines, the history index (-1 before
      anything was sent), the text shown and the cursor position in it. */
  datatype Input = Input(entries: seq<string>, index: int, text: string, cursor: nat)

  /** A fresh input line. */
  const INITIAL: Input := Input([], -1, "", 0)

  /** What every reachable input line satisfies: the index lies between -1
      and one past the last entry, and is -1 only while nothing was
      remembered. */
  predicate Valid(s: Input)
  {
    -1 <= s.index <= |s.entries| && (s.index < 0 ==> |s.entries| == 0)
  }

  /** The line shows what the index points at: an entry with the cursor at
      its end, or the empty line one past the last entry. */
  predicate Synced(s: Input)
  {
    && 0 <= s.index <= |s.entries|
    && s.text == (if s.index == |s.entries| then "" else s.entries[s.index])
    && s.cursor == |s.text|
  }

  /** `_history_navigate`: move the index by `direction`. Below the first
      entry the index stays at 0 and the line is untouched; past the last
      one the line is cleared; otherwise the entry is shown. */
  function Navigate(s: Input, direction: int): (r: Input)
    requires direction == -1 || direction == 1
    ensures r.entries == s.entries
    ensures |s.entries| == 0 ==> r == s
    ensures |s.entries| > 0 ==> 0 <= r.index <= |s.entries|
    ensures |s.entries| > 0 && s.index + direction >= 0 ==> Synced(r)
    ensures s.index + direction < 0 ==> r.text == s.text && r.cursor == s.cursor
  {
    if |s.entries| == 0 then s
    else
      var i := s.index + direction;
      if i < 0 then s.(index := 0)
      else if i > |s.entries| - 1 then s.(index := |s.entries|, text := "", cursor := 0)
      else s.(index := i, text := s.entries[i], cursor := |s.entries[i]|)
  }

  /** `_input_return_pressed`: remember the line, point one past it,
      clear the line; the second component is the text sent. */
  function ReturnPressed(s: Input): (r: (Input, string))
    ensures r.1 == s.text
    ensures r.0.entries == s.entries + [s.text]
    ensures Synced(r.0) && r.0.index == |r.0.entries|
  {
    var entries := s.entries + [s.text];
    (Input(entries, |entries|, "", 0), s.text)
  }

  /** Up with the cursor unmoved, as intended: at the end of the history a
      non-empty line is remembered before stepping back, so it is not
      lost. */
  function Up(s: Input): (r: Input)
    ensures s.text != "" && s.index == |s.entries| ==> r.entries == s.entries + [s.text]
    ensures s.text == "" || s.index != |s.entries| ==> r.entries == s.entries
  {
    var saved := if s.text != "" && |s.entries| == s.index then s.(entries := s.entries + [s.text]) else s;
    Navigate(saved, -1)
  }

  /** Up as written: the line is encoded to bytes before it is compared
      with the empty str, so the comparison never finds them equal and an
      empty line is remembered too. */
  function UpAsWritten(s: Input): (r: Input)
    ensures s.index == |s.entries| ==> r.entries == s.entries + [s.text]
    ensures s.index != |s.entries| ==> r.entries == s.entries
    ensures s.text != "" ==> r == Up(s)
  {
    var saved := if |s.entries| == s.index then s.(entries := s.entries + [s.text]) else s;
    Navigate(saved, -1)
  }

  /** Down with the cursor unmoved. */
  function Down(s: Input): (r: Input)
    ensures r.entries == s.entries
  {
    Navigate(s, 1)
  }

  /** The keys the input line handles itself. */
  datatype Key = KeyUp | KeyDown | KeyReturn

  /** The history part of `keyPressEvent`: Up and Down first go to Qt,
      which may move the cursor to `after`; only when it stays put do they
      walk the history. Return sends the line. */
  function KeyPress(s: Input, key: Key, after: nat): (r: (Input, Option<string>))
    ensures r.1.Some? <==> key == KeyReturn
    ensures r.1.Some? ==> r.1.value == s.text && r.0.text == ""
    ensures key != KeyReturn && after != s.cursor ==> r.0 == s.(cursor := after)
    ensures |r.0.entries| <= |s.entries| + 1
  {
    match key
    case KeyReturn => var (t, sent) := ReturnPressed(s); (t, Some(sent))
    case _ =>
      if after != s.cursor then (s.(cursor := after), None)
      else if key == KeyUp then (Up(s), None)
      else (Down(s), None)
  }

  /** The fresh line is valid, and every key keeps it valid. */
  lemma KeyPressValid(s: Input, key: Key, after: nat)
    requires Valid(s)
    ensures Valid(INITIAL)
    ensures Valid(KeyPress(s, key, after).0)
  {
    if key == KeyUp && after == s.cursor {
      var saved := if s.text != "" && |s.entries| == s.index then s.(entries := s.entries + [s.text]) else s;
      assert Valid(saved);
    }
  }

  /** Once something is remembered, any walk through the history ends
      showing exactly what the index points at, unless it bumped into the
      first entry. */
  lemma NavigateSyncs(s: Input, direction: int)
    requires direction == -1 || direction == 1
    requires Synced(s) && |s.entries| > 0
    ensures Synced(Navigate(s, direction))
  {
  }

  /** Down undoes Up and Up undoes Down, anywhere inside the history. */
  lemma NavigateInverse(s: Input)
    requires Synced(s)
    ensures 0 < s.index ==> Navigate(Navigate(s, -1), 1) == s
    ensures s.index < |s.entries| ==> Navigate(Navigate(s, 1), -1) == s
  {
  }

  /** The line just sent comes back with Up. */
  lemma ReturnThenUpRecalls(s: Input)
    ensures var t := Up(ReturnPressed(s).0);
      t.text == s.text && t.cursor == |s.text| && t.entries == s.entries + [s.text]
  {
  }

  /** Text typed at the end of the history survives Up then Down: it was
      remembered on the way up and is shown again on the way down. */
  lemma UpDownKeepsTyping(s: Input)
    requires Valid(s) && s.index == |s.entries| && |s.entries| > 0 && s.text != ""
    ensures var t := Down(Up(s));
      t.text == s.text && t.entries == s.entries + [s.text] && t.index == |s.entries|
  {
  }

  /** Up as intended never remembers an empty line. */
  lemma UpRemembersOnlyText(s: Input)
    ensures var r := Up(s);
      r.entries == s.entries || (r.entries == s.entries + [s.text] && s.text != "")
  {
  }

  /** Up as written on an empty line at the end of the history remembers
      the empty line: with one line sent, Up then Down shows an empty entry
      instead of the fresh line, and the history has grown. */
  lemma EmptyLineRemembered()
    ensures UpAsWritten(Input(["a"], 1, "", 0)) == Input(["a", ""], 0, "a", 1)
    ensures Up(Input(["a"], 1, "", 0)) == Input(["a"], 0, "a", 1)
    ensures Down(UpAsWritten(Input(["a"], 1, "", 0))) == Input(["a", ""], 1, "", 0)
  {
  }
}

=== FILE: network.dfy ===
/** The client's side of the relay connection: `Network` in
    qweechat/network.py. The Qt socket is reduced to its state, a write to
    it is an entry appended to `sent`, and each `statusChanged` signal is
    an entry appended to `statuses`. Incoming bytes go through the framer
    of module `Framer`. */
module Network {
  import opened Results
  import opened Bytes
  import opened Text
  import PyInt
  import Utf8
  import Framer
  import Protocol

  /** `config.CONFIG_DEFAULT_RELAY_LINES`. */
  const DEFAULT_LINES: int := 50

  const STATUS_DISCONNECTED: string := "disconnected"
  const STATUS_CONNECTING: string := "connecting..."
  const STATUS_CONNECTED: string := "connected"

  /** The socket states the client tells apart; Qt's host-lookup,
      connecting, bound and closing states are all `Busy`. */
  datatype SocketState = Unconnected | Busy | Connected

  /** One `statusChanged` signal: the status and its optional detail. */
  datatype StatusChange = StatusChange(status: string, detail: Option<string>)

  /** The fields of a `Network` object, plus what it has written, signalled
      and emitted. */
  datatype Session = Session(
    server: Option<string>,
    port: Option<int>,
    ssl: Option<bool>,
    password: Option<string>,
    lines: int,
    buffer: bytes,
    socket: SocketState,
    sent: seq<bytes>,
    statuses: seq<StatusChange>,
    received: seq<bytes>)

  /** `Network.__init__`. */
  function NewSession(): (s: Session)
    ensures s.socket == Unconnected && s.lines == DEFAULT_LINES
    ensures s.server.None? && s.port.None? && s.ssl.None? && s.password.None?
    ensures s.buffer == [] && s.sent == [] && s.statuses == [] && s.received == []
  {
    Session(None, None, None, None, DEFAULT_LINES, [], Unconnected, [], [], [])
  }

  /** `_PROTO_INIT_CMD` with the password substituted. */
  function InitCommand(password: string): string {
    "init password=" + password
  }

  /** The first sync command: every buffer with the fields the buffer
      list needs. */
  const LIST_BUFFERS: string :=
    "(listbuffers) " + "hdata buffer:" + "gui_buffers(*) " + "number,full_name,"
    + "short_name,type," + "nicklist,title," + "local_variables"

  /** The start of the second sync command, up to the line count. */
  const LIST_LINES_HEAD: string :=
    "(listlines) " + "hdata buffer:" + "gui_buffers(*)/" + "own_lines/" + "last_line(-"

  /** The end of the second sync command, after the line count. */
  const LIST_LINES_TAIL: string := ")/data " + "date,displayed," + "prefix,message"

  /** `_PROTO_SYNC_CMDS`, with `lines` standing where the template has
      its `%(lines)d` placeholder. */
  function SyncCommands(lines: string): seq<string> {
    [LIST_BUFFERS, LIST_LINES_HEAD + lines + LIST_LINES_TAIL, "(nicklist) nicklist", "sync", ""]
  }

  /** The placeholder as it stands in the template. */
  const LINES_PLACEHOLDER: string := "%(lines)d"

  /** The batch sent once connected: the init command, then the sync
      commands with the line count written in decimal, one per line. */
  function Batch(password: string, lines: int): string {
    Join([InitCommand(password)] + SyncCommands(PyInt.Render(lines)), "\n")
  }

  /** `send_to_weechat`: the message is written UTF-8 encoded. */
  function Send(s: Session, message: string): (r: Session)
    ensures |r.sent| == |s.sent| + 1 && r.sent[..|s.sent|] == s.sent
    ensures Utf8.Decode(r.sent[|s.sent|]) == Some(message)
    ensures r.(sent := s.sent) == s
  {
    Utf8.DecodeEncode(message);
    s.(sent := s.sent + [Utf8.Encode(message)])
  }

  /** `is_connected`. */
  predicate IsConnected(s: Session) {
    s.socket == Connected
  }

  /** `_socket_connected`: report the connection, then send the batch when
      a password is set (an empty password sends nothing). */
  function SocketConnected(s: Session): (r: Session)
    ensures r.socket == Connected
    ensures r.statuses == s.statuses + [StatusChange(STATUS_CONNECTED, None)]
    ensures s.password.Some? && s.password.value != "" ==>
      r.sent == s.sent + [Utf8.Encode(Batch(s.password.value, s.lines))]
    ensures (s.password.None? || s.password.value == "") ==> r.sent == s.sent
  {
    var t := s.(socket := Connected, statuses := s.statuses + [StatusChange(STATUS_CONNECTED, None)]);
    if s.password.Some? && s.password.value != "" then Send(t, Batch(s.password.value, s.lines))
    else t
  }

  /** `_socket_error`: report the failure with the socket's error text. */
  function SocketError(s: Session, errorString: string): (r: Session)
    ensures r.statuses == s.statuses + [StatusChange(STATUS_DISCONNECTED, Some("Failed, error: " + errorString))]
    ensures r.(statuses := s.statuses) == s
  {
    s.(statuses := s.statuses + [StatusChange(STATUS_DISCONNECTED, Some("Failed, error: " + errorString))])
  }

  /** What `_socket_read` does with the framer's outcome `d`: each
      message cut is emitted, the rest is kept, and a handler that
      disconnected leaves the socket unconnected. */
  function Emit(s: Session, d: Framer.Drained): (r: Session)
    ensures r.received == s.received + d.frames && r.buffer == d.buffer
    ensures d.status == Framer.Stopped ==> r.socket == Unconnected
    ensures d.status != Framer.Stopped ==> r.socket == s.socket
    ensures r.(received := s.received, buffer := s.buffer, socket := s.socket) == s
  {
    s.(received := s.received + d.frames,
       buffer := d.buffer,
       socket := if d.status == Framer.Stopped then Unconnected else s.socket)
  }

  /** `_socket_read`: the received bytes go to the framer; each message
      it cuts is emitted. `stays(k)` says whether the connection is still
      up after the `k`-th message of this read was handled. */
  function SocketRead(s: Session, data: bytes, stays: nat -> bool): (r: Session)
    ensures var d := Framer.SocketRead(s.buffer, data, stays);
      && r.received == s.received + d.frames
      && (d.status != Framer.Stopped ==> Framer.Concat(d.frames) + r.buffer == s.buffer + data)
      && (d.status == Framer.Stopped ==> !IsConnected(r) && r.buffer == [])
  {
    Emit(s, Framer.SocketRead(s.buffer, data, stays))
  }

  /** `_socket_read` as written: a handler that disconnects leaves its
      message in the buffer. */
  function SocketReadAsWritten(s: Session, data: bytes, stays: nat -> bool): (r: Session)
    ensures var d := Framer.SocketReadAsWritten(s.buffer, data, stays);
      && r.received == s.received + d.frames
      && r.buffer == d.buffer
      && (d.status != Framer.Stopped ==> Framer.Concat(d.frames) + r.buffer == s.buffer + data)
      && (d.status == Framer.Stopped ==> !IsConnected(r))
  {
    Emit(s, Framer.SocketReadAsWritten(s.buffer, data, stays))
  }

  /** `_socket_disconnected`: the server options are forgotten; the line
      count and the framer's buffer are kept. */
  function SocketDisconnected(s: Session): (r: Session)
    ensures r.server.None? && r.port.None? && r.ssl.None? && r.password.None?
    ensures r.lines == s.lines && r.buffer == s.buffer && r.socket == s.socket
    ensures r.statuses == s.statuses + [StatusChange(STATUS_DISCONNECTED, None)]
  {
    s.(server := None, port := None, ssl := None, password := None,
       statuses := s.statuses + [StatusChange(STATUS_DISCONNECTED, None)])
  }

  /** `int(text)`, or `fallback` where `int` raises `ValueError`. */
  function IntOr(text: string, fallback: int): (n: int)
    ensures PyInt.Parse(PyInt.OfStr, text).Some? ==> n == PyInt.Parse(PyInt.OfStr, text).value
    ensures PyInt.Parse(PyInt.OfStr, text).None? ==> n == fallback
  {
    match PyInt.Parse(PyInt.OfStr, text)
    case Some(n) => n
    case None => fallback
  }

  /** `connect_weechat`: store the options (a port that is not an integer
      becomes 0, a line count that is not one becomes the default), then,
      unless already connected, abort whatever the socket is doing and
      start connecting. */
  function ConnectWeechat(s: Session, server: string, port: string, ssl: bool, password: string, lines: string): (r: Session)
    ensures r.server == Some(server) && r.ssl == Some(ssl) && r.password == Some(password)
    ensures PyInt.Parse(PyInt.OfStr, port).None? ==> r.port == Some(0)
    ensures PyInt.Parse(PyInt.OfStr, port).Some? ==> r.port == PyInt.Parse(PyInt.OfStr, port)
    ensures PyInt.Parse(PyInt.OfStr, lines).None? ==> r.lines == DEFAULT_LINES
    ensures PyInt.Parse(PyInt.OfStr, lines).Some? ==> r.lines == PyInt.Parse(PyInt.OfStr, lines).value
    ensures s.socket == Connected ==> r.socket == Connected && r.statuses == s.statuses
    ensures s.socket != Connected ==> r.socket == Busy && r.statuses == s.statuses + [StatusChange(STATUS_CONNECTING, None)]
    ensures r.sent == s.sent && r.buffer == s.buffer && r.received == s.received
  {
    var t := s.(server := Some(server), port := Some(IntOr(port, 0)), ssl := Some(ssl),
                password := Some(password), lines := IntOr(lines, DEFAULT_LINES));
    if t.socket == Connected then t
    else t.(socket := Busy, statuses := t.statuses + [StatusChange(STATUS_CONNECTING, None)])
  }

  /** `disconnect_weechat`: nothing when unconnected; a connected socket
      is sent `quit` first, otherwise the disconnection is reported. The
      socket is then aborted. Aborting a connected socket emits Qt's
      `disconnected` signal, which runs `_socket_disconnected`; aborting
      one that is still connecting does not. Either way exactly one
      disconnected status is emitted. */
  function DisconnectWeechat(s: Session): (r: Session)
    ensures s.socket == Unconnected ==> r == s
    ensures r.socket == Unconnected
    ensures s.socket != Unconnected ==> r.statuses == s.statuses + [StatusChange(STATUS_DISCONNECTED, None)]
    ensures s.socket == Connected ==>
      && r.sent == s.sent + [Utf8.Encode("quit\n")]
      && r.server.None? && r.port.None? && r.ssl.None? && r.password.None?
    ensures s.socket == Busy ==>
      && r.sent == s.sent
      && r.server == s.server && r.port == s.port && r.ssl == s.ssl && r.password == s.password
    ensures r.buffer == s.buffer && r.lines == s.lines && r.received == s.received
  {
    if s.socket == Unconnected then s
    else if s.socket == Connected then SocketDisconnected(Send(s, "quit\n").(socket := Unconnected))
    else s.(statuses := s.statuses + [StatusChange(STATUS_DISCONNECTED, None)], socket := Unconnected)
  }

  /** `desync_weechat`. */
  function Desync(s: Session): (r: Session)
    ensures |r.sent| == |s.sent| + 1 && r.sent[..|s.sent|] == s.sent
    ensures Utf8.Decode(r.sent[|s.sent|]) == Some("desync\n")
  {
    Send(s, "desync\n")
  }

  /** `sync_weechat`, as written: the sync commands are joined without
      the `%` substitution, so the placeholder itself is sent. */
  function Sync(s: Session): (r: Session)
    ensures |r.sent| == |s.sent| + 1 && r.sent[..|s.sent|] == s.sent
    ensures Utf8.Decode(r.sent[|s.sent|]) == Some(Join(SyncCommands(LINES_PLACEHOLDER), "\n"))
  {
    Send(s, Join(SyncCommands(LINES_PLACEHOLDER), "\n"))
  }

  /** `sync_weechat` with the line count substituted, as the connection
      batch does. */
  function SyncFixed(s: Session): (r: Session)
    ensures |r.sent| == |s.sent| + 1 && r.sent[..|s.sent|] == s.sent
    ensures Utf8.Decode(r.sent[|s.sent|]) == Some(Join(SyncCommands(PyInt.Render(s.lines)), "\n"))
  {
    Send(s, Join(SyncCommands(PyInt.Render(s.lines)), "\n"))
  }

  /** What `get_options` returns. */
  datatype OptionsView = OptionsView(server: Option<string>, port: Option<int>, ssl: string, password: Option<string>, lines: string)

  /** `get_options`: ssl as 'on'/'off', the line count as decimal text. */
  function GetOptions(s: Session): (o: OptionsView)
    ensures o.ssl == "on" <==> s.ssl == Some(true)
    ensures o.ssl == "on" || o.ssl == "off"
    ensures PyInt.Parse(PyInt.OfStr, o.lines) == Some(s.lines)
    ensures o.server == s.server && o.port == s.port && o.password == s.password
  {
    PyInt.ParseRender(PyInt.OfStr, s.lines);
    OptionsView(s.server, s.port, if s.ssl == Some(true) then "on" else "off", s.password, PyInt.Render(s.lines))
  }

  // ---------------------------------------------------------------------
  // Properties

  lemma NoNewlineInRender(n: int)
    ensures '\n' !in PyInt.Render(n)
  {
    var s := PyInt.Render(n);
    assert forall i :: 0 <= i < |s| ==> s[i] != '\n';
  }

  predicate OneLine(s: string) {
    forall i :: 0 <= i < |s| ==> s[i] != '\n'
  }

  lemma OneLineConcat(a: string, b: string)
    requires OneLine(a) && OneLine(b)
    ensures OneLine(a + b)
  {
  }

  /** The literal pieces of the sync commands hold no newline. */
  lemma LiteralsOneLine()
    ensures OneLine("(listbuffers) ") && OneLine("hdata buffer:") && OneLine("gui_buffers(*) ")
    ensures OneLine("number,full_name,") && OneLine("short_name,type,") && OneLine("nicklist,title,")
    ensures OneLine("local_variables") && OneLine("(listlines) ") && OneLine("gui_buffers(*)/")
    ensures OneLine("own_lines/") && OneLine("last_line(-") && OneLine(")/data ")
    ensures OneLine("date,displayed,") && OneLine("prefix,message") && OneLine("(nicklist) nicklist")
    ensures OneLine("sync")
  {
  }

  lemma NoNewlineInSync(lines: string)
    requires '\n' !in lines
    ensures forall i :: 0 <= i < |SyncCommands(lines)| ==> '\n' !in SyncCommands(lines)[i]
  {
    LiteralsOneLine();
    var a := "(listbuffers) " + "hdata buffer:";
    OneLineConcat("(listbuffers) ", "hdata buffer:");
    OneLineConcat(a, "gui_buffers(*) ");
    OneLineConcat(a + "gui_buffers(*) ", "number,full_name,");
    OneLineConcat(a + "gui_buffers(*) " + "number,full_name,", "short_name,type,");
    OneLineConcat(a + "gui_buffers(*) " + "number,full_name," + "short_name,type,", "nicklist,title,");
    OneLineConcat(a + "gui_buffers(*) " + "number,full_name," + "short_name,type," + "nicklist,title,", "local_variables");
    var h := "(listlines) " + "hdata buffer:";
    OneLineConcat("(listlines) ", "hdata buffer:");
    OneLineConcat(h, "gui_buffers(*)/");
    OneLineConcat(h + "gui_buffers(*)/", "own_lines/");
    OneLineConcat(h + "gui_buffers(*)/" + "own_lines/", "last_line(-");
    OneLineConcat(LIST_LINES_HEAD, lines);
    OneLineConcat(")/data ", "date,displayed,");
    OneLineConcat(")/data " + "date,displayed,", "prefix,message");
    OneLineConcat(LIST_LINES_HEAD + lines, LIST_LINES_TAIL);
  }

  /** The connection batch is exactly the init command and the five sync
      entries, one per line, the last one empty so that the batch ends
      with a newline; the password is taken verbatim (a password holding a
      newline would split the init command). */
  lemma BatchLines(password: string, lines: int)
    requires '\n' !in password
    ensures Split(Batch(password, lines), '\n') == [InitCommand(password)] + SyncCommands(PyInt.Render(lines))
    ensures var b := Batch(password, lines); |b| > 0 && b[|b| - 1] == '\n'
  {
    var parts := [InitCommand(password)] + SyncCommands(PyInt.Render(lines));
    NoNewlineInRender(lines);
    NoNewlineInSync(PyInt.Render(lines));
    assert '\n' !in InitCommand(password) by {
      assert InitCommand(password) == "init password=" + password;
    }
    assert forall i :: 1 <= i < |parts| ==> parts[i] == SyncCommands(PyInt.Render(lines))[i - 1];
    SplitJoin(parts, '\n');
    JoinEndsEmpty(parts);
  }

  /** Joining pieces whose last one is empty ends with the separator. */
  lemma {:induction false} JoinEndsEmpty(parts: seq<string>)
    requires |parts| >= 2 && parts[|parts| - 1] == ""
    ensures var j := Join(parts, "\n"); |j| > 0 && j[|j| - 1] == '\n'
    decreases |parts|
  {
    if |parts| == 2 {
      assert Join(parts, "\n") == parts[0] + "\n" + Join(parts[1..], "\n");
    } else {
      JoinEndsEmpty(parts[1..]);
    }
  }

  /** As written, `sync_weechat` never carries the line count: for every
      count the commands it sends differ from the ones the connection
      batch sends. */
  lemma SyncIsLiteral(s: Session)
    ensures forall n: int :: SyncCommands(PyInt.Render(n)) != SyncCommands(LINES_PLACEHOLDER)
    ensures Utf8.Decode(Sync(s).sent[|s.sent|]) == Some(Join(SyncCommands(LINES_PLACEHOLDER), "\n"))
  {
    forall n: int ensures SyncCommands(PyInt.Render(n)) != SyncCommands(LINES_PLACEHOLDER) {
      var r := PyInt.Render(n);
      var k := |LIST_LINES_HEAD|;
      var x := SyncCommands(r)[1];
      var y := SyncCommands(LINES_PLACEHOLDER)[1];
      assert x[k] == r[0];
      assert y[k] == '%';
      assert r[0] == '-' || PyInt.IsDigit(r[0]);
    }
  }

  /** With the fix, a re-sync asks for the same lines as the connection
      batch. */
  lemma SyncFixedMatchesBatch(s: Session, password: string)
    requires '\n' !in password
    ensures Split(Batch(password, s.lines), '\n')[1..] == SyncCommands(PyInt.Render(s.lines))
    ensures Utf8.Decode(SyncFixed(s).sent[|s.sent|]) == Some(Join(SyncCommands(PyInt.Render(s.lines)), "\n"))
  {
    BatchLines(password, s.lines);
  }

  /** Saving the options and connecting with them again restores the
      port and the line count, even from a disconnected session. */
  lemma OptionsRoundTrip(s: Session, server: string, password: string)
    requires s.port.Some?
    ensures var o := GetOptions(s);
      var r := ConnectWeechat(s, server, PyInt.Render(s.port.value), o.ssl == "on", password, o.lines);
      r.port == s.port && r.lines == s.lines && r.ssl == Some(s.ssl == Some(true))
  {
    PyInt.ParseRender(PyInt.OfStr, s.port.value);
    PyInt.ParseRender(PyInt.OfStr, s.lines);
  }

  /** A disconnection between two connections keeps the line count but
      drops the password: connecting again without one sends nothing. */
  lemma ReconnectNeedsPassword(s: Session)
    ensures var r := SocketConnected(SocketDisconnected(s));
      r.sent == s.sent && r.lines == s.lines
  {
  }

  /** A message that does not decode: twelve bytes announcing their own
      length, no compression, an empty message id and an object of the
      unknown type "xyz". */
  const POISON: bytes := [0, 0, 0, 12, 0, 0, 0, 0, 0, 120, 121, 122]

  lemma PoisonFails(inflate: bytes -> Option<bytes>)
    ensures Protocol.Decode(POISON, inflate) == Err(KeyError)
  {
    var d := POISON;
    assert Protocol.Uncompress(d, inflate) == Ok(d) by {
      assert Signed8(d[4]) == 0;
    }
    assert Protocol.ReadStr(d[5..]) == Ok(Protocol.Read("", [120, 121, 122])) by {
      assert d[5..][..4] == [0, 0, 0, 0];
      assert BE32([0, 0, 0, 0]) == 0;
      assert d[5..][4..] == [120, 121, 122];
    }
    UnknownObject();
  }

  /** Three bytes naming no type fail the dispatch-table lookup. */
  lemma UnknownObject()
    ensures Protocol.ReadObjects([120, 121, 122]) == Err(KeyError)
  {
    var b: bytes := [120, 121, 122];
    assert Utf8.Decode(b) == Some("xyz") by {
      assert Utf8.IsAscii("xyz");
      Utf8.DecodeAscii("xyz");
      assert Octets("xyz") == b;
    }
    assert Protocol.ReadType(b) == Ok(Protocol.Read("xyz", [])) by {
      assert b[..3] == b && b[3..] == [];
    }
    assert Protocol.Lookup("xyz").None? by {
      assert forall t :: Protocol.TagName(t)[0] != 'x';
    }
  }

  /** As written, a message whose decoding fails makes the client
      disconnect while the message is still in the buffer; the first read
      on the next connection emits it again, so it fails again. */
  lemma PoisonReplayed(s: Session, data: bytes, stays: nat -> bool)
    requires s.buffer == [] && IsConnected(s)
    ensures var r := SocketReadAsWritten(s, POISON, k => false);
      && r.received == s.received + [POISON]
      && !IsConnected(r)
      && SocketReadAsWritten(r, data, stays).received[|r.received|] == POISON
  {
    assert Framer.IsFrame(POISON) by {
      assert POISON[..4] == [0, 0, 0, 12];
      assert BE32([0, 0, 0, 12]) == 12;
    }
    assert [] + POISON == POISON;
    Framer.StaleFrameReplayed(POISON, data, k => false);
    Framer.CutFrame(POISON, data);
    var r := SocketReadAsWritten(s, POISON, k => false);
    assert r.buffer == POISON;
    if stays(0) {
      Framer.DrainCons(POISON, data, stays, 0);
    }
  }

  /** With the fix, the failed message is dropped with the connection:
      the next connection's first read emits only what it receives. */
  lemma PoisonDropped(s: Session, data: bytes, stays: nat -> bool)
    requires s.buffer == [] && IsConnected(s)
    ensures var r := SocketRead(s, POISON, k => false);
      && r.received == s.received + [POISON]
      && !IsConnected(r) && r.buffer == []
      && SocketRead(r, data, stays).received == r.received + Framer.SocketRead([], data, stays).frames
  {
    assert Framer.IsFrame(POISON) by {
      assert POISON[..4] == [0, 0, 0, 12];
      assert BE32([0, 0, 0, 12]) == 12;
    }
    assert [] + POISON == POISON;
    Framer.FixedStartsClean(POISON, data, k => false);
  }
}

=== FILE: odict.dfy ===
/** Insertion-ordered dictionaries: Python's `dict`/`OrderedDict` as the
    client uses them for hashtables, hdata items, infolist items and
    nicklists. Assigning to an existing key updates its value in place;
    a new key goes to the end. */
module ODict {
  import opened Results

  type Dict<K, V> = seq<(K, V)>

  predicate UniqueKeys<K(==, !new), V>(d: Dict<K, V>) {
    forall i, j :: 0 <= i < j < |d| ==> d[i].0 != d[j].0
  }

  predicate HasKey<K(==, !new), V>(d: Dict<K, V>, k: K) {
    exists i :: 0 <= i < |d| && d[i].0 == k
  }

  /** Position of the first entry with key `k`. */
  function IndexOf<K(==, !new), V>(d: Dict<K, V>, k: K): (r: Option<nat>)
    ensures r.None? <==> !HasKey(d, k)
    ensures r.Some? ==> r.value < |d| && d[r.value].0 == k
    ensures r.Some? ==> forall i :: 0 <= i < r.value ==> d[i].0 != k
  {
    if |d| == 0 then None
    else if d[0].0 == k then Some(0)
    else
      match IndexOf(d[1..], k)
      case None =>
        assert forall i :: 1 <= i < |d| ==> d[1..][i - 1] == d[i];
        None
      case Some(j) =>
        assert forall i :: 1 <= i < j + 1 ==> d[1..][i - 1] == d[i];
        Some(j + 1)
  }

  /** `d.get(k)`, with `None` for an absent key. */
  function Get<K(==, !new), V>(d: Dict<K, V>, k: K): (r: Option<V>)
    ensures r.None? <==> !HasKey(d, k)
  {
    match IndexOf(d, k)
    case None => None
    case Some(i) => Some(d[i].1)
  }

  /** `d[k] = v`. */
  function Put<K(==, !new), V>(d: Dict<K, V>, k: K, v: V): (r: Dict<K, V>)
    ensures Get(r, k) == Some(v)
    ensures forall k' :: k' != k ==> Get(r, k') == Get(d, k')
    ensures HasKey(d, k) ==> |r| == |d|
    ensures !HasKey(d, k) ==> r == d + [(k, v)]
    ensures UniqueKeys(d) ==> UniqueKeys(r)
  {
    match IndexOf(d, k)
    case None =>
      var r := d + [(k, v)];
      forall k' ensures IndexOf(r, k') == (if HasKey(d, k') then IndexOf(d, k') else if k == k' then Some(|d|) else None) {
        IndexOfAppend(d, (k, v), k');
      }
      r
    case Some(i) =>
      var r := d[i := (k, v)];
      assert forall j :: 0 <= j < i ==> r[j] == d[j];
      assert r[i] == (k, v);
      assert IndexOf(r, k) == Some(i);
      forall k' | k' != k ensures IndexOf(r, k') == IndexOf(d, k') {
        IndexOfUpdate(d, i, (k, v), k');
      }
      r
  }

  lemma IndexOfAppend<K(!new), V>(d: Dict<K, V>, e: (K, V), k: K)
    ensures IndexOf(d + [e], k) ==
      (if HasKey(d, k) then IndexOf(d, k) else if e.0 == k then Some(|d|) else None)
    decreases |d|
  {
    if |d| == 0 {
      assert (d + [e])[0] == e;
    } else if d[0].0 == k {
      assert (d + [e])[0] == d[0];
    } else {
      var t := d[1..];
      assert (d + [e])[0] == d[0];
      assert (d + [e])[1..] == t + [e];
      IndexOfAppend(t, e, k);
      HasKeyTail(d, k);
      assert IndexOf(d, k) == (if HasKey(t, k) then Some(IndexOf(t, k).value + 1) else None);
    }
  }

  /** Past a first entry with another key, the key is present exactly when
      it is present in the rest. */
  lemma HasKeyTail<K(!new), V>(d: Dict<K, V>, k: K)
    requires |d| > 0 && d[0].0 != k
    ensures HasKey(d, k) <==> HasKey(d[1..], k)
  {
    if HasKey(d, k) {
      var j :| 0 <= j < |d| && d[j].0 == k;
      assert d[1..][j - 1].0 == k;
    }
    if HasKey(d[1..], k) {
      var j :| 0 <= j < |d| - 1 && d[1..][j].0 == k;
      assert d[j + 1].0 == k;
    }
  }

  lemma IndexOfUpdate<K(!new), V>(d: Dict<K, V>, i: nat, e: (K, V), k: K)
    requires i < |d| && e.0 == d[i].0 && k != e.0
    ensures IndexOf(d[i := e], k) == IndexOf(d, k)
  {
    assert forall j :: 0 <= j < |d| ==> d[i := e][j].0 == d[j].0;
  }

  /** With unique keys, the entry at position `j` is what `Get` finds. */
  lemma GetAt<K(!new), V>(d: Dict<K, V>, j: nat)
    requires UniqueKeys(d) && j < |d|
    ensures Get(d, d[j].0) == Some(d[j].1)
  {
  }

  /** `del d[k]` for a present key; an absent key leaves `d` unchanged. */
  function Remove<K(==, !new), V>(d: Dict<K, V>, k: K): (r: Dict<K, V>)
    requires UniqueKeys(d)
    ensures UniqueKeys(r)
    ensures !HasKey(r, k)
    ensures forall k' :: k' != k ==> Get(r, k') == Get(d, k')
    ensures HasKey(d, k) ==> |r| == |d| - 1
    ensures !HasKey(d, k) ==> r == d
  {
    match IndexOf(d, k)
    case None => d
    case Some(i) =>
      DropAt(d, i);
      d[..i] + d[i + 1..]
  }

  /** Dropping the entry at `i` of a dictionary with unique keys removes
      its key and keeps every other key's value. */
  lemma DropAt<K(!new), V>(d: Dict<K, V>, i: nat)
    requires UniqueKeys(d) && i < |d|
    ensures UniqueKeys(d[..i] + d[i + 1..])
    ensures !HasKey(d[..i] + d[i + 1..], d[i].0)
    ensures forall k' :: k' != d[i].0 ==> Get(d[..i] + d[i + 1..], k') == Get(d, k')
  {
    var r := d[..i] + d[i + 1..];
    assert forall j :: 0 <= j < |r| ==> r[j] == (if j < i then d[j] else d[j + 1]);
    forall k' | k' != d[i].0 ensures Get(r, k') == Get(d, k') {
      DropAtGet(d, i, k');
    }
  }

  lemma DropAtGet<K(!new), V>(d: Dict<K, V>, i: nat, k: K)
    requires UniqueKeys(d) && i < |d| && k != d[i].0
    requires forall j :: 0 <= j < |d| - 1 ==> (d[..i] + d[i + 1..])[j] == (if j < i then d[j] else d[j + 1])
    ensures Get(d[..i] + d[i + 1..], k) == Get(d, k)
  {
    var r := d[..i] + d[i + 1..];
    if HasKey(d, k) {
      var j :| 0 <= j < |d| && d[j].0 == k;
      var j' := if j < i then j else j - 1;
      assert r[j'] == d[j];
      GetAt(d, j);
      GetAt(r, j');
    } else {
      assert !HasKey(r, k);
    }
  }

  /** `d[k] = v` for each pair in turn. */
  function PutAll<K(==, !new), V>(d: Dict<K, V>, pairs: seq<(K, V)>): (r: Dict<K, V>)
    ensures forall j :: 0 <= j < |pairs| ==> HasKey(r, pairs[j].0)
    ensures forall k :: HasKey(d, k) ==> HasKey(r, k)
    decreases |pairs|
  {
    if |pairs| == 0 then d
    else
      var d' := Put(d, pairs[0].0, pairs[0].1);
      forall k | HasKey(d, k) ensures HasKey(d', k) {
        if k != pairs[0].0 {
          assert Get(d', k) == Get(d, k);
        }
      }
      var r := PutAll(d', pairs[1..]);
      assert forall j :: 1 <= j < |pairs| ==> pairs[j] == pairs[1..][j - 1];
      r
  }

  /** Storing the value a key already has changes nothing. */
  lemma PutSame<K(!new), V>(d: Dict<K, V>, k: K)
    requires HasKey(d, k)
    ensures Put(d, k, Get(d, k).value) == d
  {
    var i := IndexOf(d, k).value;
    assert d[i] == (k, d[i].1);
  }

  /** Of two stores to a present key only the second one counts. */
  lemma PutTwice<K(!new), V>(d: Dict<K, V>, k: K, v1: V, v2: V)
    requires HasKey(d, k)
    ensures Put(Put(d, k, v1), k, v2) == Put(d, k, v2)
  {
    var i := IndexOf(d, k).value;
    var e := d[i := (k, v1)];
    assert forall j :: 0 <= j < |d| ==> e[j].0 == d[j].0;
    assert IndexOf(e, k) == Some(i);
  }
}

=== FILE: order.dfy ===
/** Python's ordering of `str` values (code point by code point, a proper
    prefix first) and `sorted(xs, key=...)`, a stable sort. */
module Order {

  /** `a <= b` for Python strings. */
  predicate Le(a: string, b: string)
    decreases |a|
  {
    |a| == 0 || (|b| > 0 && (a[0] < b[0] || (a[0] == b[0] && Le(a[1..], b[1..]))))
  }

  lemma {:induction false} LeRefl(a: string)
    ensures Le(a, a)
    decreases |a|
  {
    if |a| > 0 {
      LeRefl(a[1..]);
    }
  }

  lemma {:induction false} LeTotal(a: string, b: string)
    ensures Le(a, b) || Le(b, a)
    decreases |a|
  {
    if |a| > 0 && |b| > 0 && a[0] == b[0] {
      LeTotal(a[1..], b[1..]);
    }
  }

  lemma {:induction false} LeAntisym(a: string, b: string)
    requires Le(a, b) && Le(b, a)
    ensures a == b
    decreases |a|
  {
    if |a| > 0 {
      LeAntisym(a[1..], b[1..]);
      assert a == [a[0]] + a[1..] && b == [b[0]] + b[1..];
    }
  }

  lemma {:induction false} LeTrans(a: string, b: string, c: string)
    requires Le(a, b) && Le(b, c)
    ensures Le(a, c)
    decreases |a|
  {
    if |a| > 0 && a[0] == b[0] && b[0] == c[0] {
      LeTrans(a[1..], b[1..], c[1..]);
    }
  }

  /** Ordered by key, ties allowed. */
  predicate SortedBy<T>(xs: seq<T>, key: T -> string) {
    forall i, j :: 0 <= i < j < |xs| ==> Le(key(xs[i]), key(xs[j]))
  }

  /** The elements with key `k`, in their order. */
  function Keyed<T>(xs: seq<T>, key: T -> string, k: string): seq<T> {
    if |xs| == 0 then []
    else (if key(xs[0]) == k then [xs[0]] else []) + Keyed(xs[1..], key, k)
  }

  /** `x` placed before the first element whose key is not below its own. */
  function Insert<T>(x: T, ys: seq<T>, key: T -> string): (r: seq<T>)
    ensures |r| == |ys| + 1
    ensures multiset(r) == multiset(ys) + multiset{x}
  {
    if |ys| == 0 then [x]
    else if Le(key(x), key(ys[0])) then [x] + ys
    else
      assert ys == [ys[0]] + ys[1..];
      [ys[0]] + Insert(x, ys[1..], key)
  }

  /** `sorted(xs, key=key)`: insertion sort from the back, which keeps
      equal keys in their original order. */
  function SortBy<T>(xs: seq<T>, key: T -> string): (r: seq<T>)
    ensures |r| == |xs|
    ensures multiset(r) == multiset(xs)
  {
    if |xs| == 0 then []
    else
      assert xs == [xs[0]] + xs[1..];
      Insert(xs[0], SortBy(xs[1..], key), key)
  }

  lemma {:induction false} InsertSorted<T>(x: T, ys: seq<T>, key: T -> string)
    requires SortedBy(ys, key)
    ensures SortedBy(Insert(x, ys, key), key)
    decreases |ys|
  {
    if |ys| == 0 {
    } else if Le(key(x), key(ys[0])) {
      var r := [x] + ys;
      forall i, j | 0 <= i < j < |r| ensures Le(key(r[i]), key(r[j])) {
        if i == 0 && j > 1 {
          LeTrans(key(x), key(ys[0]), key(ys[j - 1]));
        }
      }
    } else {
      LeTotal(key(x), key(ys[0]));
      var t := Insert(x, ys[1..], key);
      InsertSorted(x, ys[1..], key);
      InsertFirst(x, ys[1..], key);
      var r := [ys[0]] + t;
      forall i, j | 0 <= i < j < |r| ensures Le(key(r[i]), key(r[j])) {
        if i == 0 {
          assert r[j] == t[j - 1];
          if t[j - 1] == x {
          } else {
            assert t[j - 1] in ys[1..];
            var m :| 0 <= m < |ys[1..]| && ys[1..][m] == t[j - 1];
            assert ys[1..][m] == ys[m + 1];
          }
        }
      }
    }
  }

  /** Insertion adds `x` and keeps every element. */
  lemma {:induction false} InsertFirst<T>(x: T, ys: seq<T>, key: T -> string)
    ensures forall e :: e in Insert(x, ys, key) ==> e == x || e in ys
    decreases |ys|
  {
    if |ys| > 0 && !Le(key(x), key(ys[0])) {
      InsertFirst(x, ys[1..], key);
    }
  }

  lemma {:induction false} InsertMultiset<T>(x: T, ys: seq<T>, key: T -> string)
    ensures multiset(Insert(x, ys, key)) == multiset{x} + multiset(ys)
    decreases |ys|
  {
    if |ys| > 0 && !Le(key(x), key(ys[0])) {
      InsertMultiset(x, ys[1..], key);
      assert ys == [ys[0]] + ys[1..];
    }
  }

  lemma KeyedCons<T>(y: T, zs: seq<T>, key: T -> string, k: string)
    ensures Keyed([y] + zs, key, k) == (if key(y) == k then [y] else []) + Keyed(zs, key, k)
  {
    assert ([y] + zs)[0] == y && ([y] + zs)[1..] == zs;
  }

  lemma {:induction false} InsertKeyed<T>(x: T, ys: seq<T>, key: T -> string, k: string)
    ensures Keyed(Insert(x, ys, key), key, k)
      == (if key(x) == k then [x] else []) + Keyed(ys, key, k)
    decreases |ys|
  {
    if |ys| == 0 {
    } else if Le(key(x), key(ys[0])) {
      KeyedCons(x, ys, key, k);
    } else {
      var t := Insert(x, ys[1..], key);
      InsertKeyed(x, ys[1..], key, k);
      KeyedCons(ys[0], t, key, k);
      var rest := Keyed(ys[1..], key, k);
      assert Keyed(ys, key, k) == (if key(ys[0]) == k then [ys[0]] else []) + rest;
      if key(x) == k {
        LeTotal(key(x), key(ys[0]));
        assert key(ys[0]) != k by {
          if key(ys[0]) == k {
            LeRefl(k);
          }
        }
        assert Keyed(t, key, k) == [x] + rest;
        assert Keyed(ys, key, k) == rest;
      } else {
        assert Keyed(t, key, k) == rest;
      }
    }
  }

  /** `sorted` orders by key. */
  lemma {:induction false} SortSorted<T>(xs: seq<T>, key: T -> string)
    ensures SortedBy(SortBy(xs, key), key)
    decreases |xs|
  {
    if |xs| > 0 {
      SortSorted(xs[1..], key);
      InsertSorted(xs[0], SortBy(xs[1..], key), key);
    }
  }

  /** `sorted` is a permutation. */
  lemma {:induction false} SortPermutes<T>(xs: seq<T>, key: T -> string)
    ensures multiset(SortBy(xs, key)) == multiset(xs)
    decreases |xs|
  {
    if |xs| > 0 {
      SortPermutes(xs[1..], key);
      InsertMultiset(xs[0], SortBy(xs[1..], key), key);
      assert xs == [xs[0]] + xs[1..];
    }
  }

  /** `sorted` is stable: the elements sharing a key keep their order. */
  lemma {:induction false} SortStable<T>(xs: seq<T>, key: T -> string, k: string)
    ensures Keyed(SortBy(xs, key), key, k) == Keyed(xs, key, k)
    decreases |xs|
  {
    if |xs| > 0 {
      SortStable(xs[1..], key, k);
      InsertKeyed(xs[0], SortBy(xs[1..], key), key, k);
    }
  }

  /** Picking the elements of one key commutes with concatenation. */
  lemma {:induction false} KeyedAppend<T>(a: seq<T>, b: seq<T>, key: T -> string, k: string)
    ensures Keyed(a + b, key, k) == Keyed(a, key, k) + Keyed(b, key, k)
    decreases |a|
  {
    if |a| == 0 {
      assert a + b == b;
    } else {
      KeyedAppend(a[1..], b, key, k);
      KeyedCons(a[0], a[1..] + b, key, k);
      assert a + b == [a[0]] + (a[1..] + b);
      var p := if key(a[0]) == k then [a[0]] else [];
      assert Keyed(a, key, k) == p + Keyed(a[1..], key, k);
      assert p + (Keyed(a[1..], key, k) + Keyed(b, key, k)) == (p + Keyed(a[1..], key, k)) + Keyed(b, key, k);
    }
  }
}

=== FILE: protocol.dfy ===
/** The decoder of binary relay messages (qweechat/weechat/protocol.py).
    Each reader takes the unread bytes and returns the value it read with
    the bytes left after it, as the source's `Protocol._obj_*` methods do
    with their `self.data` cursor. Short data is not an error in the
    source: the readers return 0, an empty value or a shortened slice. */
module Protocol {
  import opened Results
  import opened Bytes
  import opened ODict
  import opened Values
  import Utf8
  import PyInt
  import Text

  datatype Read<+T> = Read(value: T, rest: bytes)

  /** A reader never adds bytes: what is left is at most what it was given. */
  predicate Consumes(d: bytes, rest: bytes) {
    |rest| <= |d|
  }

  /** The twelve object types of the relay protocol. */
  datatype Tag = Chr | Int | Lon | Str | Buf | Ptr | Tim | Htb | Hda | Inf | Inl | Arr

  /** The three-letter code of each type on the wire. */
  function TagName(t: Tag): string {
    match t
    case Chr => "chr" case Int => "int" case Lon => "lon" case Str => "str"
    case Buf => "buf" case Ptr => "ptr" case Tim => "tim" case Htb => "htb"
    case Hda => "hda" case Inf => "inf" case Inl => "inl" case Arr => "arr"
  }

  /** The source's `_obj_cb` table: a type name to its reader, or `None`
      where the lookup raises `KeyError`. */
  function Lookup(name: string): (r: Option<Tag>)
    ensures r.Some? ==> TagName(r.value) == name
    ensures r.None? ==> forall t :: TagName(t) != name
  {
    if name == "chr" then Some(Chr) else if name == "int" then Some(Int)
    else if name == "lon" then Some(Lon) else if name == "str" then Some(Str)
    else if name == "buf" then Some(Buf) else if name == "ptr" then Some(Ptr)
    else if name == "tim" then Some(Tim) else if name == "htb" then Some(Htb)
    else if name == "hda" then Some(Hda) else if name == "inf" then Some(Inf)
    else if name == "inl" then Some(Inl) else if name == "arr" then Some(Arr)
    else None
  }

  /** `_obj_type`: three bytes decoded as text; fewer than three bytes
      empty the data and give the name '' (which no reader has). */
  function ReadType(d: bytes): (r: Result<Read<string>>)
    ensures r.Ok? ==> Consumes(d, r.value.rest)
    ensures r.Ok? && |d| < 3 ==> r.value == Read("", [])
    ensures r.Ok? && |d| >= 3 ==> r.value.rest == d[3..] && |r.value.value| <= 3
    ensures r.Err? <==> |d| >= 3 && Utf8.Decode(d[..3]).None?
  {
    if |d| < 3 then Ok(Read("", []))
    else
      match Utf8.Decode(d[..3])
      case None => Err(UnicodeDecodeError)
      case Some(s) => Ok(Read(s, d[3..]))
  }

  /** `_obj_int`: a signed 32-bit big-endian integer; with fewer than four
      bytes the data is emptied and the value is 0. */
  function ReadInt(d: bytes): (r: Read<int>)
    ensures |d| >= 4 ==> r == Read(BE32(d[..4]), d[4..])
    ensures |d| < 4 ==> r == Read(0, [])
    ensures IsInt32(r.value)
  {
    if |d| < 4 then Read(0, []) else Read(BE32(d[..4]), d[4..])
  }

  /** `_obj_char`: one signed byte; with no data the value is 0 and nothing
      is consumed. */
  function ReadChr(d: bytes): (r: Read<int>)
    ensures |d| >= 1 ==> r == Read(Signed8(d[0]), d[1..])
    ensures |d| == 0 ==> r == Read(0, d)
  {
    if |d| < 1 then Read(0, d) else Read(Signed8(d[0]), d[1..])
  }

  /** What `_obj_len_data` returns: `None`, the `''` of a zero length, or
      the bytes read (possibly fewer than announced). */
  datatype Chunk = Absent | Empty | Data(b: bytes)

  /** The length field in front of a chunk: one unsigned byte, or four
      bytes read as a signed 32-bit integer. */
  function ChunkLength(d: bytes, size: nat): int
    requires size == 1 || size == 4
    requires |d| >= size
  {
    if size == 1 then d[0] as int else BE32(d[..4])
  }

  /** `_obj_len_data(size)`: a length on `size` bytes, then that many bytes,
      or as many as there are. */
  function ReadChunk(d: bytes, size: nat): (r: Read<Chunk>)
    requires size == 1 || size == 4
    ensures Consumes(d, r.rest)
    ensures |d| < size ==> r == Read(Absent, [])
    ensures |d| >= size ==> (r.value.Absent? <==> ChunkLength(d, size) < 0)
    ensures |d| >= size ==> (r.value.Empty? <==> ChunkLength(d, size) == 0)
    ensures |d| >= size && ChunkLength(d, size) <= 0 ==> r.rest == d[size..]
    ensures r.value.Data? ==>
      && |d| >= size
      && r.value.b + r.rest == d[size..]
      && |r.value.b| == (if ChunkLength(d, size) < |d| - size then ChunkLength(d, size) else |d| - size)
  {
    if |d| < size then Read(Absent, [])
    else
      var length := ChunkLength(d, size);
      var tail := d[size..];
      if length < 0 then Read(Absent, tail)
      else if length == 0 then Read(Empty, tail)
      else
        SplitAt(tail, length);
        Read(Data(Upto(tail, length)), From(tail, length))
  }

  /** `_obj_str`: an absent or empty string is '', otherwise the bytes
      decoded as UTF-8. */
  function ReadStr(d: bytes): (r: Result<Read<string>>)
    ensures r.Ok? ==> Consumes(d, r.value.rest)
    ensures r.Ok? <==> !ReadChunk(d, 4).value.Data? || Utf8.Decode(ReadChunk(d, 4).value.b).Some?
  {
    var c := ReadChunk(d, 4);
    match c.value
    case Absent => Ok(Read("", c.rest))
    case Empty => Ok(Read("", c.rest))
    case Data(b) =>
      match Utf8.Decode(b)
      case None => Err(UnicodeDecodeError)
      case Some(s) => Ok(Read(s, c.rest))
  }

  /** `_obj_buffer`: `None` for a negative length or short data, the `''`
      of a zero length, otherwise the bytes. */
  function ReadBuf(d: bytes): (r: Read<Value>)
    ensures Consumes(d, r.rest)
    ensures r.value.VNone? || r.value == VStr("") || r.value.VBytes?
  {
    var c := ReadChunk(d, 4);
    match c.value
    case Absent => Read(VNone, c.rest)
    case Empty => Read(VStr(""), c.rest)
    case Data(b) => Read(VBytes(b), c.rest)
  }

  /** The text a pointer's bytes stand for after "0x". */
  function PointerText(b: bytes): string {
    Latin1(b)
  }

  /** `_obj_ptr`: "0x" followed by the pointer's hex text; `None` only when
      there is no data at all. */
  function ReadPtr(d: bytes): (r: Read<Value>)
    ensures Consumes(d, r.rest)
    ensures |d| == 0 <==> r.value == VNone
    ensures |d| > 0 ==> r.value.VStr? && Text.StartsWith(r.value.s, "0x")
    ensures |d| > 0 && d[0] == 0 ==> r == Read(VStr("0x"), d[1..])
  {
    var c := ReadChunk(d, 1);
    match c.value
    case Absent => Read(VNone, c.rest)
    case Empty => Read(VStr("0x"), c.rest)
    case Data(b) => Read(VStr("0x" + PointerText(b)), c.rest)
  }

  /** `_obj_long` and `_obj_time`: a one-byte length then decimal text read
      with `int()`. A zero length gives `int('')`, which raises. */
  function ReadDecimal(d: bytes): (r: Result<Read<Value>>)
    ensures r.Ok? ==> Consumes(d, r.value.rest)
    ensures |d| == 0 ==> r == Ok(Read(VNone, []))
    ensures |d| > 0 && d[0] == 0 ==> r == Err(ValueError)
    ensures r.Ok? && |d| > 0 ==> r.value.value.VInt?
  {
    var c := ReadChunk(d, 1);
    match c.value
    case Absent => Ok(Read(VNone, c.rest))
    case Empty => Err(ValueError)
    case Data(b) =>
      match PyInt.Parse(PyInt.OfBytes, Latin1(b))
      case None => Err(ValueError)
      case Some(n) => Ok(Read(VInt(n), c.rest))
  }

  /** `_obj_cb[name]()`: the reader registered under a type name. */
  function ReadNamed(name: string, d: bytes): (r: Result<Read<Value>>)
    ensures r.Ok? ==> Consumes(d, r.value.rest)
    ensures Lookup(name).None? ==> r == Err(KeyError)
    decreases |d|, 2, 0
  {
    match Lookup(name)
    case None => Err(KeyError)
    case Some(t) => ReadValue(t, d)
  }

  /** One object of a known type. */
  function ReadValue(t: Tag, d: bytes): (r: Result<Read<Value>>)
    ensures r.Ok? ==> Consumes(d, r.value.rest)
    decreases |d|, 1, 0
  {
    match t
    case Chr => var c := ReadChr(d); Ok(Read(VInt(c.value), c.rest))
    case Int => var i := ReadInt(d); Ok(Read(VInt(i.value), i.rest))
    case Lon => ReadDecimal(d)
    case Tim => ReadDecimal(d)
    case Str =>
      var s :- ReadStr(d);
      Ok(Read(VStr(s.value), s.rest))
    case Buf => Ok(ReadBuf(d))
    case Ptr => Ok(ReadPtr(d))
    case Htb => ReadHashtable(d)
    case Hda => ReadHdata(d)
    case Inf =>
      var info :- ReadStrPair(d);
      Ok(Read(VInfo(info.value.0, info.value.1), info.rest))
    case Inl => ReadInfolist(d)
    case Arr => ReadArray(d)
  }

  /** `_obj_hashtable`: key type, value type, count, then the pairs. */
  function ReadHashtable(d: bytes): (r: Result<Read<Value>>)
    ensures r.Ok? ==> Consumes(d, r.value.rest)
    ensures r.Ok? ==> r.value.value.VDict?
    decreases |d|, 0, 0
  {
    var kt :- ReadType(d);
    var vt :- ReadType(kt.rest);
    var count := ReadInt(vt.rest);
    if count.value <= 0 then Ok(Read(VDict([]), count.rest))
    else
      assert |count.rest| < |d|;
      var pairs :- ReadPairs(kt.value, vt.value, count.value, [], count.rest);
      Ok(Read(VDict(pairs.value), pairs.rest))
  }

  /** The `count` key/value pairs of a hashtable, stored in order; an
      unhashable key raises `TypeError`. */
  function ReadPairs(kt: string, vt: string, n: nat, acc: Dict<Value, Value>, d: bytes)
    : (r: Result<Read<Dict<Value, Value>>>)
    ensures r.Ok? ==> Consumes(d, r.value.rest)
    decreases |d|, 3, n
  {
    if n == 0 then Ok(Read(acc, d))
    else
      var key :- ReadNamed(kt, d);
      var value :- ReadNamed(vt, key.rest);
      if !Hashable(key.value) then Err(TypeError)
      else
        var r :- ReadPairs(kt, vt, n - 1, Put(acc, key.value, value.value), value.rest);
        Ok(r)
  }

  /** The declared fields of an hdata: `keys.split(',')`, each entry split
      on ':'. An entry without ':' raises `IndexError` here; one with more
      than one ':' is only rejected when an item is read. */
  function FieldDecls(keys: string): (r: Result<(seq<seq<string>>, Dict<string, string>)>)
    ensures r.Ok? ==> forall i :: 0 <= i < |r.value.0| ==> |r.value.0[i]| >= 2
  {
    if keys == "" then Ok(([], []))
    else DeclsOf(Text.Split(keys, ','), [], [])
  }

  function DeclsOf(entries: seq<string>, acc: seq<seq<string>>, dict: Dict<string, string>)
    : (r: Result<(seq<seq<string>>, Dict<string, string>)>)
    requires forall i :: 0 <= i < |acc| ==> |acc[i]| >= 2
    ensures r.Ok? ==> forall i :: 0 <= i < |r.value.0| ==> |r.value.0[i]| >= 2
    decreases |entries|
  {
    if |entries| == 0 then Ok((acc, dict))
    else
      var parts := Text.Split(entries[0], ':');
      if |parts| < 2 then Err(IndexError)
      else DeclsOf(entries[1..], acc + [parts], Put(dict, parts[0], parts[1]))
  }

  /** The pointers of one hdata item, one per path segment. */
  function ReadPointers(k: nat, d: bytes): (r: Read<seq<Value>>)
    ensures Consumes(d, r.rest)
    ensures |r.value| == k
  {
    if k == 0 then Read([], d)
    else
      var p := ReadPtr(d);
      var ps := ReadPointers(k - 1, p.rest);
      Read([p.value] + ps.value, ps.rest)
  }

  /** What an hdata announces before its items. */
  datatype HdataHeader = HdataHeader(path: seq<string>, decls: seq<seq<string>>, keys: Dict<string, string>, count: int)

  /** Two strings in a row: an hdata's path and its field list, or an
      info's name and its value. */
  function ReadStrPair(d: bytes): (r: Result<Read<(string, string)>>)
    ensures r.Ok? ==> Consumes(d, r.value.rest)
  {
    var first :- ReadStr(d);
    var second :- ReadStr(first.rest);
    Ok(Read((first.value, second.value), second.rest))
  }

  /** The segments of an hdata path such as "buffer/lines/line/line_data";
      an empty path has none. */
  function PathSegments(path: string): (r: seq<string>)
    ensures path == "" <==> r == []
    ensures path != "" ==> Text.Join(r, "/") == path
  {
    if path == "" then [] else Text.JoinSplit(path, '/'); Text.Split(path, '/')
  }

  /** The path, the field declarations and the item count of an hdata. */
  function ReadHdataHeader(d: bytes): (r: Result<Read<HdataHeader>>)
    ensures r.Ok? ==> Consumes(d, r.value.rest)
    ensures r.Ok? && r.value.value.count > 0 ==> |r.value.rest| < |d|
  {
    var names :- ReadStrPair(d);
    var (path, keys) := names.value;
    var count := ReadInt(names.rest);
    var decls :- FieldDecls(keys);
    Ok(Read(HdataHeader(PathSegments(path), decls.0, decls.1, count.value), count.rest))
  }

  /** `_obj_hdata`: path, field declarations, count, then the items. */
  function ReadHdata(d: bytes): (r: Result<Read<Value>>)
    ensures r.Ok? ==> Consumes(d, r.value.rest)
    ensures r.Ok? ==> r.value.value.VHdata?
    ensures r.Ok? ==> |r.value.value.items| == (if r.value.value.count <= 0 then 0 else r.value.value.count)
    ensures r.Ok? ==> forall i :: 0 <= i < |r.value.value.items| ==> HasPointers(r.value.value.items[i], |r.value.value.path|)
    decreases |d|, 0, 0
  {
    var h :- ReadHdataHeader(d);
    var header := h.value;
    if header.count <= 0 then
      Ok(Read(VHdata(header.path, header.keys, header.count, []), h.rest))
    else
      var items :- ReadItems(|header.path|, header.decls, header.count, h.rest);
      Ok(Read(VHdata(header.path, header.keys, header.count, items.value), items.rest))
  }

  /** An hdata item's `__path` entry: the list of its `k` pointers. */
  predicate HasPointers(item: Item, k: nat) {
    Get(item, "__path").Some? && Get(item, "__path").value.VList? && |Get(item, "__path").value.elems| == k
  }

  /** One hdata item: its pointers, then its declared fields; `__path`
      is stored first and filled with the pointers last. */
  function ReadItem(k: nat, decls: seq<seq<string>>, d: bytes): (r: Result<Read<Item>>)
    ensures r.Ok? ==> Consumes(d, r.value.rest)
    ensures r.Ok? ==> HasPointers(r.value.value, k)
    decreases |d|, 5, 0
  {
    var ptrs := ReadPointers(k, d);
    var fields :- ReadFields(decls, ptrs.rest);
    var item := PutAll([("__path", VList([]))], fields.value);
    Ok(Read(Put(item, "__path", VList(ptrs.value)), fields.rest))
  }

  /** The `n` items of an hdata, in wire order. */
  function ReadItems(k: nat, decls: seq<seq<string>>, n: nat, d: bytes)
    : (r: Result<Read<seq<Item>>>)
    ensures r.Ok? ==> Consumes(d, r.value.rest)
    ensures r.Ok? ==> |r.value.value| == n
    ensures r.Ok? ==> forall i :: 0 <= i < n ==> HasPointers(r.value.value[i], k)
    decreases |d|, 6, n
  {
    if n == 0 then Ok(Read([], d))
    else
      var item :- ReadItem(k, decls, d);
      var others :- ReadItems(k, decls, n - 1, item.rest);
      Ok(Read([item.value] + others.value, others.rest))
  }

  /** The declared fields of one item, in declaration order, each with
      the value read for it. A declaration that is not exactly
      "name:type" fails to unpack with `ValueError`. */
  function ReadFields(decls: seq<seq<string>>, d: bytes): (r: Result<Read<seq<(string, Value)>>>)
    ensures r.Ok? ==> Consumes(d, r.value.rest)
    ensures r.Ok? ==> |r.value.value| == |decls|
    ensures r.Ok? ==> forall j :: 0 <= j < |decls| ==> |decls[j]| == 2 && r.value.value[j].0 == decls[j][0]
    decreases |d|, 4, |decls|
  {
    if |decls| == 0 then Ok(Read([], d))
    else if |decls[0]| != 2 then Err(ValueError)
    else
      var v :- ReadNamed(decls[0][1], d);
      var others :- ReadFields(decls[1..], v.rest);
      var fields := [(decls[0][0], v.value)] + others.value;
      assert forall j :: 1 <= j < |decls| ==> fields[j] == others.value[j - 1] && decls[j] == decls[1..][j - 1];
      Ok(Read(fields, others.rest))
  }

  /** `_obj_infolist`: name, count, then the items. */
  function ReadInfolist(d: bytes): (r: Result<Read<Value>>)
    ensures r.Ok? ==> Consumes(d, r.value.rest)
    ensures r.Ok? ==> r.value.value.VInfolist?
    decreases |d|, 0, 0
  {
    var name :- ReadStr(d);
    var count := ReadInt(name.rest);
    if count.value <= 0 then Ok(Read(VInfolist(name.value, []), count.rest))
    else
      assert |count.rest| < |d|;
      var items :- ReadInfolistItems(count.value, count.rest);
      Ok(Read(VInfolist(name.value, items.value), items.rest))
  }

  /** The `n` items of an infolist, in wire order. */
  function ReadInfolistItems(n: nat, d: bytes): (r: Result<Read<seq<Dict<string, Value>>>>)
    ensures r.Ok? ==> Consumes(d, r.value.rest)
    ensures r.Ok? ==> |r.value.value| == n
    decreases |d|, 8, n
  {
    if n == 0 then Ok(Read([], d))
    else
      var count := ReadInt(d);
      var vars :- ReadVariables(if count.value < 0 then 0 else count.value, [], count.rest);
      var others :- ReadInfolistItems(n - 1, vars.rest);
      Ok(Read([vars.value] + others.value, others.rest))
  }

  /** The `m` named, typed variables of one infolist item. */
  function ReadVariables(m: nat, acc: Dict<string, Value>, d: bytes)
    : (r: Result<Read<Dict<string, Value>>>)
    ensures r.Ok? ==> Consumes(d, r.value.rest)
    decreases |d|, 7, m
  {
    if m == 0 then Ok(Read(acc, d))
    else
      var name :- ReadStr(d);
      var t :- ReadType(name.rest);
      var v :- ReadNamed(t.value, t.rest);
      var r :- ReadVariables(m - 1, Put(acc, name.value, v.value), v.rest);
      Ok(r)
  }

  /** `_obj_array`: element type, count, then the elements. */
  function ReadArray(d: bytes): (r: Result<Read<Value>>)
    ensures r.Ok? ==> Consumes(d, r.value.rest)
    ensures r.Ok? ==> r.value.value.VList?
    decreases |d|, 0, 0
  {
    var t :- ReadType(d);
    var count := ReadInt(t.rest);
    if count.value <= 0 then Ok(Read(VList([]), count.rest))
    else
      assert |count.rest| < |d|;
      var elems :- ReadElements(t.value, count.value, count.rest);
      Ok(Read(VList(elems.value), elems.rest))
  }

  /** The `n` elements of an array, all of type `t`. */
  function ReadElements(t: string, n: nat, d: bytes): (r: Result<Read<seq<Value>>>)
    ensures r.Ok? ==> Consumes(d, r.value.rest)
    ensures r.Ok? ==> |r.value.value| == n
    decreases |d|, 3, n
  {
    if n == 0 then Ok(Read([], d))
    else
      var v :- ReadNamed(t, d);
      var others :- ReadElements(t, n - 1, v.rest);
      Ok(Read([v.value] + others.value, others.rest))
  }

  /** One decoded object: its three-letter type and its value. */
  datatype Obj = Obj(objType: string, value: Value)

  /** The objects after the message id, read until no byte is left. */
  function ReadObjects(d: bytes): (r: Result<seq<Obj>>)
    ensures r.Ok? ==> forall i :: 0 <= i < |r.value| ==> Lookup(r.value[i].objType).Some?
    ensures |d| == 0 ==> r == Ok([])
    ensures 0 < |d| < 3 ==> r == Err(KeyError)
    decreases |d|
  {
    if |d| == 0 then Ok([])
    else
      var t :- ReadType(d);
      var v :- ReadNamed(t.value, t.rest);
      var others :- ReadObjects(v.rest);
      Ok([Obj(t.value, v.value)] + others)
  }

  /** A decoded message, with the fields of the source's `WeechatMessage`. */
  datatype Message = Message(
    size: nat,
    sizeUncompressed: int,
    compression: int,
    uncompressed: bytes,
    msgid: string,
    objects: seq<Obj>)

  /** The bytes after the five-byte header, once decompressed: the
      decompressed body gets a fresh header carrying its own size and a
      zero flag. zlib is the `inflate` parameter (`None` where
      `zlib.decompress` raises). */
  function Uncompress(data: bytes, inflate: bytes -> Option<bytes>): (r: Result<bytes>)
    requires |data| >= 5
    ensures r.Ok? ==> |r.value| >= 5
    ensures Signed8(data[4]) == 0 ==> r == Ok(data)
    ensures r.Ok? && Signed8(data[4]) != 0 ==>
      && inflate(data[5..]).Some?
      && r.value[5..] == inflate(data[5..]).value
      && r.value[4] == 0
      && BE32(r.value[..4]) == |r.value|
  {
    if Signed8(data[4]) == 0 then Ok(data)
    else
      match inflate(data[5..])
      case None => Err(ZlibError)
      case Some(u) =>
        if !IsInt32(|u| + 5) then Err(StructError)
        else
          var r := PackBE32(|u| + 5) + [0] + u;
          UnpackPack(|u| + 5);
          assert r[..4] == PackBE32(|u| + 5);
          Ok(r)
  }

  /** `Protocol.decode`: the flag byte, optional decompression, the
      message id, then every object up to the end of the data. The length
      field itself is never checked. */
  function Decode(data: bytes, inflate: bytes -> Option<bytes>): (r: Result<Message>)
    ensures |data| < 5 ==> r == Err(StructError)
    ensures r.Ok? ==>
      && r.value.size == |data|
      && r.value.compression == Signed8(data[4])
      && r.value.sizeUncompressed == |r.value.uncompressed|
      && (r.value.compression == 0 ==> r.value.uncompressed == data)
  {
    if |data| < 5 then Err(StructError)
    else
      var unc :- Uncompress(data, inflate);
      var msgid :- ReadStr(unc[5..]);
      var objects :- ReadObjects(msgid.rest);
      Ok(Message(|data|, |unc|, Signed8(data[4]), unc, msgid.value, objects))
  }

  /** Python's `repr` of a bytes object, as `'%s' % b` renders it. */
  function BytesRepr(b: bytes): (s: string)
    ensures |s| >= 3 && s[0] == 'b'
  {
    var quote := if 0x27 in b && 0x22 !in b then '"' else '\'';
    ['b', quote] + ReprBody(b, quote) + [quote]
  }

  function ReprBody(b: bytes, quote: char): string {
    if |b| == 0 then ""
    else ReprByte(b[0], quote) + ReprBody(b[1..], quote)
  }

  function ReprByte(x: byte, quote: char): string {
    if x == 0x5C then "\\\\"
    else if x as char == quote then ['\\', quote]
    else if x == 0x09 then "\\t"
    else if x == 0x0A then "\\n"
    else if x == 0x0D then "\\r"
    else if 0x20 <= x < 0x7F then [x as char]
    else "\\x" + [HexDigit(x / 16), HexDigit(x % 16)]
  }

  function HexDigit(n: nat): char
    requires n < 16
  {
    if n < 10 then ('0' as int + n) as char else ('a' as int + n - 10) as char
  }

  /** `_obj_ptr` as written under Python 3: `'0x%s' % value` formats the
      bytes with their `repr`, so a pointer reads "0xb'...'". */
  function ReadPtrAsWritten(d: bytes): (r: Read<Value>)
    ensures Consumes(d, r.rest)
    ensures r.rest == ReadPtr(d).rest
    ensures r.value.VNone? <==> ReadPtr(d).value.VNone?
  {
    var c := ReadChunk(d, 1);
    match c.value
    case Absent => Read(VNone, c.rest)
    case Empty => Read(VStr("0x"), c.rest)
    case Data(b) => Read(VStr("0x" + BytesRepr(b)), c.rest)
  }

  /** The null pointer WeeChat sends (length 1, text "0"): as written it
      never reads as "0x0", the text the buffer list compares against; the
      corrected reader gives exactly that. */
  lemma NullPointerAsWritten(rest: bytes)
    ensures ReadPtrAsWritten([1, 0x30] + rest).value == VStr("0xb'0'")
    ensures ReadPtr([1, 0x30] + rest) == Read(VStr("0x0"), rest)
  {
    var d: bytes := [1, 0x30] + rest;
    var tail := d[1..];
    assert ChunkLength(d, 1) == 1;
    assert Upto(tail, 1) == [0x30];
    assert From(tail, 1) == rest;
    assert ReadChunk(d, 1) == Read(Data([0x30]), rest);
    assert PointerText([0x30]) == "0";
    assert "0x" + "0" == "0x0";
    assert ReprBody([0x30], '\'') == "0";
  }

  /** No input makes the as-written reader produce "0x0". */
  lemma AsWrittenNeverNull(d: bytes)
    ensures ReadPtrAsWritten(d).value != VStr("0x0")
  {
  }
}

=== FILE: pyint.dfy ===
/** Python's `int(text)` in base 10 and `str(n)`, as used for the relay's
    `lon` and `tim` fields and for the port and line-count options. */
module PyInt {
  import opened Results

  /** What `int()` is given: a `str`, or a `bytes` object (whose bytes
      are read here as the characters U+0000 to U+00FF). */
  datatype Operand = OfStr | OfBytes

  /** The six ASCII white-space characters, all `int(bytes)` strips. */
  predicate IsAsciiSpace(c: char) {
    c == ' ' || c == '\t' || c == '\n' || c as int == 0x0b || c as int == 0x0c || c == '\r'
  }

  /** The characters `str.isspace()` accepts, all `int(str)` strips: the
      ASCII six, the information separators U+001C to U+001F, NEL, the
      no-break space, and the Unicode space separators and line and
      paragraph separators. */
  predicate IsUnicodeSpace(c: char) {
    var u := c as int;
    || IsAsciiSpace(c)
    || 0x1c <= u <= 0x1f || u == 0x85 || u == 0xa0 || u == 0x1680
    || 0x2000 <= u <= 0x200a || u == 0x2028 || u == 0x2029
    || u == 0x202f || u == 0x205f || u == 0x3000
  }

  /** The characters `int()` strips from both ends of its operand. */
  predicate IsSpace(k: Operand, c: char) {
    if k == OfStr then IsUnicodeSpace(c) else IsAsciiSpace(c)
  }

  predicate IsDigit(c: char) { '0' <= c <= '9' }

  function TrimLeft(k: Operand, s: string): (t: string)
    ensures |t| <= |s|
    ensures |t| > 0 ==> !IsSpace(k, t[0])
  {
    if |s| > 0 && IsSpace(k, s[0]) then TrimLeft(k, s[1..]) else s
  }

  function TrimRight(k: Operand, s: string): (t: string)
    ensures |t| <= |s|
    ensures |t| > 0 ==> !IsSpace(k, t[|t| - 1])
  {
    if |s| > 0 && IsSpace(k, s[|s| - 1]) then TrimRight(k, s[..|s| - 1]) else s
  }

  /** The operand with the white space `int()` ignores stripped. */
  function Trim(k: Operand, s: string): string {
    TrimRight(k, TrimLeft(k, s))
  }

  predicate DigitChars(s: string) {
    forall i :: 0 <= i < |s| ==> IsDigit(s[i]) || s[i] == '_'
  }

  /** Digits, with single underscores allowed between two digits. */
  predicate DigitBody(s: string) {
    && |s| > 0
    && IsDigit(s[0])
    && DigitChars(s)
    && forall i :: 0 <= i < |s| && s[i] == '_' ==> i + 1 < |s| && IsDigit(s[i + 1])
  }

  /** The value of a digit body, underscores ignored. */
  function DigitsValue(s: string): (n: nat)
    requires DigitChars(s)
  {
    if |s| == 0 then 0
    else
      var last := s[|s| - 1];
      assert IsDigit(last) || last == '_';
      if last == '_' then DigitsValue(s[..|s| - 1])
      else DigitsValue(s[..|s| - 1]) * 10 + (last as int - '0' as int)
  }

  /** `int(s)`: `None` where the source raises `ValueError`. */
  function Parse(k: Operand, s: string): (r: Option<int>)
    ensures r.Some? ==> exists i :: 0 <= i < |s| && IsDigit(s[i])
    ensures r.Some? && r.value < 0 ==> '-' in s
  {
    var t := Trim(k, s);
    TrimWithin(k, s);
    if |t| > 0 && (t[0] == '-' || t[0] == '+') then
      var body := t[1..];
      if DigitBody(body) then
        var v: int := DigitsValue(body);
        assert t[1] in s && IsDigit(t[1]);
        Some(if t[0] == '-' then -v else v)
      else None
    else if DigitBody(t) then
      assert t[0] in s && IsDigit(t[0]);
      Some(DigitsValue(t))
    else None
  }

  /** Trimming only drops characters. */
  lemma TrimWithin(k: Operand, s: string)
    ensures forall i :: 0 <= i < |Trim(k, s)| ==> Trim(k, s)[i] in s
  {
    assert forall i :: 0 <= i < |TrimLeft(k, s)| ==> TrimLeft(k, s)[i] in s by {
      TrimLeftIsSuffix(k, s);
    }
    TrimRightIsPrefix(k, TrimLeft(k, s));
  }

  function DigitChar(d: nat): (c: char)
    requires d < 10
    ensures IsDigit(c)
  {
    ('0' as int + d) as char
  }

  /** The decimal digits of a natural number, most significant first. */
  function Digits(n: nat): (s: string)
    ensures |s| > 0
    ensures forall i :: 0 <= i < |s| ==> IsDigit(s[i])
  {
    if n < 10 then [DigitChar(n)] else Digits(n / 10) + [DigitChar(n % 10)]
  }

  /** `str(n)` (and `'%d' % n`). */
  function Render(n: int): (s: string)
    ensures |s| > 0
    ensures forall i :: 0 <= i < |s| ==> s[i] == '-' || IsDigit(s[i])
    ensures s[0] == '-' <==> n < 0
  {
    if n < 0 then "-" + Digits(-n) else Digits(n)
  }

  lemma {:induction false} DigitsValueOfDigits(n: nat)
    ensures DigitsValue(Digits(n)) == n
  {
    var s := Digits(n);
    if n >= 10 {
      assert s[..|s| - 1] == Digits(n / 10);
      DigitsValueOfDigits(n / 10);
    }
  }

  lemma TrimNoSpace(k: Operand, s: string)
    requires |s| > 0 && !IsSpace(k, s[0]) && !IsSpace(k, s[|s| - 1])
    ensures Trim(k, s) == s
  {
  }

  /** `int(str(n)) == n` for every integer. */
  lemma ParseRender(k: Operand, n: int)
    ensures Parse(k, Render(n)) == Some(n)
  {
    var s := Render(n);
    TrimNoSpace(k, s);
    var m: nat := if n < 0 then -n else n;
    var d := Digits(m);
    DigitsValueOfDigits(m);
    assert DigitBody(d);
    if n < 0 {
      assert s[0] == '-' && s[1..] == d;
    } else {
      assert s == d && IsDigit(s[0]);
    }
  }

  /** `int()` of plain ASCII digits is their decimal value. */
  lemma ParseDigits(k: Operand, s: string)
    requires |s| > 0 && forall i :: 0 <= i < |s| ==> IsDigit(s[i])
    ensures Parse(k, s) == Some(DigitsValue(s))
  {
    DigitNotSpace(k, s[0]);
    DigitNotSpace(k, s[|s| - 1]);
    TrimNoSpace(k, s);
    ParseUnsigned(k, s);
    DigitsAreBody(s);
  }

  lemma DigitNotSpace(k: Operand, c: char)
    requires IsDigit(c)
    ensures !IsSpace(k, c)
  {
  }

  lemma DigitsAreBody(s: string)
    requires |s| > 0 && forall i :: 0 <= i < |s| ==> IsDigit(s[i])
    ensures DigitBody(s)
  {
  }

  /** Text that `int()` does not strip and that starts with a digit is
      read as a digit body. */
  lemma ParseUnsigned(k: Operand, s: string)
    requires |s| > 0 && IsDigit(s[0]) && Trim(k, s) == s
    ensures Parse(k, s) == if DigitBody(s) then Some(DigitsValue(s)) else None
  {
  }

  /** Text with no digit at all is never an integer. */
  lemma ParseNeedsDigit(k: Operand, s: string)
    requires forall i :: 0 <= i < |s| ==> !IsDigit(s[i])
    ensures Parse(k, s).None?
  {
    var t := Trim(k, s);
    assert forall i :: 0 <= i < |TrimLeft(k, s)| ==> TrimLeft(k, s)[i] in s by {
      TrimLeftIsSuffix(k, s);
    }
    assert forall i :: 0 <= i < |t| ==> t[i] in TrimLeft(k, s) by {
      TrimRightIsPrefix(k, TrimLeft(k, s));
    }
    if |t| > 0 && (t[0] == '-' || t[0] == '+') {
      if |t| > 1 { assert t[1..][0] == t[1]; }
    }
  }

  /** Text holding a character that is no digit, underscore, sign or
      white space is never an integer. */
  lemma ParseRejects(k: Operand, s: string, c: char)
    requires c in s && !IsDigit(c) && c != '_' && c != '-' && c != '+' && !IsSpace(k, c)
    ensures Parse(k, s).None?
  {
    var t := Trim(k, s);
    TrimLeftKeeps(k, s, c);
    TrimRightKeeps(k, TrimLeft(k, s), c);
    if |t| > 0 && (t[0] == '-' || t[0] == '+') {
      assert c in t[1..] by {
        var i :| 0 <= i < |t| && t[i] == c;
        assert t[1..][i - 1] == c;
      }
    }
  }

  lemma {:induction false} TrimLeftKeeps(k: Operand, s: string, c: char)
    requires c in s && !IsSpace(k, c)
    ensures c in TrimLeft(k, s)
    decreases |s|
  {
    if |s| > 0 && IsSpace(k, s[0]) {
      assert c in s[1..] by {
        var i :| 0 <= i < |s| && s[i] == c;
        assert s[1..][i - 1] == c;
      }
      TrimLeftKeeps(k, s[1..], c);
    }
  }

  lemma {:induction false} TrimRightKeeps(k: Operand, s: string, c: char)
    requires c in s && !IsSpace(k, c)
    ensures c in TrimRight(k, s)
    decreases |s|
  {
    if |s| > 0 && IsSpace(k, s[|s| - 1]) {
      assert c in s[..|s| - 1] by {
        var i :| 0 <= i < |s| && s[i] == c;
        assert s[..|s| - 1][i] == c;
      }
      TrimRightKeeps(k, s[..|s| - 1], c);
    }
  }

  lemma {:induction false} TrimLeftIsSuffix(k: Operand, s: string)
    ensures exists i :: 0 <= i <= |s| && TrimLeft(k, s) == s[i..]
  {
    if |s| > 0 && IsSpace(k, s[0]) {
      TrimLeftIsSuffix(k, s[1..]);
      var i :| 0 <= i <= |s[1..]| && TrimLeft(k, s[1..]) == s[1..][i..];
      assert s[1..][i..] == s[i + 1..];
    } else {
      assert s == s[0..];
    }
  }

  lemma {:induction false} TrimRightIsPrefix(k: Operand, s: string)
    ensures exists i :: 0 <= i <= |s| && TrimRight(k, s) == s[..i]
  {
    if |s| > 0 && IsSpace(k, s[|s| - 1]) {
      TrimRightIsPrefix(k, s[..|s| - 1]);
      var i :| 0 <= i <= |s| - 1 && TrimRight(k, s[..|s| - 1]) == s[..|s| - 1][..i];
      assert s[..|s| - 1][..i] == s[..i];
    } else {
      assert s == s[..|s|];
    }
  }

  /** Every byte `int(bytes)` skips is skipped by `int(str)` too, so
      `int(str)` accepts every operand `int(bytes)` does, with the same
      value. */
  lemma {:induction false} StrAcceptsBytes(s: string)
    requires Parse(OfBytes, s).Some?
    ensures Parse(OfStr, s) == Parse(OfBytes, s)
  {
    var t := Trim(OfBytes, s);
    TrimAgree(s);
  }

  /** No character `int()` can keep is white space of either kind, so
      stripping a digit, sign or underscore at either end never happens. */
  lemma TrimAgree(s: string)
    requires Parse(OfBytes, s).Some?
    ensures Trim(OfStr, s) == Trim(OfBytes, s)
  {
    var l := TrimLeft(OfBytes, s);
    var t := TrimRight(OfBytes, l);
    var body := if t[0] == '-' || t[0] == '+' then t[1..] else t;
    assert DigitBody(body);
    assert IsDigit(body[|body| - 1]);
    assert t[|t| - 1] == body[|body| - 1];
    TrimRightIsPrefix(OfBytes, l);
    var i :| 0 <= i <= |l| && t == l[..i];
    assert l[0] == t[0];
    TrimLeftAgree(s);
    TrimRightAgree(l);
  }

  lemma {:induction false} TrimLeftAgree(s: string)
    requires |TrimLeft(OfBytes, s)| > 0 && !IsUnicodeSpace(TrimLeft(OfBytes, s)[0])
    ensures TrimLeft(OfStr, s) == TrimLeft(OfBytes, s)
    decreases |s|
  {
    if |s| > 0 && IsAsciiSpace(s[0]) {
      TrimLeftAgree(s[1..]);
    }
  }

  lemma {:induction false} TrimRightAgree(s: string)
    requires |TrimRight(OfBytes, s)| > 0
    requires var t := TrimRight(OfBytes, s); !IsUnicodeSpace(t[|t| - 1])
    ensures TrimRight(OfStr, s) == TrimRight(OfBytes, s)
    decreases |s|
  {
    if |s| > 0 && IsAsciiSpace(s[|s| - 1]) {
      TrimRightAgree(s[..|s| - 1]);
    }
  }

  /** The no-break space U+00A0 (the byte 0xA0 in Latin-1) separates the
      two: `int('\u00a05')` is 5, `int(b'\xa05')` raises. */
  lemma NoBreakSpace()
    ensures Parse(OfStr, "\U{a0}5") == Some(5)
    ensures Parse(OfBytes, "\U{a0}5").None?
  {
    assert TrimLeft(OfStr, "\U{a0}5") == "5" by {
      assert "\U{a0}5"[1..] == "5";
    }
    assert Trim(OfStr, "\U{a0}5") == "5";
    assert DigitsValue("5") == 5 by {
      assert "5"[..0] == "";
    }
    assert Trim(OfBytes, "\U{a0}5") == "\U{a0}5";
  }
}

=== FILE: results.dfy ===
/** Outcomes of the client's operations: an optional value, a value or
    the Python exception that the source raises instead, and a state
    together with the exception that interrupted the change. Every read,
    parse and dispatch step of the model returns one of these, so the error
    paths of the source stay visible in the contracts. */
module Results {

  datatype Option<+T> = None | Some(value: T)

  /** The exception classes the modelled code can raise. Which one is raised
      only matters for the diagnostic; every one of them aborts the message
      being decoded or dispatched. */
  datatype Fault =
    | KeyError           // dict lookup of an absent key (also an unknown type tag)
    | IndexError         // sequence subscript out of range
    | ValueError         // int() of malformed text, unpacking the wrong arity
    | TypeError          // unhashable key, comparison of unrelated types
    | StructError        // struct.unpack/pack of the wrong size or range
    | UnicodeDecodeError // bytes.decode() of ill-formed UTF-8
    | ZlibError          // zlib.decompress of a corrupt payload
    | AttributeError     // a method the value's type lacks (`str.decode`)

  datatype Result<+T> = Ok(value: T) | Err(fault: Fault) {
    predicate IsFailure() { Err? }

    function PropagateFailure<U>(): Result<U>
      requires Err?
    {
      Err(fault)
    }

    function Extract(): T
      requires Ok?
    {
      value
    }
  }

  /** What a run of statements that changes a state leaves behind: the
      state it reached, and the exception that stopped it, if any. Python
      undoes nothing when it raises, so the state keeps every change made
      before the exception. */
  datatype Outcome<+T> = Outcome(state: T, fault: Option<Fault>) {
    predicate Raised() { fault.Some? }
  }
}

=== FILE: text.dfy ===
/** The handful of Python `str` operations the client relies on: `find`,
    `startswith`, `split` and `join`, with the laws that relate them. */
module Text {
  import opened Results

  predicate StartsWith(s: string, prefix: string) {
    |prefix| <= |s| && s[..|prefix|] == prefix
  }

  /** `s.find(c)`, with `None` for the source's -1. */
  function Find(s: string, c: char): (r: Option<nat>)
    ensures r.None? <==> c !in s
    ensures r.Some? ==> r.value < |s| && s[r.value] == c && c !in s[..r.value]
  {
    if |s| == 0 then None
    else if s[0] == c then Some(0)
    else
      match Find(s[1..], c)
      case None => None
      case Some(k) =>
        assert s[..k + 1] == [s[0]] + s[1..][..k];
        Some(k + 1)
  }

  /** `s.split(c)`: the pieces between the occurrences of `c`. */
  function Split(s: string, c: char): (parts: seq<string>)
    ensures |parts| >= 1
    ensures forall i :: 0 <= i < |parts| ==> c !in parts[i]
    decreases |s|
  {
    match Find(s, c)
    case None => [s]
    case Some(k) => [s[..k]] + Split(s[k + 1..], c)
  }

  /** `sep.join(parts)`. */
  function Join(parts: seq<string>, sep: string): string
  {
    if |parts| == 0 then ""
    else if |parts| == 1 then parts[0]
    else parts[0] + sep + Join(parts[1..], sep)
  }

  /** The first occurrence of `c` determines `Find`. */
  lemma FindFirst(s: string, c: char, k: nat)
    requires k < |s| && s[k] == c && c !in s[..k]
    ensures Find(s, c) == Some(k)
  {
  }

  /** A text without the separator is a single piece. */
  lemma SplitNone(s: string, c: char)
    requires c !in s
    ensures Split(s, c) == [s]
  {
  }

  /** Two pieces around a single separator. */
  lemma SplitPair(a: string, b: string, c: char)
    requires c !in a && c !in b
    ensures Split(a + [c] + b, c) == [a, b]
  {
    var s := a + [c] + b;
    assert s[..|a|] == a && s[|a| + 1..] == b;
    FindFirst(s, c, |a|);
    SplitNone(b, c);
  }

  /** Joining the pieces of a split with the separator restores the text. */
  lemma {:induction false} JoinSplit(s: string, c: char)
    ensures Join(Split(s, c), [c]) == s
    decreases |s|
  {
    match Find(s, c)
    case None =>
    case Some(k) =>
      var rest := Split(s[k + 1..], c);
      assert Split(s, c) == [s[..k]] + rest;
      JoinSplit(s[k + 1..], c);
      assert Join([s[..k]] + rest, [c]) == s[..k] + [c] + Join(rest, [c]);
      assert s == s[..k] + [c] + s[k + 1..];
  }

  /** Splitting a join of separator-free pieces gives the pieces back. */
  lemma {:induction false} SplitJoin(parts: seq<string>, c: char)
    requires |parts| >= 1
    requires forall i :: 0 <= i < |parts| ==> c !in parts[i]
    ensures Split(Join(parts, [c]), c) == parts
    decreases |parts|
  {
    if |parts| == 1 {
      assert Find(parts[0], c).None?;
    } else {
      var s := Join(parts, [c]);
      var k := |parts[0]|;
      assert s == parts[0] + [c] + Join(parts[1..], [c]);
      assert s[..k] == parts[0];
      FindFirst(s, c, k);
      assert s[k + 1..] == Join(parts[1..], [c]);
      SplitJoin(parts[1..], c);
    }
  }
}

=== FILE: utf8.dfy ===
/** UTF-8 as Python's strict codec reads and writes it: `bytes.decode()`
    accepts exactly the well-formed sequences of the Unicode standard
    (no overlong forms, no surrogates, nothing above U+10FFFF) and raises
    `UnicodeDecodeError` on anything else. */
module Utf8 {
  import opened Results
  import opened Bytes

  predicate IsCont(b: byte) { 0x80 <= b <= 0xBF }

  /** The first character of `b` and the number of bytes it occupies, or
      `None` when `b` does not start with a well-formed sequence. */
  function DecodeChar(b: bytes): (r: Option<(char, nat)>)
    requires |b| > 0
    ensures r.Some? ==> 1 <= r.value.1 <= 4 && r.value.1 <= |b|
  {
    var b0: int := b[0];
    if b0 < 0x80 then Some((b0 as char, 1))
    else if 0xC2 <= b0 <= 0xDF then
      if |b| >= 2 && IsCont(b[1]) then
        var b1: int := b[1];
        Some((((b0 - 0xC0) * 64 + (b1 - 0x80)) as char, 2))
      else None
    else if 0xE0 <= b0 <= 0xEF then
      if |b| >= 3 && IsCont(b[1]) && IsCont(b[2])
         && (b0 != 0xE0 || b[1] >= 0xA0) && (b0 != 0xED || b[1] <= 0x9F) then
        var b1: int, b2: int := b[1], b[2];
        Some(((((b0 - 0xE0) * 64 + (b1 - 0x80)) * 64 + (b2 - 0x80)) as char, 3))
      else None
    else if 0xF0 <= b0 <= 0xF4 then
      if |b| >= 4 && IsCont(b[1]) && IsCont(b[2]) && IsCont(b[3])
         && (b0 != 0xF0 || b[1] >= 0x90) && (b0 != 0xF4 || b[1] <= 0x8F) then
        var b1: int, b2: int, b3: int := b[1], b[2], b[3];
        Some(((((((b0 - 0xF0) * 64 + (b1 - 0x80)) * 64 + (b2 - 0x80)) * 64) + (b3 - 0x80)) as char, 4))
      else None
    else None
  }

  /** `b.decode()`: `None` where the source raises `UnicodeDecodeError`. */
  function Decode(b: bytes): (r: Option<string>)
    ensures |b| == 0 ==> r == Some("")
    ensures r.Some? ==> |r.value| <= |b|
    decreases |b|
  {
    if |b| == 0 then Some("")
    else
      match DecodeChar(b)
      case None => None
      case Some((c, n)) =>
        match Decode(b[n..])
        case None => None
        case Some(s) => Some([c] + s)
  }

  function EncodeChar(c: char): (b: bytes)
    ensures 1 <= |b| <= 4
  {
    var cp := c as int;
    if cp < 0x80 then [cp]
    else if cp < 0x800 then [0xC0 + cp / 64, 0x80 + cp % 64]
    else if cp < 0x1_0000 then [0xE0 + cp / 4096, 0x80 + (cp / 64) % 64, 0x80 + cp % 64]
    else [0xF0 + cp / 262144, 0x80 + (cp / 4096) % 64, 0x80 + (cp / 64) % 64, 0x80 + cp % 64]
  }

  /** `s.encode('utf-8')`. */
  function Encode(s: string): (r: bytes)
    ensures |s| <= |r| <= 4 * |s|
  {
    if |s| == 0 then [] else EncodeChar(s[0]) + Encode(s[1..])
  }

  lemma DecodeEncodeChar(c: char, rest: bytes)
    ensures DecodeChar(EncodeChar(c) + rest) == Some((c, |EncodeChar(c)|))
  {
    var cp := c as int;
    if cp < 0x80 {
    } else if cp < 0x800 {
      DecodeEncodeTwo(c, rest);
    } else if cp < 0x1_0000 {
      DecodeEncodeThree(c, rest);
    } else {
      DecodeEncodeFour(c, rest);
    }
  }

  lemma DecodeEncodeTwo(c: char, rest: bytes)
    requires 0x80 <= c as int < 0x800
    ensures DecodeChar(EncodeChar(c) + rest) == Some((c, 2))
  {
    var cp := c as int;
    var b := EncodeChar(c) + rest;
    assert b[0] == 0xC0 + cp / 64 && b[1] == 0x80 + cp % 64;
    assert (cp / 64) * 64 + cp % 64 == cp;
  }

  lemma DecodeEncodeThree(c: char, rest: bytes)
    requires 0x800 <= c as int < 0x1_0000
    ensures DecodeChar(EncodeChar(c) + rest) == Some((c, 3))
  {
    var cp := c as int;
    var b := EncodeChar(c) + rest;
    var hi, mid, lo := cp / 4096, (cp / 64) % 64, cp % 64;
    assert b[0] == 0xE0 + hi && b[1] == 0x80 + mid && b[2] == 0x80 + lo;
    assert hi * 64 + mid == cp / 64;
    assert (cp / 64) * 64 + lo == cp;
  }

  lemma DecodeEncodeFour(c: char, rest: bytes)
    requires 0x1_0000 <= c as int
    ensures DecodeChar(EncodeChar(c) + rest) == Some((c, 4))
  {
    var cp := c as int;
    var b := EncodeChar(c) + rest;
    var top, hi, mid, lo := cp / 262144, (cp / 4096) % 64, (cp / 64) % 64, cp % 64;
    assert b[0] == 0xF0 + top && b[1] == 0x80 + hi && b[2] == 0x80 + mid && b[3] == 0x80 + lo;
    assert top * 64 + hi == cp / 4096;
    assert (cp / 4096) * 64 + mid == cp / 64;
    assert (cp / 64) * 64 + lo == cp;
  }

  /** Decoding what was encoded gives the text back. */
  lemma {:induction false} DecodeEncode(s: string)
    ensures Decode(Encode(s)) == Some(s)
  {
    if |s| > 0 {
      var e := EncodeChar(s[0]);
      var rest := Encode(s[1..]);
      DecodeEncodeChar(s[0], rest);
      assert (e + rest)[|e|..] == rest;
      DecodeEncode(s[1..]);
      assert s == [s[0]] + s[1..];
    }
  }

  predicate IsAscii(s: string) {
    forall i :: 0 <= i < |s| ==> s[i] as int < 0x80
  }

  /** ASCII text is its own encoding, one byte per character. */
  lemma {:induction false} EncodeAscii(s: string)
    requires IsAscii(s)
    ensures Encode(s) == Octets(s)
  {
    if |s| > 0 {
      EncodeAscii(s[1..]);
    }
  }

  /** ASCII text comes back from its own octets. */
  lemma DecodeAscii(s: string)
    requires IsAscii(s)
    ensures Decode(Octets(s)) == Some(s)
  {
    EncodeAscii(s);
    DecodeEncode(s);
  }
}

=== FILE: values.dfy ===
/** The Python values a decoded relay message is made of. Each reader of
    the decoder returns one of these, exactly as the source's readers return
    an int, a str, a bytes, None, a list, an ordered dict or a tuple. */
module Values {
  import opened Bytes
  import opened ODict

  /** An hdata item: its `__path` pointer list first, then one entry per
      declared field, keyed by field name. */
  type Item = Dict<string, Value>

  datatype Value =
    | VInt(i: int)                              // chr, int, lon, tim
    | VStr(s: string)                           // str, ptr; '' of an empty buf
    | VBytes(b: bytes)                          // buf
    | VNone                                     // absent buf/ptr/lon/tim
    | VList(elems: seq<Value>)                  // arr, and an item's __path
    | VDict(entries: Dict<Value, Value>)        // htb
    | VInfo(name: string, text: string)         // inf: a (name, value) tuple
    | VHdata(path: seq<string>, keys: Dict<string, string>, count: int, items: seq<Item>)
    | VInfolist(name: string, vars: seq<Dict<string, Value>>)

  /** Python's `hash()` succeeds: lists and dicts are unhashable. */
  predicate Hashable(v: Value) {
    !(v.VList? || v.VDict? || v.VHdata? || v.VInfolist?)
  }

  /** Python truthiness (`if v:`). */
  predicate Truthy(v: Value) {
    match v
    case VInt(i) => i != 0
    case VStr(s) => |s| > 0
    case VBytes(b) => |b| > 0
    case VNone => false
    case VList(e) => |e| > 0
    case VDict(e) => |e| > 0
    case VInfo(_, _) => true
    case VHdata(_, _, _, _) => true
    case VInfolist(_, _) => true
  }
}

=== FILE: wire.dfy ===
/** The writing side of the relay protocol, as WeeChat produces it, for
    the scalar object types; each writer is paired with the reader of
    qweechat/weechat/protocol.py that undoes it. */
module Wire {
  import opened Results
  import opened Bytes
  import opened Values
  import opened Protocol
  import Utf8
  import PyInt

  function EncodeInt(x: int): (b: bytes)
    requires IsInt32(x)
    ensures |b| == 4
  {
    PackBE32(x)
  }

  /** `_obj_int` reads back a written integer and nothing more. */
  lemma ReadIntEncoded(x: int, rest: bytes)
    requires IsInt32(x)
    ensures ReadInt(EncodeInt(x) + rest) == Read(x, rest)
  {
    var d := EncodeInt(x) + rest;
    assert d[..4] == EncodeInt(x);
    assert d[4..] == rest;
    UnpackPack(x);
  }

  function EncodeChr(x: int): (b: bytes)
    requires -128 <= x < 128
    ensures |b| == 1
  {
    [PackSigned8(x)]
  }

  /** `_obj_char` reads back a written signed byte. */
  lemma ReadChrEncoded(x: int, rest: bytes)
    requires -128 <= x < 128
    ensures ReadChr(EncodeChr(x) + rest) == Read(x, rest)
  {
    assert (EncodeChr(x) + rest)[1..] == rest;
  }

  /** A length field on `size` bytes, then the bytes. */
  function EncodeChunk(b: bytes, size: nat): (r: bytes)
    requires size == 1 || size == 4
    requires size == 1 ==> |b| < 256
    requires size == 4 ==> |b| < TWO_31
    ensures |r| == size + |b|
  {
    (if size == 1 then [|b|] else PackBE32(|b|)) + b
  }

  /** `_obj_len_data` reads back a written chunk: the bytes, or `''` for
      none. */
  lemma ReadChunkEncoded(b: bytes, size: nat, rest: bytes)
    requires size == 1 || size == 4
    requires size == 1 ==> |b| < 256
    requires size == 4 ==> |b| < TWO_31
    ensures ReadChunk(EncodeChunk(b, size) + rest, size) == Read(if |b| == 0 then Empty else Data(b), rest)
  {
    var header: bytes := if size == 1 then [|b|] else PackBE32(|b|);
    var d := EncodeChunk(b, size) + rest;
    assert d == header + (b + rest);
    assert d[size..] == b + rest;
    if size == 4 {
      assert d[..4] == header;
      UnpackPack(|b|);
    }
    assert ChunkLength(d, size) == |b|;
    if |b| > 0 {
      assert Upto(b + rest, |b|) == b;
      assert From(b + rest, |b|) == rest;
    }
  }

  function EncodeStr(s: string): (b: bytes)
    requires |Utf8.Encode(s)| < TWO_31
  {
    EncodeChunk(Utf8.Encode(s), 4)
  }

  /** `_obj_str` reads back any written text, the empty text included. */
  lemma ReadStrEncoded(s: string, rest: bytes)
    requires |Utf8.Encode(s)| < TWO_31
    ensures ReadStr(EncodeStr(s) + rest) == Ok(Read(s, rest))
  {
    ReadChunkEncoded(Utf8.Encode(s), 4, rest);
    Utf8.DecodeEncode(s);
  }

  function EncodeType(t: Tag): (b: bytes)
    ensures |b| == 3
  {
    Octets(TagName(t))
  }

  /** Every type has its own name. */
  lemma LookupTagName(t: Tag)
    ensures Lookup(TagName(t)) == Some(t)
  {
  }

  /** `_obj_type` reads back a written type name. */
  lemma ReadTypeEncoded(t: Tag, rest: bytes)
    ensures ReadType(EncodeType(t) + rest) == Ok(Read(TagName(t), rest))
  {
    var name := TagName(t);
    Utf8.EncodeAscii(name);
    Utf8.DecodeEncode(name);
    var d := EncodeType(t) + rest;
    assert d[..3] == EncodeType(t);
    assert d[3..] == rest;
  }

  /** A long or a time: its decimal text as a one-byte-length chunk. */
  function EncodeDecimal(n: int): (b: bytes)
    requires |PyInt.Render(n)| < 256
  {
    EncodeChunk(Octets(PyInt.Render(n)), 1)
  }

  /** `_obj_long` and `_obj_time` read back a written integer. */
  lemma ReadDecimalEncoded(n: int, rest: bytes)
    requires |PyInt.Render(n)| < 256
    ensures ReadDecimal(EncodeDecimal(n) + rest) == Ok(Read(VInt(n), rest))
  {
    ReadChunkEncoded(Octets(PyInt.Render(n)), 1, rest);
    PyInt.ParseRender(PyInt.OfBytes, n);
  }

  /** The text after "0x" of a pointer the reader can have produced. */
  predicate PointerLike(s: string) {
    && |s| >= 2 && s[..2] == "0x" && |s| - 2 < 256
    && forall i :: 2 <= i < |s| ==> s[i] as int < 256
  }

  function EncodePtr(s: string): (b: bytes)
    requires PointerLike(s)
  {
    EncodeChunk(Octets(s[2..]), 1)
  }

  /** `_obj_ptr` reads back a written pointer. */
  lemma ReadPtrEncoded(s: string, rest: bytes)
    requires PointerLike(s)
    ensures ReadPtr(EncodePtr(s) + rest) == Read(VStr(s), rest)
  {
    var text := Octets(s[2..]);
    ReadChunkEncoded(text, 1, rest);
    if |s| == 2 {
      assert s == "0x";
    } else {
      assert s == "0x" + PointerText(text);
    }
  }

  /** The values `_obj_buffer` can produce: `None`, `''` or bytes. */
  predicate BufferLike(v: Value) {
    v.VNone? || v == VStr("") || (v.VBytes? && 0 < |v.b| < TWO_31)
  }

  function EncodeBuf(v: Value): (b: bytes)
    requires BufferLike(v)
  {
    if v.VBytes? then EncodeChunk(v.b, 4)
    else if v.VNone? then PackBE32(-1)
    else EncodeChunk([], 4)
  }

  /** `_obj_buffer` reads back a written buffer; a null buffer is written
      with length -1. */
  lemma ReadBufEncoded(v: Value, rest: bytes)
    requires BufferLike(v)
    ensures ReadBuf(EncodeBuf(v) + rest) == Read(v, rest)
  {
    if v.VBytes? {
      ReadChunkEncoded(v.b, 4, rest);
    } else if v.VNone? {
      var d := PackBE32(-1) + rest;
      assert d[..4] == PackBE32(-1);
      assert d[4..] == rest;
      UnpackPack(-1);
    } else {
      ReadChunkEncoded([], 4, rest);
    }
  }

  /** An object of a scalar type whose value that type's writer accepts. */
  predicate Scalar(o: Obj) {
    match Lookup(o.objType)
    case Some(Chr) => o.value.VInt? && -128 <= o.value.i < 128
    case Some(Int) => o.value.VInt? && IsInt32(o.value.i)
    case Some(Lon) => o.value.VInt? && |PyInt.Render(o.value.i)| < 256
    case Some(Tim) => o.value.VInt? && |PyInt.Render(o.value.i)| < 256
    case Some(Str) => o.value.VStr? && |Utf8.Encode(o.value.s)| < TWO_31
    case Some(Ptr) => o.value.VStr? && PointerLike(o.value.s)
    case Some(Buf) => BufferLike(o.value)
    case _ => false
  }

  function EncodeValue(o: Obj): bytes
    requires Scalar(o)
  {
    match Lookup(o.objType).value
    case Chr => EncodeChr(o.value.i)
    case Int => EncodeInt(o.value.i)
    case Lon => EncodeDecimal(o.value.i)
    case Tim => EncodeDecimal(o.value.i)
    case Str => EncodeStr(o.value.s)
    case Ptr => EncodePtr(o.value.s)
    case Buf => EncodeBuf(o.value)
  }

  /** The reader registered under an object's type reads back its value. */
  lemma ReadValueEncoded(o: Obj, rest: bytes)
    requires Scalar(o)
    ensures ReadNamed(o.objType, EncodeValue(o) + rest) == Ok(Read(o.value, rest))
  {
    match Lookup(o.objType).value
    case Chr => ReadChrEncoded(o.value.i, rest);
    case Int => ReadIntEncoded(o.value.i, rest);
    case Lon => ReadDecimalEncoded(o.value.i, rest);
    case Tim => ReadDecimalEncoded(o.value.i, rest);
    case Str => ReadStrEncoded(o.value.s, rest);
    case Ptr => ReadPtrEncoded(o.value.s, rest);
    case Buf => ReadBufEncoded(o.value, rest);
  }

  function EncodeObject(o: Obj): (b: bytes)
    requires Scalar(o)
    ensures |b| >= 3
  {
    EncodeType(Lookup(o.objType).value) + EncodeValue(o)
  }

  function EncodeObjects(objs: seq<Obj>): bytes
    requires forall i :: 0 <= i < |objs| ==> Scalar(objs[i])
  {
    if |objs| == 0 then [] else EncodeObject(objs[0]) + EncodeObjects(objs[1..])
  }

  /** One written object reads back as its type name, then its value. */
  lemma ReadObjectEncoded(o: Obj, tail: bytes)
    requires Scalar(o)
    ensures ReadType(EncodeObject(o) + tail) == Ok(Read(o.objType, EncodeValue(o) + tail))
    ensures ReadNamed(o.objType, EncodeValue(o) + tail) == Ok(Read(o.value, tail))
  {
    var t := Lookup(o.objType).value;
    assert EncodeObject(o) + tail == EncodeType(t) + (EncodeValue(o) + tail);
    ReadTypeEncoded(t, EncodeValue(o) + tail);
    ReadValueEncoded(o, tail);
  }

  /** Reading the objects of a message gives back every written object,
      in order. */
  lemma {:induction false} ReadObjectsEncoded(objs: seq<Obj>)
    requires forall i :: 0 <= i < |objs| ==> Scalar(objs[i])
    ensures ReadObjects(EncodeObjects(objs)) == Ok(objs)
  {
    if |objs| > 0 {
      var o := objs[0];
      var tail := EncodeObjects(objs[1..]);
      assert EncodeObjects(objs) == EncodeObject(o) + tail;
      ReadObjectEncoded(o, tail);
      ReadObjectsEncoded(objs[1..]);
      ReadObjectsStep(EncodeObjects(objs), o, EncodeValue(o) + tail, tail, objs[1..]);
      assert objs == [o] + objs[1..];
    }
  }

  /** How `ReadObjects` goes through one object. */
  lemma ReadObjectsStep(d: bytes, o: Obj, afterType: bytes, tail: bytes, others: seq<Obj>)
    requires |d| > 0
    requires ReadType(d) == Ok(Read(o.objType, afterType))
    requires ReadNamed(o.objType, afterType) == Ok(Read(o.value, tail))
    requires ReadObjects(tail) == Ok(others)
    ensures ReadObjects(d) == Ok([o] + others)
  {
  }

  /** What a message needs to be writable: a message id and scalar objects
      that fit the 32-bit length field. */
  predicate Encodable(msgid: string, objs: seq<Obj>) {
    && |Utf8.Encode(msgid)| < TWO_31
    && (forall i :: 0 <= i < |objs| ==> Scalar(objs[i]))
    && IsInt32(5 + |EncodeStr(msgid) + EncodeObjects(objs)|)
  }

  /** An uncompressed message: total length, a zero flag, the id, the
      objects. */
  function EncodeMessage(msgid: string, objs: seq<Obj>): (m: bytes)
    requires Encodable(msgid, objs)
    ensures |m| >= 5 && m[4] == 0 && BE32(m[..4]) == |m|
  {
    var body := EncodeStr(msgid) + EncodeObjects(objs);
    var m := PackBE32(5 + |body|) + [0] + body;
    UnpackPack(5 + |body|);
    assert m[..4] == PackBE32(5 + |body|);
    m
  }

  /** `Protocol.decode` gives back the id and every object of an
      uncompressed message, and reports its size. */
  lemma DecodeEncoded(msgid: string, objs: seq<Obj>, inflate: bytes -> Option<bytes>)
    requires Encodable(msgid, objs)
    ensures var m := EncodeMessage(msgid, objs);
      Decode(m, inflate) == Ok(Message(|m|, |m|, 0, m, msgid, objs))
  {
    var body := EncodeStr(msgid) + EncodeObjects(objs);
    var m := EncodeMessage(msgid, objs);
    assert m[5..] == EncodeStr(msgid) + EncodeObjects(objs);
    ReadStrEncoded(msgid, EncodeObjects(objs));
    ReadObjectsEncoded(objs);
  }

  /** A compressed message decodes as the plain message made of its
      inflated body: same id, same objects, same uncompressed bytes. */
  lemma DecodeCompressed(data: bytes, inflate: bytes -> Option<bytes>, u: bytes)
    requires |data| >= 5 && Signed8(data[4]) != 0
    requires inflate(data[5..]) == Some(u) && IsInt32(|u| + 5)
    ensures var plain := PackBE32(|u| + 5) + [0] + u;
      && (Decode(data, inflate).Ok? <==> Decode(plain, inflate).Ok?)
      && (Decode(data, inflate).Ok? ==>
            && Decode(data, inflate).value.msgid == Decode(plain, inflate).value.msgid
            && Decode(data, inflate).value.objects == Decode(plain, inflate).value.objects
            && Decode(data, inflate).value.uncompressed == plain
            && Decode(data, inflate).value.sizeUncompressed == |u| + 5)
  {
    var plain := PackBE32(|u| + 5) + [0] + u;
    assert plain[4] == 0;
  }
}
